=== FILE: README.md ===
# uproot TTree writer — a Dafny model

This project models the part of uproot's ROOT-file writer that serialises a
`TTree`, its `branch`es and the key of a `TObjString`:

- the streamer records the tree and branch writers emit (`TObject`,
  `TNamed`, `TAttLine`, `TAttFill`, `TAttMarker`, `ROOT::TIOFeatures`,
  `TObjArray`, `TArray`, `TLeaf`, `TLeafI`, `TBranch`, `TTree`), each as a
  pure function from a cursor position and the object's fields to the bytes
  written and the advanced cursor;
- the framing every record shares: a `>IH` header whose count is the body
  length plus two with ROOT's `kByteCountMask` bit set, followed by the body
  unchanged;
- the tree's `write`: the numpy conversions of its four arrays, the
  accumulation of the branches' entry and byte totals into the tree's, and
  the layout of the whole record;
- the branch constructor's defaults and `branch.write`'s layout;
- the `TObjString` key constructor's derived fields and the order in which
  `values()` hands them to the `>ihiIhhii` packer.

Python's `struct` module is modelled by an interpreter over the same format
strings the writer uses (`Struct.Pack`/`Struct.Unpack`); integers that do not
fit a code are a `StructError`, as in Python. `fixstring`'s UTF-8 encoding is
modelled and proved to decode back. Writing an object of unknown type
(`util.put_objany`) is a parameter, `Dispatcher<O, S>`, threading an
abstract state `S` that stands for the key cursor; the model proves what the
writers do around the dispatcher's output, whatever it is. Floating-point
values (`_fWeight`, `_fMarkerSize`, `_fIndexValues`) are opaque bit
patterns. A failing write is a `Result` error (`TypeError`, `IndexError`,
`OverflowError`, `StructError`) rather than an exception.

The modules follow the source's structure: `Framing` (the shared count and
version header), `Streamers` (the record writers both classes carry),
`Branches` and `BranchRecord` (the `branch` class), `Trees` (the `TTree`
class), `Keys` (`key.py`); `Bytes`, `Struct`, `Text` and `Cursors` model
the byte, `struct`, string and cursor primitives they rely on.

The tree's totals are ADDED to the totals it already holds (`+=`,
`uproot/write/objects/TTree.py:177-180`), so writing a tree twice counts its
branches twice (`Trees.AccumulatedTwice`); a branch's title is
`fixstring(name)`, and the `title` argument is unused. Three places where the code cannot run as
written are modelled as evidently intended instead: the tree's leaf array
(`Trees.TreeLeafArray`) and the branch's leaf array
(`BranchRecord.LeafArray`), each with a member that models the code as
written under "## Findings", and the field names `branch.write` reads,
under "## Left out".

## Model

| member | source | states |
|---|---|---|
| Text.FixString | uproot/write/objects/TTree.py:60-65 | bytes pass through unchanged; text becomes its UTF-8 encoding, between one and four bytes per character |
| Text.EncodeChar | uproot/write/objects/TTree.py:65 | a character encodes to one to four bytes; to a single byte equal to its code exactly when it is below 0x80; every byte after the first is a continuation byte |
| Text.EncodeCharRoundTrip | uproot/write/objects/TTree.py:65 | decoding the encoding of any character, whatever follows it, gives the character back and consumes exactly its encoding |
| Text.Utf8RoundTrip | uproot/write/objects/TTree.py:65 | decoding the UTF-8 encoding of any text gives the text back, so distinct names encode to distinct bytes |
| Text.AsciiEncodesAsItself | uproot/write/objects/TTree.py:65 | ASCII text encodes to one byte per character, each equal to the character's code |
| Text.FixStringIdempotent | uproot/write/objects/TTree.py:283-288 | fixing a string that is already fixed changes nothing |
| Framing.ByteCount | uproot/write/objects/TTree.py:79-80 | the count always carries the kByteCountMask bit; it is the length plus the mask when the length is below the mask, and fits 32 bits when the length does |
| Framing.Frame | uproot/write/objects/TTree.py:79-81 | framing succeeds exactly when the version fits two bytes and the length plus two fits four; the result is six header bytes then the body unchanged |
| Framing.FrameHeader | uproot/write/objects/TTree.py:79-81 | the header reads back through `>IH` as the masked count of the body length plus two, and the version |
| Framing.CntVersFits | uproot/write/objects/TTree.py:67 | the `>IH` header is six bytes and accepts a count and version exactly when they fit unsigned 32 and 16 bits |
| Framing.Framed | uproot/write/objects/TTree.py:74-81 | a record written after skipping the header is framed at the copied cursor, and the cursor ends past header and body |
| Framing.FrameRoundTrip | uproot/write/objects/TTree.py:79-81 | parsing a framed record, whatever follows it, gives back the version and the body |
| Framing.ParseFrameRoundTrip | uproot/write/objects/TTree.py:79-81 | any record that parses is exactly the framing of what it parses to |
| Framing.ByteCountOfMasked | uproot/write/objects/TTree.py:80 | every count that carries the mask is the masked count of its own length, the count minus the mask |
| Framing.LargeBodyCountIsAmbiguous | uproot/write/objects/TTree.py:80 | a body whose length plus two already has the mask bit set gets a count from which the length cannot be recovered |
| Streamers.PutTObject | uproot/write/objects/TTree.py:69-71 | written exactly when fBits fits 32 bits; ten bytes; the cursor advances by them |
| Streamers.TObjectReadsBack | uproot/write/objects/TTree.py:69-71 | the bytes read back as version 1, unique id 0 and the given fBits (0x03000000 for the tree, 0x03400000 for a branch) |
| Streamers.TObjectFields | uproot/write/objects/TTree.py:69-71 | `>HII` is ten bytes and accepts version 1, id 0 and fBits exactly when fBits fits 32 bits |
| Streamers.PutTNamed | uproot/write/objects/TTree.py:73-81 | written exactly when fBits fits and both strings fit the count; 16 bytes plus the two strings' sizes |
| Streamers.TNamedBody | uproot/write/objects/TTree.py:77-78 | the body after the header: the TObject then the name and the title, written exactly when each fits |
| Streamers.TNamedReadsBack | uproot/write/objects/TTree.py:73-81 | framed as version 1; the body reads back as the TObject fields, then the name, then the title |
| Streamers.TNamedBodyReadsBack | uproot/write/objects/TTree.py:77-78 | the body reads back as the TObject fields, the name and the title, in that order |
| Streamers.LineFields | uproot/write/objects/TTree.py:83-91 | `>hhh` is six bytes and accepts the line attributes exactly when each fits 16 bits |
| Streamers.FillFields | uproot/write/objects/TTree.py:96-103 | `>hh` is four bytes and accepts the fill attributes exactly when each fits 16 bits |
| Streamers.MarkerFields | uproot/write/objects/TTree.py:108-116 | `>hhf` is eight bytes and accepts the marker attributes exactly when color and style fit 16 bits and the size is a four-byte float |
| Streamers.PutAttributes | uproot/write/objects/TTree.py:84-94 | an attribute record is written exactly when its fields fit its format, and is six bytes longer than the format |
| Streamers.AttributesReadBack | uproot/write/objects/TTree.py:84-94 | an attribute record is framed as version 2 and its body unpacks to the fields written |
| Streamers.PutTAttLine | uproot/write/objects/TTree.py:83-94 | written exactly when color, style and width fit 16 bits; 6 + 6 bytes |
| Streamers.PutTAttFill | uproot/write/objects/TTree.py:96-106 | written exactly when color and style fit 16 bits; 6 + 4 bytes (the branch writes the same record at lines 308-318) |
| Streamers.PutTAttMarker | uproot/write/objects/TTree.py:108-119 | written exactly when color and style fit 16 bits and the size is a four-byte float; 6 + 8 bytes |
| Streamers.TAttLineReadsBack | uproot/write/objects/TTree.py:83-94 | framed as version 2; the body reads back as color, style and width |
| Streamers.TAttFillReadsBack | uproot/write/objects/TTree.py:96-106 | framed as version 2; the body reads back as color and style |
| Streamers.TAttMarkerReadsBack | uproot/write/objects/TTree.py:108-119 | framed as version 2; the body reads back as color, style and size |
| Streamers.PutRootIOFeatures | uproot/write/objects/TTree.py:121-131 | the record is always the same eleven bytes and the cursor advances past them, magic included |
| Streamers.IOFeaturesHeader | uproot/write/objects/TTree.py:121-131 | those eleven bytes are the version-0 framing of the magic and the zero fIOBits |
| Streamers.IOFeaturesReadsBack | uproot/write/objects/TTree.py:121-131 | eleven bytes, framed as version 0, the four magic bytes, then fIOBits reading back as 0 |
| Streamers.PutSkipTObj | uproot/write/objects/TTree.py:148-155 | written exactly when fBits fits 32 bits; ten bytes |
| Streamers.SkipTObjReadsBack | uproot/write/objects/TTree.py:148-155 | reads back as version 1 in `>h`, then unique id 0 and fBits in `>II` |
| Streamers.SkipTObjFields | uproot/write/objects/TTree.py:148-155 | `>h` and `>II` are two and eight bytes; the second accepts id 0 and fBits exactly when fBits fits |
| Streamers.PutObjAny | uproot/write/objects/TTree.py:143 | an object written through the dispatcher is exactly what the dispatcher returns at the cursor, and the cursor advances past it |
| Streamers.PutEach | uproot/write/objects/TTree.py:142-143 | writing every value advances the cursor past what is written; no values write nothing and leave the state alone |
| Streamers.PutEachAppend | uproot/write/objects/TTree.py:142-143 | values are written in order: one more value appends exactly its own dispatch, at the cursor and state the earlier ones left |
| Streamers.Wrapped | uproot/write/objects/TTree.py:371-375 | a sequence is kept as it is; a single value becomes a one-element list |
| Streamers.ObjArrayPrefix | uproot/write/objects/TTree.py:137-141 | written exactly when fBits fits unsigned and the size fits signed 32 bits; 19 bytes |
| Streamers.ObjArrayPrefixLayout | uproot/write/objects/TTree.py:137-141 | the prefix reads back as the skipped TObject, an empty name, the size and lower bound 0 |
| Streamers.SizeLowFields | uproot/write/objects/TTree.py:133 | `>ii` is eight bytes and accepts the size and 0 exactly when the size fits signed 32 bits |
| Streamers.PutTObjArray | uproot/write/objects/TTree.py:133-146 | a single value is a TypeError unless scalars are wrapped (as the branch's variant does); a written array is at least 25 bytes and advances the cursor |
| Streamers.ObjArrayBody | uproot/write/objects/TTree.py:365-382 | framed as version 3; the body is the prefix for the wrapped values' count followed by every value's dispatch in order |
| Streamers.ObjArrayLayout | uproot/write/objects/TTree.py:134-146 | the body reads back as version 1, id 0, fBits, an empty name, the value count and 0, then the values' bytes |
| Streamers.ObjArrayShape | uproot/write/objects/TTree.py:366-382 | the written array announces, in its header, exactly as many entries as wrapped values |
| Streamers.EmptyObjArray | uproot/write/objects/TTree.py:418-420 | the 25-byte literal the branch writes is exactly the object array of no values with the default fBits |
| Streamers.PutTArray | uproot/write/objects/TTree.py:157-159 | written exactly when the item count fits signed 32 bits; a four-byte count then the array's items |
| Streamers.TArrayReadsBack | uproot/write/objects/TTree.py:157-159 | the first four bytes read back as the number of items |
| Streamers.CountField | uproot/write/objects/TTree.py:157-159 | `>i` is four bytes and accepts a count exactly when it fits signed 32 bits |
| Cursors.PutLiteral | uproot/write/objects/TTree.py:208-210 | a literal appended to the buffer is advanced over by exactly its length |
| Cursors.PutFields | uproot/write/objects/TTree.py:88-91 | fields are written exactly when the format is big-endian and they fit it; the format's size in bytes |
| Cursors.PutFieldsReadsBack | uproot/write/objects/TTree.py:88-91 | fields written in canonical form unpack to the same fields |
| Cursors.PutString | uproot/write/objects/TTree.py:78 | written exactly when the length fits four bytes; the string's bytes end the output |
| Cursors.StringRoundTrip | uproot/write/objects/TTree.py:78 | reading a written string, whatever follows, gives the string back and its size |
| Cursors.ReadStringRoundTrip | uproot/write/objects/TTree.py:78 | any canonical length-prefixed string that reads is exactly the writing of what it reads to |
| Cursors.ToArray | uproot/write/objects/TTree.py:172-175 | the conversion succeeds exactly when every item fits the dtype, and then keeps the items and their order |
| Cursors.PutArray | uproot/write/objects/TTree.py:208 | an array is written as its items' bytes, item size times count, readable back as the array |
| Cursors.ArrayRoundTrip | uproot/write/objects/TTree.py:208 | reading the bytes of fitting items gives back the same items |
| Branches.Zeros | uproot/write/objects/TTree.py:257-259 | an array of the dtype with n items, each zero |
| Branches.NewBranch | uproot/write/objects/TTree.py:236-272 | name and title are the fixed name; an "int" branch has the single leaf "TLeafI", any other none; compression 100, the given basket size, ten zeroed baskets of the declared dtypes, fill 0/1001; entries, byte totals, entry number, offset length, basket count, offset, split level and first entry all 0 |
| Branches.LeafFieldsPack | uproot/write/objects/TTree.py:335-347 | `>iii??` is fourteen bytes and accepts fLen 1, fLenType 4, fOffset 0 and two false flags |
| Branches.LeafFieldsAt | uproot/write/objects/TTree.py:347 | the leaf's fixed fields take fourteen bytes and advance the cursor |
| Branches.LeafFieldsReadBack | uproot/write/objects/TTree.py:340-347 | those bytes read back as 1, 4, 0, false, false |
| Branches.PutTLeaf | uproot/write/objects/TTree.py:336-351 | written only when the leaf's TNamed is; header plus TNamed plus fourteen plus the leaf-count object |
| Branches.TLeafBody | uproot/write/objects/TTree.py:346-351 | framed as version 2; the body is the TNamed, the fixed fields, then the None leaf count's dispatch |
| Branches.TLeafLayout | uproot/write/objects/TTree.py:336-351 | framed as version 2; after the header, the TNamed bytes, the fields reading back as 1, 4, 0, false, false, then the leaf count |
| Branches.MinMaxAt | uproot/write/objects/TTree.py:358-360 | minimum and maximum take eight bytes and advance the cursor |
| Branches.MinMaxReadBack | uproot/write/objects/TTree.py:358-360 | those bytes read back as 0 and 0 |
| Branches.MinMaxFields | uproot/write/objects/TTree.py:353 | `>ii` is eight bytes and accepts 0 and 0 |
| Branches.PutTLeafI | uproot/write/objects/TTree.py:354-363 | written exactly when its TLeaf is; header plus the TLeaf plus eight |
| Branches.TLeafILayout | uproot/write/objects/TTree.py:354-363 | framed as version 1; the TLeaf written after the header, then minimum and maximum reading back as 0 |
| BranchRecord.CountFields | uproot/write/objects/TTree.py:401-406 | `>iiiiq` is 24 bytes and accepts compression, basket size, offset length, basket count and entry number exactly when each fits |
| BranchRecord.SizeFields | uproot/write/objects/TTree.py:408-415 | `>iIiqqqq` is 44 bytes and accepts the seven size fields exactly when each fits its code |
| BranchRecord.BranchHead | uproot/write/objects/TTree.py:399-415 | written exactly when the TNamed (title with "/I" appended) is and the fill attributes fit; TNamed size plus 89 bytes |
| BranchRecord.BranchHeadLayout | uproot/write/objects/TTree.py:399-415 | the TNamed, the fill record, the counts, the IO features and the sizes, each reading back as the branch's fields |
| BranchRecord.BranchArrays | uproot/write/objects/TTree.py:416-417 | the sub-branch array then the leaf array; a branch without a leaf is an IndexError |
| BranchRecord.BranchArraysLayout | uproot/write/objects/TTree.py:416-417 | the sub-branch array announces one entry per sub-branch; the leaf array announces exactly one |
| BranchRecord.LeafArrayEntry | uproot/write/objects/TTree.py:371-379 | the leaf, handed over as a lone value, is wrapped into a one-entry list, so everything after the leaf array's 25-byte head is exactly what the writer produces for the leaf |
| BranchRecord.LeafArrayHoldsLeafI | uproot/write/objects/TTree.py:354-363 | when the leaf array's writer emits a leaf through its TLeafI record, the leaf array's one entry after its head is exactly that TLeafI record |
| BranchRecord.BranchTail | uproot/write/objects/TTree.py:419-430 | written exactly when the file name's length fits four bytes; its size is fixed by the basket arrays and the file name |
| BranchRecord.BranchTailLayout | uproot/write/objects/TTree.py:419-430 | the empty basket array, 0x01, the basket sizes, 0x01, the basket entries and seeks, the file name, then 0x00 |
| BranchRecord.BranchBody | uproot/write/objects/TTree.py:399-430 | the body is written only when the head and the arrays are; a failing head fails it; a branch without a leaf is an IndexError |
| BranchRecord.BranchBodyParts | uproot/write/objects/TTree.py:399-430 | the body is the head, the arrays and the tail, each at the cursor the previous one left |
| BranchRecord.WriteBranch | uproot/write/objects/TTree.py:395-433 | the branch record is written exactly when its body is, and advances the cursor |
| BranchRecord.WriteBranchLayout | uproot/write/objects/TTree.py:395-433 | framed as version 13 around the body unchanged |
| BranchRecord.NewBranchWritable | uproot/write/objects/TTree.py:245-272 | for a 32-bit basket size, a fresh branch's tail is always writable and its head exactly when the encoded name and the name plus "/I" fit the named header's 32-bit count; it has a leaf exactly when its kind is "int" |
| BranchRecord.LeafArgumentsAsWritten | uproot/write/objects/TTree.py:417 | indexing the leaf list at 0 and 1 yields names from the list, or IndexError |
| BranchRecord.LeafArgumentsAlwaysFail | uproot/write/objects/TTree.py:417 | for every branch the constructor makes, the arguments as written raise IndexError |
| Trees.NewTree | uproot/write/objects/TTree.py:17-58 | name and title fixed, the given branches pending, and every default of the field table: the attributes, zero totals and counters, scan field 25, offset length 1000, the entry limits, auto-save/flush and estimate, empty cluster, index, branch and leaf lists, and no friends, tree index, aliases, user info or branch reference |
| Trees.SumAppend | uproot/write/objects/TTree.py:177-180 | a sum over branches grows by the last branch's value |
| Trees.SumConcat | uproot/write/objects/TTree.py:177-180 | a sum over two runs of branches is the sum of their sums |
| Trees.AccumulateTotals | uproot/write/objects/TTree.py:177-185 | entries and byte totals grow by the branches' sums; branches and their leaf lists are appended in order, earlier ones kept |
| Trees.AccumulatedKeepsLeavesAligned | uproot/write/objects/TTree.py:181-185 | if the i-th leaf list is the i-th branch's before, it still is after |
| Trees.NewTreeLeavesAligned | uproot/write/objects/TTree.py:50-56 | a new tree starts with its branch and leaf lists aligned |
| Trees.AccumulatedTwice | uproot/write/objects/TTree.py:177-185 | a second write adds the branches' totals again and appends the branches again |
| Trees.TreeFields | uproot/write/objects/TTree.py:191-207 | the 17 numbers take 116 bytes and are accepted exactly when each fits its code |
| Trees.TotalsFit | uproot/write/objects/TTree.py:191-196 | entries, tot, zip, saved and flushed bytes are accepted exactly when they fit 64 bits |
| Trees.SettingsFit | uproot/write/objects/TTree.py:196-201 | the weight's eight bytes, then timer, scan field, update, offset length and cluster-range count, accepted exactly when each fits its code |
| Trees.LimitsFit | uproot/write/objects/TTree.py:202-207 | the six limits are accepted exactly when they fit 64 bits |
| Trees.NewTreeInRange | uproot/write/objects/TTree.py:23-58 | a new tree's defaults fit their codes; its accumulated totals fit exactly when the branches' sums fit 64 bits |
| Trees.AccumulatedValues | uproot/write/objects/TTree.py:177-180 | after accumulation the first three written numbers are the old totals plus the sums; the rest are unchanged |
| Trees.TreeHead | uproot/write/objects/TTree.py:187-207 | written exactly when the TNamed is and the attributes and fields fit; TNamed size plus 152 bytes |
| Trees.TreeHeadLayout | uproot/write/objects/TTree.py:187-207 | the TNamed, the line, fill and marker records reading back as the tree's attributes, then its 17 fields |
| Trees.Clusters | uproot/write/objects/TTree.py:208-213 | the two cluster arrays each followed by a zero byte; the cursor advances past all of it |
| Trees.ClusterSentinels | uproot/write/objects/TTree.py:208-213 | each cluster array reads back as written and is followed by a 0x00 byte |
| Trees.LeafObjs | uproot/write/objects/TTree.py:216-219 | one leaf object for every branch that has a leaf, and nothing else |
| Trees.LeafObjsConcat | uproot/write/objects/TTree.py:216-219 | collecting leaves distributes over concatenation, so the leaves of earlier branches come first (branch order) |
| Trees.LeafObjsOfInts | uproot/write/objects/TTree.py:267-268 | for constructor-made branches, the leaves are exactly the "int" branches |
| Trees.TreeArrays | uproot/write/objects/TTree.py:214-219 | the IO features, the branch array, then the leaf array; the cursor advances |
| Trees.TreeArraysLayout | uproot/write/objects/TTree.py:214-219 | the IO features' eleven bytes, an array announcing one entry per branch, then one announcing one entry per leaf |
| Trees.IndexArrays | uproot/write/objects/TTree.py:221-222 | written exactly when both index arrays' counts fit signed 32 bits; eight bytes plus both arrays |
| Trees.IndexArraysLayout | uproot/write/objects/TTree.py:221-222 | the index values then the index, each a TArray reading back as written |
| Trees.TrailingObjects | uproot/write/objects/TTree.py:223-226 | the tree index, friends, user info and branch reference go through the dispatcher, the tree index first |
| Trees.TreeTail | uproot/write/objects/TTree.py:220-226 | the aliases, then the two index arrays, then the trailing objects |
| Trees.TreeTailLayout | uproot/write/objects/TTree.py:220-226 | after the aliases' bytes, the index values and the index read back as TArrays |
| Trees.TreeBody | uproot/write/objects/TTree.py:187-226 | written only when the head is; a failing head fails it |
| Trees.TreeRest | uproot/write/objects/TTree.py:208-226 | advances the cursor by at least the two cluster arrays, their two 0x00 bytes and the eleven IO-feature bytes; the exact split is TreeRestParts' |
| Trees.TreeRestLayout | uproot/write/objects/TTree.py:208-226 | each cluster array followed by 0x00, then the IO features |
| Trees.TreeRestParts | uproot/write/objects/TTree.py:208-226 | the rest is exactly the clusters, then the tree's object arrays written where the clusters end, then the tail written where the arrays end |
| Trees.TreeBodyLayout | uproot/write/objects/TTree.py:187-226 | the fields after the TNamed and attributes read back as the tree's numbers; the clusters and IO features follow |
| Trees.TreeBodyParts | uproot/write/objects/TTree.py:187-226 | the body is exactly the head, then the rest written where the head ends |
| Trees.WriteTree | uproot/write/objects/TTree.py:163-229 | a written tree is the accumulated tree; a cluster boundary that does not fit 64 bits is an OverflowError, an index that does not fit is an error |
| Trees.WriteTreeArrays | uproot/write/objects/TTree.py:163-229 | on success all four conversions succeeded and the record is the version-20 framing of the body |
| Trees.WriteTreeLayout | uproot/write/objects/TTree.py:163-229 | framed as version 20; the body carries the ACCUMULATED totals and the converted cluster arrays each followed by 0x00 |
| Trees.TreeLeafArgumentsAsWritten | uproot/write/objects/TTree.py:216-219 | indexing the leaf lists at [0][0] and [0][1] yields names from the first list, or IndexError |
| Trees.TreeLeafArgumentsAlwaysFail | uproot/write/objects/TTree.py:216-219 | for any tree with a constructor-made branch, the arguments as written raise IndexError |
| Keys.NewKey | write/TObjString/key.py:3-16 | fObjlen is 17 plus the string's length, fNbytes is fObjlen plus fKeylen, version 4, cycle 1, seekPdir 100, seekKey the location, class "TObjString", the string as name, title "Collectable string class" |
| Keys.ValuesOrder | write/TObjString/key.py:5-19 | one number per packer code, in the packer's order, with the constructor's values |
| Keys.LengthsFit | write/TObjString/key.py:13 | `>ihiI` takes 14 bytes and accepts the first four numbers exactly when each fits its code |
| Keys.PlacesFit | write/TObjString/key.py:13 | `hhii` takes 12 bytes and accepts the last four numbers exactly when each fits its code |
| Keys.KeyHeaderPacks | write/TObjString/key.py:3-19 | a new key packs exactly when 17 plus the length and the location fit signed 32 bits; then 26 bytes that unpack to the same numbers |

## Left out

- Branches.NewBranch: the constructor's `compression` argument (default None) is stored on the object and read by no writer in this model, so the branch datatype has no field for it.
- `uproot.write.compress.write` (TTree.py:230) is not part of this model: `Trees.WriteTree` returns the record it would hand over.
- `util.put_objany` and the key cursor are not part of this model; the `Dispatcher` parameter stands for them, so what an aliases list, tree index or leaf count writes is left abstract.
- `cursor.put_fields`, `put_string`, `put_array` and `put_data` come from the sink cursor, which is not part of this model; they are modelled from their use here (big-endian `struct` packing, ROOT's one- or five-byte string length, an array's raw item bytes).
- `uproot.const` is not part of this model; `kByteCountMask` is ROOT's 0x40000000.
- Floating-point values are opaque four- or eight-byte patterns; the default weight and marker size are their IEEE 754 encodings of 1.0.
- numpy's `int64` dtype is taken as little-endian (the host order); the other dtypes are big-endian as declared.
- The `util`/`keycursor` assignments (TTree.py:164-168, 183-184) only hand helpers around and are not modelled.
- `branch.append`, `extend` and `basket` (TTree.py:274-281) raise NotImplementedError and are not modelled.
- `branch.write` reads its fields under names without the leading underscore (`fCompress`, `fBasketBytes`, …, TTree.py:401-428), which the constructor's table does not hold (line 249 also adds a stray key with a fragment of code spliced into its name, beside the correct `_fEntryNumber` at line 265); as written every branch write raises KeyError at line 402. `BranchRecord.WriteBranch` writes the fields the names evidently mean.
- Cursors.ToArray: refuses with OverflowError every item not already of the dtype's kind (an integer in range, or an eight-byte float for `>f8`), where numpy also converts items of another kind (an int into a `>f8` array, a bool or a float into an `int64` one); the model's floats are opaque bit patterns, so those conversions are not modelled.
- Trees.WriteTree: its OverflowError and error cases for the cluster and index arrays inherit that refusal, so a bool or float item that numpy would convert counts as an error here.
- A failing tree write leaves the Python object's field table partly updated; a `Result` error carries no tree, so that state is not modelled.
- The creation time in `key.py` is the fixed stamp the source writes, not the clock.
- Trees.TreeTail: states only the order of its parts and a lower bound on its length, because the dispatched objects' lengths are abstract.
- Trees.TrailingObjects: states that the tree index is dispatched first; the order of the other three is in its body only.
- Trees.TreeBody: states a lower bound on its length; the exact layout is `Trees.TreeBodyLayout`'s.
- Streamers.PutTObjArray: states only a lower bound on its length; the exact layout is `Streamers.ObjArrayLayout`'s.

## Findings

| source | as written | input that shows it | evidently intended | confidence | as-written member | corrected member |
|---|---|---|---|---|---|---|
| uproot/write/objects/TTree.py:417 | the leaf array is given `_fLeaves[0]` as values and `_fLeaves[1]` as the class name | `branch("int", "x", "x")`: its leaf list is `["TLeafI"]`, so `_fLeaves[1]` raises IndexError (and any other kind has an empty list); as written the KeyError at line 402 comes first, so this IndexError is reached once the field names are corrected | an array holding the branch's one leaf, of the class its leaf name gives | not executed | BranchRecord.LeafArgumentsAlwaysFail | BranchRecord.BranchArraysLayout |
| uproot/write/objects/TTree.py:216-219 | with branches present, the leaf array is given `_fLeaves[0][0]` as values and `_fLeaves[0][1]` as the class name | `TTree("t", "t", branch("int", "x", "x"))`: `_fLeaves[0]` is `["TLeafI"]`, so `[0][1]` raises IndexError | an array of every branch's leaf; the model reads the class as "TLeaf", the class the no-branch path writes (an interpretation: line 219 takes the class from the leaf list, as line 417 does, which would give "TLeafI") | not executed | Trees.TreeLeafArgumentsAlwaysFail | Trees.TreeArraysLayout |

=== FILE: branch.dfy ===
/** A tree branch and its serialisation: the branch record with the
    defaults the constructor sets, the TLeaf and TLeafI records of its
    single integer leaf, and the TBranch record itself. */
module Branches {
  import opened Bytes
  import opened Errors
  import opened Struct
  import opened Text
  import opened Cursors
  import opened Framing
  import opened Streamers

  /** What the writers hand to the object dispatcher. */
  datatype Obj =
    | NoObject                // Python's None
    | BranchObj(branch: Branch)
    | LeafObj(owner: Branch)  // the leaf a branch writes through `put_tleafI`

  /** The branch's field table.  `leaves` holds leaf class names: a branch
      of kind "int" has the single leaf "TLeafI", any other kind none. */
  datatype Branch = Branch(
    kind: string,
    name: Bytes,
    title: Bytes,
    compress: int,
    basketSize: int,
    entryOffsetLen: int,
    writeBasket: int,
    entryNumber: int,
    offset: int,
    maxBaskets: int,
    splitLevel: int,
    entries: int,
    firstEntry: int,
    totBytes: int,
    zipBytes: int,
    basketBytes: NumArray,
    basketEntry: NumArray,
    basketSeek: NumArray,
    fileName: Bytes,
    branches: seq<Obj>,
    leaves: seq<string>,
    fill: FillAttr)

  const DefaultBasketSize := 32000
  const DefaultCompress := 100
  const DefaultMaxBaskets := 10

  /** Record versions. */
  const LeafVersion := 2
  const LeafIVersion := 1
  const BranchVersion := 13

  /** `n` zeros in a numpy array of the given dtype. */
  function Zeros(t: DType, n: nat): (a: NumArray)
    requires t != Float64Big
    ensures a.dtype == t && |a.items| == n
    ensures forall k :: 0 <= k < n ==> a.items[k] == Int(0)
  {
    var items := seq(n, _ => Int(0));
    assert forall k :: 0 <= k < n ==> ItemFits(t, items[k]) by {
      Pow256Values();
    }
    RawArray(t, items)
  }

  /** `branch(type, name, title, defaultBasketSize)`.  The title argument is
      not used: the branch's title is its (encoded) name. */
  function NewBranch(kind: string, name: PyStr, title: PyStr, basketSize: int := DefaultBasketSize): (b: Branch)
    ensures b.kind == kind && b.name == FixString(name) && b.title == b.name
    ensures b.leaves == (if kind == "int" then ["TLeafI"] else [])
    ensures b.compress == DefaultCompress && b.basketSize == basketSize && b.maxBaskets == DefaultMaxBaskets
    ensures b.entries == 0 && b.totBytes == 0 && b.zipBytes == 0 && b.entryNumber == 0
    ensures b.entryOffsetLen == 0 && b.writeBasket == 0 && b.offset == 0 && b.splitLevel == 0 && b.firstEntry == 0
    ensures b.basketBytes == Zeros(Int32Big, DefaultMaxBaskets)
    ensures b.basketEntry == Zeros(Int64Big, DefaultMaxBaskets) && b.basketSeek == Zeros(Int64Big, DefaultMaxBaskets)
    ensures b.fileName == [] && b.branches == [] && b.fill == FillAttr(0, 1001)
  {
    Branch(
      kind := kind,
      name := FixString(name),
      title := FixString(name),
      compress := DefaultCompress,
      basketSize := basketSize,
      entryOffsetLen := 0,
      writeBasket := 0,
      entryNumber := 0,
      offset := 0,
      maxBaskets := DefaultMaxBaskets,
      splitLevel := 0,
      entries := 0,
      firstEntry := 0,
      totBytes := 0,
      zipBytes := 0,
      basketBytes := Zeros(Int32Big, DefaultMaxBaskets),
      basketEntry := Zeros(Int64Big, DefaultMaxBaskets),
      basketSeek := Zeros(Int64Big, DefaultMaxBaskets),
      fileName := [],
      branches := [],
      leaves := if kind == "int" then ["TLeafI"] else [],
      fill := FillAttr(0, 1001))
  }

  // --------------------------------------------------------------- leaves

  /** The TLeaf fields: fLen = 1, fLenType = 4, fOffset = 0, fIsRange and
      fIsUnsigned false. */
  const LeafFormat := ">iii??"
  const LeafFields := [Int(1), Int(4), Int(0), Bool(false), Bool(false)]

  lemma {:induction false} LeafFieldsPack()
    ensures FitsFrom(LeafFormat, 1, LeafFields) && CanonicalFrom(LeafFormat, 1, LeafFields)
    ensures CalcSize(LeafFormat) == 14
  {
    Pow256Values();
    var vs := LeafFields;
    assert vs[1..] == [Int(4), Int(0), Bool(false), Bool(false)];
    assert vs[1..][1..] == [Int(0), Bool(false), Bool(false)];
    assert vs[1..][1..][1..] == [Bool(false), Bool(false)];
    assert vs[1..][1..][1..][1..] == [Bool(false)] && vs[1..][1..][1..][1..][1..] == [];
  }

  /** The leaf fields written at `cur`: always 14 bytes. */
  function LeafFieldsAt(cur: Cursor): (r: Put)
    ensures Advances(cur, r) && |r.bytes| == 14
  {
    LeafFieldsPack();
    PutFields(cur, LeafFormat, LeafFields).value
  }

  /** `bs` decodes as the leaf fields. */
  predicate HoldsLeafFields(bs: Bytes) {
    Unpack(LeafFormat, bs) == Ok(LeafFields)
  }

  /** The leaf fields read back as written. */
  lemma LeafFieldsReadBack(cur: Cursor)
    ensures HoldsLeafFields(LeafFieldsAt(cur).bytes)
  {
    LeafFieldsPack();
    PutFieldsReadsBack(cur, LeafFormat, LeafFields);
  }

  /** The size of the branch's named header inside its leaf. */
  function LeafNamedSize(b: Branch): nat {
    16 + StringSize(b.name) + StringSize(b.title)
  }

  /** The leaf-count object of a TLeaf written at `c`: None, dispatched as
      a "TLeaf" after the named header and the leaf fields. */
  function LeafCount<S>(d: Dispatcher<Obj, S>, st: S, c: Cursor, b: Branch): Result<Emitted<S>> {
    PutObjAny(d, st, Skip(c, HeaderSize + LeafNamedSize(b) + 14), NoObject, "TLeaf")
  }

  /** TLeaf: a version-2 record holding the branch's named header, the
      leaf fields, and the (absent) leaf count dispatched as a "TLeaf". */
  function PutTLeaf<S>(d: Dispatcher<Obj, S>, st: S, c: Cursor, b: Branch): (r: Result<Emitted<S>>)
    ensures r.Ok? ==> Advances(c, r.value.put)
    ensures r.Ok? ==> LeafNamed(c, b).Ok?
    ensures r.Ok? ==> LeafCount(d, st, c, b).Ok?
    ensures r.Ok? ==> |r.value.put.bytes| == HeaderSize + LeafNamedSize(b) + 14 + |LeafCount(d, st, c, b).value.put.bytes|
    ensures LeafNamed(c, b).Err? ==> r.Err?
  {
    var named :- LeafNamed(c, b);
    var fields := LeafFieldsAt(named.cursor);
    assert fields.cursor == Skip(c, HeaderSize + LeafNamedSize(b) + 14);
    var count :- LeafCount(d, st, c, b);
    var inner := Then(Then(named, fields), count.put);
    assert Advances(Skip(c, HeaderSize), inner);
    var framed :- Framed(c, LeafVersion, inner);
    Ok(Emitted(framed, count.state))
  }

  /** The named header a TLeaf written at `c` carries. */
  function LeafNamed(c: Cursor, b: Branch): Result<Put> {
    PutTNamed(Skip(c, HeaderSize), BranchObjectBits, b.name, b.title)
  }

  /** A TLeaf's frame holds the named header, the 14 bytes of leaf fields
      and the leaf-count object, back to back. */
  lemma TLeafBody<S>(d: Dispatcher<Obj, S>, st: S, c: Cursor, b: Branch)
    requires PutTLeaf(d, st, c, b).Ok?
    ensures LeafNamed(c, b).Ok? && LeafCount(d, st, c, b).Ok?
    ensures FramedAs(PutTLeaf(d, st, c, b).value.put.bytes, LeafVersion)
    ensures PutTLeaf(d, st, c, b).value.put.bytes[HeaderSize..]
            == LeafNamed(c, b).value.bytes
               + LeafFieldsAt(LeafNamed(c, b).value.cursor).bytes
               + LeafCount(d, st, c, b).value.put.bytes
  {
    var named := LeafNamed(c, b).value;
    var fields := LeafFieldsAt(named.cursor);
    assert fields.cursor == Skip(c, HeaderSize + LeafNamedSize(b) + 14);
    var count := LeafCount(d, st, c, b).value;
    var inner := Then(Then(named, fields), count.put);
    assert PutTLeaf(d, st, c, b).value.put.bytes == Frame(LeafVersion, inner.bytes).value;
    FrameHeader(LeafVersion, inner.bytes);
  }

  /** A record body holding `named`, then the 14 bytes of leaf fields,
      then `count`, after the header. */
  predicate LeafShape(bs: Bytes, named: Bytes, count: Bytes) {
    var k := HeaderSize + |named|;
    && |bs| >= k + 14
    && bs[HeaderSize..k] == named
    && HoldsLeafFields(bs[k..k + 14])
    && bs[k + 14..] == count
  }

  /** Inside a TLeaf's frame: the named header, the leaf fields, then the
      leaf-count object. */
  lemma TLeafLayout<S>(d: Dispatcher<Obj, S>, st: S, c: Cursor, b: Branch)
    requires PutTLeaf(d, st, c, b).Ok?
    ensures FramedAs(PutTLeaf(d, st, c, b).value.put.bytes, LeafVersion)
    ensures |LeafNamed(c, b).value.bytes| == LeafNamedSize(b)
    ensures LeafShape(PutTLeaf(d, st, c, b).value.put.bytes, LeafNamed(c, b).value.bytes,
                      LeafCount(d, st, c, b).value.put.bytes)
  {
    TLeafBody(d, st, c, b);
    var named := LeafNamed(c, b).value;
    var fields := LeafFieldsAt(named.cursor);
    LeafFieldsReadBack(named.cursor);
    LeafFromPieces(PutTLeaf(d, st, c, b).value.put.bytes, named.bytes, fields.bytes, LeafCount(d, st, c, b).value.put.bytes);
  }

  lemma LeafFromPieces(bs: Bytes, named: Bytes, fields: Bytes, count: Bytes)
    requires |bs| >= HeaderSize && bs[HeaderSize..] == named + fields + count
    requires |fields| == 14 && HoldsLeafFields(fields)
    ensures LeafShape(bs, named, count)
  {
    FramedParts(bs, named, fields, count);
  }

  /** fMinimum and fMaximum written at `cur`: two zero `int`s. */
  function MinMaxAt(cur: Cursor): (r: Put)
    ensures Advances(cur, r) && |r.bytes| == 8
  {
    MinMaxFields();
    PutFields(cur, ">ii", [Int(0), Int(0)]).value
  }

  /** `bs` decodes as (fMinimum, fMaximum) = (0, 0). */
  predicate HoldsZeroMinMax(bs: Bytes) {
    Unpack(">ii", bs) == Ok([Int(0), Int(0)])
  }

  lemma MinMaxReadBack(cur: Cursor)
    ensures HoldsZeroMinMax(MinMaxAt(cur).bytes)
  {
    MinMaxFields();
    PutFieldsReadsBack(cur, ">ii", [Int(0), Int(0)]);
  }

  /** TLeafI: a version-1 record holding the TLeaf and (fMinimum,
      fMaximum) = (0, 0) as `>ii`. */
  function PutTLeafI<S>(d: Dispatcher<Obj, S>, st: S, c: Cursor, b: Branch): (r: Result<Emitted<S>>)
    ensures r.Ok? ==> Advances(c, r.value.put)
    ensures r.Ok? ==> PutTLeaf(d, st, Skip(c, HeaderSize), b).Ok?
    ensures r.Ok? ==> |r.value.put.bytes| == HeaderSize + |PutTLeaf(d, st, Skip(c, HeaderSize), b).value.put.bytes| + 8
    ensures PutTLeaf(d, st, Skip(c, HeaderSize), b).Err? ==> r.Err?
  {
    var leaf :- PutTLeaf(d, st, Skip(c, HeaderSize), b);
    var minmax := MinMaxAt(leaf.put.cursor);
    var framed :- Framed(c, LeafIVersion, Then(leaf.put, minmax));
    Ok(Emitted(framed, leaf.state))
  }

  /** A record body holding `leaf`, then (fMinimum, fMaximum) = (0, 0). */
  predicate LeafIShape(bs: Bytes, leaf: Bytes) {
    && |bs| >= HeaderSize + |leaf|
    && bs[HeaderSize..HeaderSize + |leaf|] == leaf
    && HoldsZeroMinMax(bs[HeaderSize + |leaf|..])
  }

  /** Inside a TLeafI's frame: the TLeaf record, then minimum and maximum. */
  lemma TLeafILayout<S>(d: Dispatcher<Obj, S>, st: S, c: Cursor, b: Branch)
    requires PutTLeafI(d, st, c, b).Ok?
    ensures FramedAs(PutTLeafI(d, st, c, b).value.put.bytes, LeafIVersion)
    ensures LeafIShape(PutTLeafI(d, st, c, b).value.put.bytes, PutTLeaf(d, st, Skip(c, HeaderSize), b).value.put.bytes)
  {
    var leaf := PutTLeaf(d, st, Skip(c, HeaderSize), b).value;
    var minmax := MinMaxAt(leaf.put.cursor);
    var inner := Then(leaf.put, minmax);
    var bs := PutTLeafI(d, st, c, b).value.put.bytes;
    assert bs == Frame(LeafIVersion, inner.bytes).value;
    FrameHeader(LeafIVersion, inner.bytes);
    MinMaxReadBack(leaf.put.cursor);
    LeafIFromPieces(bs, leaf.put.bytes, minmax.bytes);
  }

  lemma LeafIFromPieces(bs: Bytes, leaf: Bytes, minmax: Bytes)
    requires |bs| >= HeaderSize && bs[HeaderSize..] == leaf + minmax
    requires HoldsZeroMinMax(minmax)
    ensures LeafIShape(bs, leaf)
  {
    FramedPair(bs, leaf, minmax);
  }

  lemma {:induction false} MinMaxFields()
    ensures FitsFrom(">ii", 1, [Int(0), Int(0)]) && CanonicalFrom(">ii", 1, [Int(0), Int(0)])
    ensures CalcSize(">ii") == 8
  {
    Pow256Values();
    var vs := [Int(0), Int(0)];
    assert vs[1..] == [Int(0)] && vs[1..][1..] == [];
  }
}

=== FILE: branch_record.dfy ===
/** The TBranch record a branch writes for itself: a version-13 record
    holding the named header (title suffixed "/I"), the fill attributes,
    the basket bookkeeping, the IO features, the sub-branch and leaf
    arrays, an empty basket array and the three basket arrays. */
module BranchRecord {
  import opened Bytes
  import opened Errors
  import opened Struct
  import opened Cursors
  import opened Framing
  import opened Streamers
  import opened Branches
  import Text

  /** The leaf-type suffix appended to the title: "/I". */
  const TitleSuffix: Bytes := [0x2f, 0x49]

  /** fCompress, fBasketSize, fEntryOffsetLen, fWriteBasket, fEntryNumber. */
  const CountsFormat := ">iiiiq"

  function CountValues(b: Branch): seq<Field> {
    [Int(b.compress), Int(b.basketSize), Int(b.entryOffsetLen), Int(b.writeBasket), Int(b.entryNumber)]
  }

  /** fOffset, fMaxBaskets, fSplitLevel, fEntries, fFirstEntry, fTotBytes, fZipBytes. */
  const SizesFormat := ">iIiqqqq"

  function SizeValues(b: Branch): seq<Field> {
    [Int(b.offset), Int(b.maxBaskets), Int(b.splitLevel), Int(b.entries),
     Int(b.firstEntry), Int(b.totBytes), Int(b.zipBytes)]
  }

  predicate CountsInRange(b: Branch) {
    IsInt32(b.compress) && IsInt32(b.basketSize) && IsInt32(b.entryOffsetLen)
    && IsInt32(b.writeBasket) && IsInt64(b.entryNumber)
  }

  predicate SizesInRange(b: Branch) {
    IsInt32(b.offset) && IsUInt32(b.maxBaskets) && IsInt32(b.splitLevel)
    && IsInt64(b.entries) && IsInt64(b.firstEntry) && IsInt64(b.totBytes) && IsInt64(b.zipBytes)
  }

  lemma {:induction false} CountFields(b: Branch)
    ensures FitsFrom(CountsFormat, 1, CountValues(b)) <==> CountsInRange(b)
    ensures FitsFrom(CountsFormat, 1, CountValues(b)) ==> CanonicalFrom(CountsFormat, 1, CountValues(b))
    ensures CalcSize(CountsFormat) == 24
  {
    Pow256Values();
    var vs := CountValues(b);
    assert vs[1..][1..][1..][1..][1..] == [];
    assert FitsFrom(CountsFormat, 5, vs[1..][1..][1..][1..]) <==> IsInt64(b.entryNumber);
    assert FitsFrom(CountsFormat, 4, vs[1..][1..][1..]) <==> IsInt32(b.writeBasket) && IsInt64(b.entryNumber);
    assert FitsFrom(CountsFormat, 3, vs[1..][1..])
       <==> IsInt32(b.entryOffsetLen) && IsInt32(b.writeBasket) && IsInt64(b.entryNumber);
    assert FitsFrom(CountsFormat, 2, vs[1..])
       <==> IsInt32(b.basketSize) && IsInt32(b.entryOffsetLen) && IsInt32(b.writeBasket) && IsInt64(b.entryNumber);
    IntsCanonical(CountsFormat, 1, vs);
  }

  lemma {:induction false} SizeFields(b: Branch)
    ensures FitsFrom(SizesFormat, 1, SizeValues(b)) <==> SizesInRange(b)
    ensures FitsFrom(SizesFormat, 1, SizeValues(b)) ==> CanonicalFrom(SizesFormat, 1, SizeValues(b))
    ensures CalcSize(SizesFormat) == 44
  {
    Pow256Values();
    var vs := SizeValues(b);
    assert vs[1..][1..][1..][1..][1..][1..][1..] == [];
    assert FitsFrom(SizesFormat, 7, vs[1..][1..][1..][1..][1..][1..]) <==> IsInt64(b.zipBytes);
    assert FitsFrom(SizesFormat, 6, vs[1..][1..][1..][1..][1..]) <==> IsInt64(b.totBytes) && IsInt64(b.zipBytes);
    assert FitsFrom(SizesFormat, 5, vs[1..][1..][1..][1..])
       <==> IsInt64(b.firstEntry) && IsInt64(b.totBytes) && IsInt64(b.zipBytes);
    assert FitsFrom(SizesFormat, 4, vs[1..][1..][1..])
       <==> IsInt64(b.entries) && IsInt64(b.firstEntry) && IsInt64(b.totBytes) && IsInt64(b.zipBytes);
    assert FitsFrom(SizesFormat, 3, vs[1..][1..])
       <==> IsInt32(b.splitLevel) && IsInt64(b.entries) && IsInt64(b.firstEntry)
            && IsInt64(b.totBytes) && IsInt64(b.zipBytes);
    assert FitsFrom(SizesFormat, 2, vs[1..])
       <==> IsUInt32(b.maxBaskets) && IsInt32(b.splitLevel) && IsInt64(b.entries) && IsInt64(b.firstEntry)
            && IsInt64(b.totBytes) && IsInt64(b.zipBytes);
    IntsCanonical(SizesFormat, 1, vs);
  }

  // ------------------------------------------------------------------ head

  /** The named header of the branch record: the branch's name, and its
      title followed by "/I". */
  function BranchNamed(c: Cursor, b: Branch): Result<Put> {
    PutTNamed(c, BranchObjectBits, b.name, b.title + TitleSuffix)
  }

  function BranchNamedSize(b: Branch): nat {
    16 + StringSize(b.name) + StringSize(b.title + TitleSuffix)
  }

  /** Fill (10) + counts (24) + IO features (11) + sizes (44). */
  const HeadFixedSize := 89

  /** Everything before the arrays: the named header, the fill attributes,
      the `>iiiiq` counts, the IO features and the `>iIiqqqq` sizes.  Each
      struct field must fit its code or the write raises struct.error. */
  function BranchHead(c: Cursor, b: Branch): (r: Result<Put>)
    ensures r.Ok? <==> BranchNamed(c, b).Ok? && IsInt16(b.fill.color) && IsInt16(b.fill.style)
                       && CountsInRange(b) && SizesInRange(b)
    ensures r.Ok? ==> Advances(c, r.value) && |r.value.bytes| == BranchNamedSize(b) + HeadFixedSize
  {
    CountFields(b);
    SizeFields(b);
    var named :- BranchNamed(c, b);
    var fill :- PutTAttFill(named.cursor, b.fill);
    var counts :- PutFields(fill.cursor, CountsFormat, CountValues(b));
    var io := PutRootIOFeatures(counts.cursor);
    var sizes :- PutFields(io.cursor, SizesFormat, SizeValues(b));
    Ok(Then(Then(Then(Then(named, fill), counts), io), sizes))
  }

  /** What a reader finds in the head, given the named header it starts
      with: the fill record, the counts, the IO features and the sizes. */
  predicate HeadLayout(bs: Bytes, b: Branch, named: Bytes) {
    var n := |named|;
    && |bs| == n + HeadFixedSize
    && bs[..n] == named
    && FramedAs(bs[n..n + 10], AttVersion)
    && Decodes(">hh", bs[n + 6..n + 10], FillValues(b.fill))
    && Decodes(CountsFormat, bs[n + 10..n + 34], CountValues(b))
    && bs[n + 34..n + 45] == IOFeaturesBytes
    && Decodes(SizesFormat, bs[n + 45..], SizeValues(b))
  }

  lemma BranchHeadLayout(c: Cursor, b: Branch)
    requires BranchHead(c, b).Ok?
    ensures BranchNamed(c, b).Ok?
    ensures HeadLayout(BranchHead(c, b).value.bytes, b, BranchNamed(c, b).value.bytes)
  {
    var named := BranchNamed(c, b).value;
    var fill := PutTAttFill(named.cursor, b.fill).value;
    var counts := PutFields(fill.cursor, CountsFormat, CountValues(b)).value;
    var io := PutRootIOFeatures(counts.cursor);
    var sizes := PutFields(io.cursor, SizesFormat, SizeValues(b)).value;
    var bs := BranchHead(c, b).value.bytes;
    assert bs == named.bytes + fill.bytes + counts.bytes + io.bytes + sizes.bytes;
    assert FramedAs(fill.bytes, AttVersion) && Decodes(">hh", fill.bytes[HeaderSize..], FillValues(b.fill)) by {
      TAttFillReadsBack(named.cursor, b.fill);
    }
    assert |counts.bytes| == 24 && Decodes(CountsFormat, counts.bytes, CountValues(b)) by {
      CountFields(b);
      PutFieldsReadsBack(fill.cursor, CountsFormat, CountValues(b));
    }
    assert |sizes.bytes| == 44 && Decodes(SizesFormat, sizes.bytes, SizeValues(b)) by {
      SizeFields(b);
      PutFieldsReadsBack(io.cursor, SizesFormat, SizeValues(b));
    }
    HeadFromPieces(bs, b, named.bytes, fill.bytes, counts.bytes, io.bytes, sizes.bytes);
  }

  /** The head layout of five pieces laid end to end. */
  lemma HeadFromPieces(bs: Bytes, b: Branch, named: Bytes, fill: Bytes, counts: Bytes, io: Bytes, sizes: Bytes)
    requires bs == named + fill + counts + io + sizes
    requires |fill| == 10 && FramedAs(fill, AttVersion) && Decodes(">hh", fill[HeaderSize..], FillValues(b.fill))
    requires |counts| == 24 && Decodes(CountsFormat, counts, CountValues(b))
    requires io == IOFeaturesBytes
    requires |sizes| == 44 && Decodes(SizesFormat, sizes, SizeValues(b))
    ensures HeadLayout(bs, b, named)
  {
    HeadSlices(bs, named, fill, counts, io, sizes);
  }

  lemma HeadSlices(bs: Bytes, named: Bytes, fill: Bytes, counts: Bytes, io: Bytes, sizes: Bytes)
    requires bs == named + fill + counts + io + sizes
    requires |fill| == 10 && |counts| == 24 && |io| == 11 && |sizes| == 44
    ensures bs[..|named|] == named
    ensures bs[|named|..|named| + 10] == fill
    ensures bs[|named| + 6..|named| + 10] == fill[6..]
    ensures bs[|named| + 10..|named| + 34] == counts
    ensures bs[|named| + 34..|named| + 45] == io
    ensures bs[|named| + 45..] == sizes
  {
  }

  // ---------------------------------------------------------------- arrays

  /** The sub-branches, as an object array of class "TBranch". */
  function SubBranchArray<S>(d: Dispatcher<Obj, S>, st: S, c: Cursor, b: Branch): Result<Emitted<S>> {
    PutTObjArray(d, st, c, Many(b.branches), "TBranch", ObjArrayBits, true)
  }

  /** The branch's leaf, handed to the object array as a single value of
      the class its first leaf name gives; the array wraps it into a
      one-element list. */
  function LeafArray<S>(d: Dispatcher<Obj, S>, st: S, c: Cursor, b: Branch): Result<Emitted<S>>
    requires b.leaves != []
  {
    PutTObjArray(d, st, c, One(LeafObj(b)), b.leaves[0], ObjArrayBits, true)
  }

  /** The two object arrays.  A branch without a leaf name raises
      IndexError once its sub-branches are written. */
  function BranchArrays<S>(d: Dispatcher<Obj, S>, st: S, c: Cursor, b: Branch): (r: Result<Emitted<S>>)
    ensures r.Ok? ==> Advances(c, r.value.put)
    ensures r.Ok? ==> b.leaves != [] && SubBranchArray(d, st, c, b).Ok?
    ensures SubBranchArray(d, st, c, b).Ok? && b.leaves == [] ==> r == Err(IndexError)
  {
    var sub :- SubBranchArray(d, st, c, b);
    if b.leaves == [] then Err(IndexError)
    else
      var leaf :- LeafArray(d, sub.state, sub.put.cursor, b);
      Ok(Emitted(Then(sub.put, leaf.put), leaf.state))
  }

  /** A reader finds the sub-branch array announcing one entry per
      sub-branch, then the leaf array announcing exactly one entry. */
  lemma BranchArraysLayout<S>(d: Dispatcher<Obj, S>, st: S, c: Cursor, b: Branch)
    requires BranchArrays(d, st, c, b).Ok?
    ensures SubBranchArray(d, st, c, b).Ok?
    ensures var bs := BranchArrays(d, st, c, b).value.put.bytes;
      var sub := SubBranchArray(d, st, c, b).value.put.bytes;
      && bs[..|sub|] == sub
      && ObjArrayHead(sub, ObjArrayBits, |b.branches|)
      && ObjArrayHead(bs[|sub|..], ObjArrayBits, 1)
  {
    var sub := SubBranchArray(d, st, c, b).value;
    var leaf := LeafArray(d, sub.state, sub.put.cursor, b).value;
    var bs := BranchArrays(d, st, c, b).value.put.bytes;
    assert bs == sub.put.bytes + leaf.put.bytes;
    assert ObjArrayHead(sub.put.bytes, ObjArrayBits, |b.branches|) by {
      ObjArrayShape(d, st, c, Many(b.branches), "TBranch", ObjArrayBits, true);
    }
    assert ObjArrayHead(leaf.put.bytes, ObjArrayBits, 1) by {
      ObjArrayShape(d, sub.state, sub.put.cursor, One(LeafObj(b)), b.leaves[0], ObjArrayBits, true);
    }
    assert bs[..|sub.put.bytes|] == sub.put.bytes && bs[|sub.put.bytes|..] == leaf.put.bytes;
  }

  /** A dispatcher that writes a branch's leaf as its TLeafI record at the
      position it is handed, and passes every other object to `inner`. */
  function LeafIDispatcher<S>(inner: Dispatcher<Obj, S>): Dispatcher<Obj, S> {
    (st: S, at: nat, o: Obj, cls: string) => DispatchLeafI(inner, st, at, o, cls)
  }

  /** One call of that dispatcher. */
  function DispatchLeafI<S>(inner: Dispatcher<Obj, S>, st: S, at: nat, o: Obj, cls: string): Result<(Bytes, S)> {
    if o.LeafObj? then
      match PutTLeafI(inner, st, Cursor(at), o.owner)
      case Ok(e) => Ok((e.put.bytes, e.state))
      case Err(err) => Err(err)
    else inner(st, at, o, cls)
  }

  /** Through that dispatcher, the leaf array's one entry is the branch's
      TLeafI record, written right after the array's 25-byte head. */
  lemma LeafArrayHoldsLeafI<S>(inner: Dispatcher<Obj, S>, st: S, c: Cursor, b: Branch)
    requires b.leaves != []
    requires LeafArray(LeafIDispatcher(inner), st, c, b).Ok?
    ensures PutTLeafI(inner, st, Skip(c, HeaderSize + 19), b).Ok?
    ensures var bs := LeafArray(LeafIDispatcher(inner), st, c, b).value.put.bytes;
      && |bs| >= HeaderSize + 19
      && bs[HeaderSize + 19..] == PutTLeafI(inner, st, Skip(c, HeaderSize + 19), b).value.put.bytes
  {
    var d := LeafIDispatcher(inner);
    var at := Skip(c, HeaderSize + 19);
    LeafArrayEntry(d, st, c, b);
    DispatchesLeafI(inner, st, at, b, b.leaves[0]);
  }

  /** Whatever the dispatcher, the leaf array's bytes after its head are
      what the dispatcher writes for the branch's leaf. */
  lemma LeafArrayEntry<S>(d: Dispatcher<Obj, S>, st: S, c: Cursor, b: Branch)
    requires b.leaves != [] && LeafArray(d, st, c, b).Ok?
    ensures d(st, Skip(c, HeaderSize + 19).index, LeafObj(b), b.leaves[0]).Ok?
    ensures var bs := LeafArray(d, st, c, b).value.put.bytes;
      && |bs| >= HeaderSize + 19
      && bs[HeaderSize + 19..] == d(st, Skip(c, HeaderSize + 19).index, LeafObj(b), b.leaves[0]).value.0
  {
    var vs := Wrapped(One(LeafObj(b)));
    var at := Skip(c, HeaderSize + 19);
    assert at.index == c.index + HeaderSize + 19 && vs[0] == LeafObj(b);
    ObjArrayEntries(d, st, c, One(LeafObj(b)), b.leaves[0], ObjArrayBits, true);
    PutEachSingle(d, st, at, vs, b.leaves[0]);
  }

  /** The dispatcher hands a leaf to `PutTLeafI` and returns its bytes. */
  lemma DispatchesLeafI<S>(inner: Dispatcher<Obj, S>, st: S, at: Cursor, b: Branch, cls: string)
    ensures LeafIDispatcher(inner)(st, at.index, LeafObj(b), cls).Ok? <==> PutTLeafI(inner, st, at, b).Ok?
    ensures LeafIDispatcher(inner)(st, at.index, LeafObj(b), cls).Ok? ==>
      LeafIDispatcher(inner)(st, at.index, LeafObj(b), cls).value.0 == PutTLeafI(inner, st, at, b).value.put.bytes
  {
    assert Cursor(at.index) == at;
  }

  // ------------------------------------------------------------------ tail

  function TailSize(b: Branch): nat {
    25 + 1 + ArraySize(b.basketBytes) + 1 + ArraySize(b.basketEntry)
    + ArraySize(b.basketSeek) + StringSize(b.fileName) + 1
  }

  /** After the arrays: the empty basket array (a fixed literal), a 1 byte,
      the basket byte counts, a 1 byte, the basket entries and seeks, the
      file name and a closing 0 byte. */
  function BranchTail(c: Cursor, b: Branch): (r: Result<Put>)
    ensures r.Ok? <==> |b.fileName| < Pow256(4)
    ensures r.Ok? ==> Advances(c, r.value) && |r.value.bytes| == TailSize(b)
  {
    EmptyObjArraySize();
    var baskets := PutLiteral(c, EmptyObjArrayBytes);
    var one := PutLiteral(baskets.cursor, [1]);
    var sizes := PutArray(one.cursor, b.basketBytes);
    var another := PutLiteral(sizes.cursor, [1]);
    var entry := PutArray(another.cursor, b.basketEntry);
    var seek := PutArray(entry.cursor, b.basketSeek);
    var file :- PutString(seek.cursor, b.fileName);
    var zero := PutLiteral(file.cursor, [0]);
    Ok(Then(Then(Then(Then(Then(Then(Then(baskets, one), sizes), another), entry), seek), file), zero))
  }

  /** What a reader finds in the tail. */
  predicate TailLayout(bs: Bytes, b: Branch) {
    var k1 := 26 + ArraySize(b.basketBytes);
    var k2 := k1 + 1 + ArraySize(b.basketEntry);
    var k3 := k2 + ArraySize(b.basketSeek);
    && |bs| == TailSize(b)
    && bs[..25] == EmptyObjArrayBytes
    && bs[25] == 1
    && ArrayAt(bs[26..k1], b.basketBytes)
    && bs[k1] == 1
    && ArrayAt(bs[k1 + 1..k2], b.basketEntry)
    && ArrayAt(bs[k2..k3], b.basketSeek)
    && StringAt(bs[k3..], b.fileName)
    && bs[|bs| - 1] == 0
  }

  lemma BranchTailLayout(c: Cursor, b: Branch)
    requires BranchTail(c, b).Ok?
    ensures TailLayout(BranchTail(c, b).value.bytes, b)
  {
    var c1 := Skip(c, 26);
    var sizes := PutArray(c1, b.basketBytes);
    var c2 := Skip(sizes.cursor, 1);
    var entry := PutArray(c2, b.basketEntry);
    var seek := PutArray(entry.cursor, b.basketSeek);
    var file := PutString(seek.cursor, b.fileName).value;
    var bs := BranchTail(c, b).value.bytes;
    assert bs == EmptyObjArrayBytes + [1] + sizes.bytes + [1] + entry.bytes + seek.bytes + file.bytes + [0];
    assert StringAt(file.bytes + [0], b.fileName) by {
      StringRoundTrip(seek.cursor, b.fileName, [0]);
    }
    EmptyObjArraySize();
    TailFromPieces(bs, b, EmptyObjArrayBytes, sizes.bytes, entry.bytes, seek.bytes, file.bytes);
  }

  lemma TailFromPieces(bs: Bytes, b: Branch, blob: Bytes, sizes: Bytes, entry: Bytes, seek: Bytes, file: Bytes)
    requires |blob| == 25 && blob == EmptyObjArrayBytes
    requires |sizes| == ArraySize(b.basketBytes) && ArrayAt(sizes, b.basketBytes)
    requires |entry| == ArraySize(b.basketEntry) && ArrayAt(entry, b.basketEntry)
    requires |seek| == ArraySize(b.basketSeek) && ArrayAt(seek, b.basketSeek)
    requires |file| == StringSize(b.fileName) && StringAt(file + [0], b.fileName)
    requires bs == blob + [1] + sizes + [1] + entry + seek + file + [0]
    ensures TailLayout(bs, b)
  {
    TailSlices(bs, blob, sizes, entry, seek, file);
    SlicesGiveLayout(bs, b, sizes, entry, seek, file);
  }

  lemma SlicesGiveLayout(bs: Bytes, b: Branch, sizes: Bytes, entry: Bytes, seek: Bytes, file: Bytes)
    requires |sizes| == ArraySize(b.basketBytes) && ArrayAt(sizes, b.basketBytes)
    requires |entry| == ArraySize(b.basketEntry) && ArrayAt(entry, b.basketEntry)
    requires |seek| == ArraySize(b.basketSeek) && ArrayAt(seek, b.basketSeek)
    requires |file| == StringSize(b.fileName) && StringAt(file + [0], b.fileName)
    requires |bs| == 27 + |sizes| + |entry| + |seek| + |file| + 1
    requires bs[..25] == EmptyObjArrayBytes && bs[25] == 1
    requires bs[26..26 + |sizes|] == sizes && bs[26 + |sizes|] == 1
    requires bs[27 + |sizes|..27 + |sizes| + |entry|] == entry
    requires bs[27 + |sizes| + |entry|..27 + |sizes| + |entry| + |seek|] == seek
    requires bs[27 + |sizes| + |entry| + |seek|..] == file + [0]
    requires bs[|bs| - 1] == 0
    ensures TailLayout(bs, b)
  {
  }

  lemma TailSlices(bs: Bytes, blob: Bytes, sizes: Bytes, entry: Bytes, seek: Bytes, file: Bytes)
    requires |blob| == 25
    requires bs == blob + [1] + sizes + [1] + entry + seek + file + [0]
    ensures |bs| == 27 + |sizes| + |entry| + |seek| + |file| + 1
    ensures bs[..25] == blob && bs[25] == 1
    ensures bs[26..26 + |sizes|] == sizes && bs[26 + |sizes|] == 1
    ensures bs[27 + |sizes|..27 + |sizes| + |entry|] == entry
    ensures bs[27 + |sizes| + |entry|..27 + |sizes| + |entry| + |seek|] == seek
    ensures bs[27 + |sizes| + |entry| + |seek|..] == file + [0]
    ensures bs[|bs| - 1] == 0
  {
  }

  // ---------------------------------------------------------------- record

  /** Where the arrays start in a body written at `c`. */
  function ArraysStart(c: Cursor, b: Branch): Cursor {
    Skip(c, BranchNamedSize(b) + HeadFixedSize)
  }

  /** The record's body: the head, the arrays, the tail. */
  function BranchBody<S>(d: Dispatcher<Obj, S>, st: S, c: Cursor, b: Branch): (r: Result<Emitted<S>>)
    ensures r.Ok? ==> Advances(c, r.value.put)
    ensures r.Ok? ==> b.leaves != []
    ensures r.Ok? ==> BranchHead(c, b).Ok? && BranchArrays(d, st, ArraysStart(c, b), b).Ok?
    ensures BranchHead(c, b).Err? ==> r.Err?
    ensures BranchHead(c, b).Ok? && SubBranchArray(d, st, ArraysStart(c, b), b).Ok? && b.leaves == []
            ==> r == Err(IndexError)
  {
    var head :- BranchHead(c, b);
    assert head.cursor == ArraysStart(c, b);
    var arrays :- BranchArrays(d, st, head.cursor, b);
    var tail :- BranchTail(arrays.put.cursor, b);
    Ok(Emitted(Then(Then(head, arrays.put), tail), arrays.state))
  }

  /** The body's three parts, each as its own writer produces it. */
  lemma BranchBodyParts<S>(d: Dispatcher<Obj, S>, st: S, c: Cursor, b: Branch)
    requires BranchBody(d, st, c, b).Ok?
    ensures BranchHead(c, b).Ok? && BranchArrays(d, st, ArraysStart(c, b), b).Ok?
    ensures BranchTail(Skip(ArraysStart(c, b), |BranchArrays(d, st, ArraysStart(c, b), b).value.put.bytes|), b).Ok?
    ensures BranchBody(d, st, c, b).value.put.bytes
            == BranchHead(c, b).value.bytes
               + BranchArrays(d, st, ArraysStart(c, b), b).value.put.bytes
               + BranchTail(Skip(ArraysStart(c, b), |BranchArrays(d, st, ArraysStart(c, b), b).value.put.bytes|), b).value.bytes
  {
    var head := BranchHead(c, b).value;
    assert head.cursor == ArraysStart(c, b);
    var arrays := BranchArrays(d, st, head.cursor, b).value;
    assert arrays.put.cursor == Skip(ArraysStart(c, b), |arrays.put.bytes|);
  }

  /** `branch.write`, reading the fields under the keys the constructor
      stores them under: the body in a version-13 record. */
  function WriteBranch<S>(d: Dispatcher<Obj, S>, st: S, c: Cursor, b: Branch): (r: Result<Emitted<S>>)
    ensures r.Ok? ==> Advances(c, r.value.put)
    ensures r.Ok? <==> BranchBody(d, st, Skip(c, HeaderSize), b).Ok?
                       && |BranchBody(d, st, Skip(c, HeaderSize), b).value.put.bytes| + 2 < Pow256(4)
    ensures BranchHead(Skip(c, HeaderSize), b).Err? ==> r.Err?
  {
    Pow256Values();
    var body :- BranchBody(d, st, Skip(c, HeaderSize), b);
    var framed :- Framed(c, BranchVersion, body.put);
    Ok(Emitted(framed, body.state))
  }

  /** A version-13 header, then the body unchanged. */
  lemma WriteBranchLayout<S>(d: Dispatcher<Obj, S>, st: S, c: Cursor, b: Branch)
    requires WriteBranch(d, st, c, b).Ok?
    ensures BranchBody(d, st, Skip(c, HeaderSize), b).Ok?
    ensures FramedAs(WriteBranch(d, st, c, b).value.put.bytes, BranchVersion)
    ensures WriteBranch(d, st, c, b).value.put.bytes[HeaderSize..] == BranchBody(d, st, Skip(c, HeaderSize), b).value.put.bytes
  {
    var body := BranchBody(d, st, Skip(c, HeaderSize), b).value;
    assert WriteBranch(d, st, c, b).value.put.bytes == Frame(BranchVersion, body.put.bytes).value;
    FrameHeader(BranchVersion, body.put.bytes);
  }

  /** A freshly constructed branch has fields that fit their codes: its
      tail can always be written, its head exactly when the encoded name and
      the title with its "/I" suffix fit the named header's 32-bit count,
      and it has a leaf name exactly when its type is "int". */
  lemma NewBranchWritable(kind: string, name: Text.PyStr, title: Text.PyStr, basketSize: int, c: Cursor)
    requires IsInt32(basketSize)
    ensures var b := NewBranch(kind, name, title, basketSize);
      && (BranchHead(c, b).Ok? <==> StringSize(b.name) + StringSize(b.name + TitleSuffix) < Pow256(4) - 12)
      && BranchTail(c, b).Ok?
      && (b.leaves != [] <==> kind == "int")
  {
    var b := NewBranch(kind, name, title, basketSize);
    assert b.title == b.name && b.fileName == [];
    NamedFits(c, b);
    assert CountsInRange(b) && SizesInRange(b) by {
      Pow256Values();
    }
    assert |b.fileName| < Pow256(4) by {
      Pow256Values();
    }
  }

  /** The named header fits exactly when both of its strings do. */
  lemma NamedFits(c: Cursor, b: Branch)
    requires b.title == b.name
    ensures BranchNamed(c, b).Ok? <==> StringSize(b.name) + StringSize(b.name + TitleSuffix) < Pow256(4) - 12
  {
    Pow256Values();
  }

  // ----------------------------------------- leaf array, as the code reads

  /** The two arguments the leaf-array call evaluates as written: the first
      leaf name becomes the values and the second the class name, so the
      call is reached only with at least two leaf names. */
  function LeafArgumentsAsWritten(leaves: seq<string>): (r: Result<(string, string)>)
    ensures r.Ok? ==> r.value.0 in leaves && r.value.1 in leaves
    ensures r.Err? ==> r.error == IndexError
  {
    if |leaves| < 1 then Err(IndexError)
    else if |leaves| < 2 then Err(IndexError)
    else Ok((leaves[0], leaves[1]))
  }

  /** No branch the constructor builds gets past the argument evaluation
      of the leaf array: it has at most one leaf name. */
  lemma LeafArgumentsAlwaysFail(kind: string, name: Text.PyStr, title: Text.PyStr, basketSize: int)
    ensures LeafArgumentsAsWritten(NewBranch(kind, name, title, basketSize).leaves) == Err(IndexError)
  {
  }
}

=== FILE: bytes.dfy ===
/** Bytes and fixed-width integers: the big-endian and little-endian layouts
    of unsigned values, two's complement for signed ones, and the decoders
    that undo them. */
module Bytes {

  type uint8 = x: int | 0 <= x < 0x100

  type Bytes = seq<uint8>

  /** 256 to the power n: the number of values an n-byte field can hold. */
  function Pow256(n: nat): (r: int)
    ensures r >= 1
  {
    if n == 0 then 1 else 256 * Pow256(n - 1)
  }

  /** The n-byte big-endian layout of v (most significant byte first). */
  function BigEndian(v: nat, n: nat): (r: Bytes)
    requires v < Pow256(n)
    ensures |r| == n
  {
    if n == 0 then [] else BigEndian(v / 256, n - 1) + [v % 256]
  }

  /** The unsigned value a big-endian byte string spells. */
  function FromBigEndian(bs: Bytes): (v: nat)
    ensures v < Pow256(|bs|)
  {
    if |bs| == 0 then 0
    else FromBigEndian(bs[..|bs| - 1]) * 256 + bs[|bs| - 1]
  }

  /** The n-byte little-endian layout of v (least significant byte first). */
  function LittleEndian(v: nat, n: nat): (r: Bytes)
    requires v < Pow256(n)
    ensures |r| == n
  {
    if n == 0 then [] else [v % 256] + LittleEndian(v / 256, n - 1)
  }

  /** The unsigned value a little-endian byte string spells. */
  function FromLittleEndian(bs: Bytes): (v: nat)
    ensures v < Pow256(|bs|)
  {
    if |bs| == 0 then 0
    else bs[0] + 256 * FromLittleEndian(bs[1..])
  }

  lemma {:induction false} BigEndianRoundTrip(v: nat, n: nat)
    requires v < Pow256(n)
    ensures FromBigEndian(BigEndian(v, n)) == v
  {
    if n > 0 {
      var bs := BigEndian(v, n);
      assert bs[..n - 1] == BigEndian(v / 256, n - 1);
      BigEndianRoundTrip(v / 256, n - 1);
    }
  }

  lemma {:induction false} FromBigEndianRoundTrip(bs: Bytes)
    ensures BigEndian(FromBigEndian(bs), |bs|) == bs
  {
    if |bs| > 0 {
      var init := bs[..|bs| - 1];
      var v := FromBigEndian(bs);
      assert v / 256 == FromBigEndian(init);
      assert v % 256 == bs[|bs| - 1];
      FromBigEndianRoundTrip(init);
      assert bs == init + [bs[|bs| - 1]];
    }
  }

  lemma {:induction false} LittleEndianRoundTrip(v: nat, n: nat)
    requires v < Pow256(n)
    ensures FromLittleEndian(LittleEndian(v, n)) == v
  {
    if n > 0 {
      var bs := LittleEndian(v, n);
      assert bs[1..] == LittleEndian(v / 256, n - 1);
      LittleEndianRoundTrip(v / 256, n - 1);
    }
  }

  /** Little-endian is big-endian read backwards. */
  lemma {:induction false} LittleEndianIsReversed(v: nat, n: nat, i: nat)
    requires v < Pow256(n)
    requires i < n
    ensures LittleEndian(v, n)[i] == BigEndian(v, n)[n - 1 - i]
  {
    if i > 0 {
      LittleEndianIsReversed(v / 256, n - 1, i - 1);
    }
  }

  /** Two's complement: the unsigned n-byte pattern that stores a signed v. */
  function TwosComplement(v: int, n: nat): (u: nat)
    requires -Pow256(n) <= 2 * v < Pow256(n)
    ensures u < Pow256(n)
    ensures (v >= 0 ==> u == v) && (v < 0 ==> u == v + Pow256(n))
  {
    if v < 0 then v + Pow256(n) else v
  }

  /** The signed value an unsigned n-byte pattern stands for. */
  function FromTwosComplement(u: nat, n: nat): (v: int)
    requires u < Pow256(n)
    ensures -Pow256(n) <= 2 * v < Pow256(n)
    ensures TwosComplement(v, n) == u
  {
    if 2 * u >= Pow256(n) then u - Pow256(n) else u
  }

  lemma TwosComplementRoundTrip(v: int, n: nat)
    requires -Pow256(n) <= 2 * v < Pow256(n)
    ensures FromTwosComplement(TwosComplement(v, n), n) == v
  {
  }
}

=== FILE: cursor.dfy ===
/** The writer's cursor.  A cursor is only a position: every `put_*` call
    returns the bytes it encodes and moves the position past them, `skip`
    moves it without producing bytes, and a copy of a cursor is just the
    same position, which is how a header is written after its body. */
module Cursors {
  import opened Bytes
  import opened Errors
  import opened Struct

  datatype Cursor = Cursor(index: nat)

  /** The bytes one write produced, and the cursor after it. */
  datatype Put = Put(bytes: Bytes, cursor: Cursor)

  /** The cursor moved exactly past the bytes that were produced. */
  predicate Advances(c: Cursor, p: Put) {
    p.cursor.index == c.index + |p.bytes|
  }

  /** `cursor.skip(n)`. */
  function Skip(c: Cursor, n: nat): (r: Cursor)
    ensures r.index - c.index == n
  {
    Cursor(c.index + n)
  }

  /** Two writes made one after the other, as one. */
  function Then(p: Put, q: Put): Put {
    Put(p.bytes + q.bytes, q.cursor)
  }

  lemma ThenAdvances(c: Cursor, p: Put, q: Put)
    requires Advances(c, p) && Advances(p.cursor, q)
    ensures Advances(c, Then(p, q))
  {
  }

  /** Where each of three consecutive writes sits in their concatenation. */
  lemma ThreeParts(a: Bytes, b: Bytes, c: Bytes)
    ensures (a + b + c)[..|a|] == a
    ensures (a + b + c)[|a|..|a| + |b|] == b
    ensures (a + b + c)[|a| + |b|..] == c
  {
    assert (a + b + c)[..|a|] == a;
  }

  /** A literal appended to the output, followed by a skip over its length. */
  function PutLiteral(c: Cursor, lit: Bytes): (r: Put)
    ensures Advances(c, r) && r.bytes == lit
  {
    Put(lit, Skip(c, |lit|))
  }

  /** `cursor.put_fields(struct.Struct(fmt), *vs)`. */
  function PutFields(c: Cursor, fmt: string, vs: seq<Field>): (r: Result<Put>)
    ensures r.Ok? <==> BigEndianFormat(fmt) && FitsFrom(fmt, 1, vs)
    ensures r.Ok? ==> Advances(c, r.value) && |r.value.bytes| == CalcSize(fmt)
  {
    var bs :- Pack(fmt, vs);
    Ok(Put(bs, Skip(c, |bs|)))
  }

  /** Fields written with canonical values read back unchanged. */
  lemma PutFieldsReadsBack(c: Cursor, fmt: string, vs: seq<Field>)
    requires PutFields(c, fmt, vs).Ok? && CanonicalFrom(fmt, 1, vs)
    ensures Unpack(fmt, PutFields(c, fmt, vs).value.bytes) == Ok(vs)
  {
    PackRoundTrip(fmt, vs);
  }

  /** Encoded size of a string: one length byte for fewer than 255 bytes,
      otherwise the 255 marker and a four-byte length. */
  function StringSize(s: Bytes): nat {
    if |s| < 255 then |s| + 1 else |s| + 5
  }

  /** `cursor.put_string(s)`: ROOT's length-prefixed string. */
  function PutString(c: Cursor, s: Bytes): (r: Result<Put>)
    ensures r.Ok? <==> |s| < Pow256(4)
    ensures r.Ok? ==> Advances(c, r.value) && |r.value.bytes| == StringSize(s)
    ensures r.Ok? ==> r.value.bytes[|r.value.bytes| - |s|..] == s
  {
    if |s| < 255 then Ok(Put([|s|] + s, Skip(c, |s| + 1)))
    else if |s| < Pow256(4) then Ok(Put([255] + BigEndian(|s|, 4) + s, Skip(c, |s| + 5)))
    else Err(StructError)
  }

  /** The reader's side: a string at the front of `bs`, and the number of
      bytes it occupies. */
  function ReadString(bs: Bytes): (r: Result<(Bytes, nat)>)
    ensures r.Ok? ==> |r.value.0| < r.value.1 <= |bs|
  {
    if |bs| == 0 then Err(StructError)
    else if bs[0] < 255 then
      var n := bs[0] as nat;
      if 1 + n <= |bs| then Ok((bs[1..1 + n], 1 + n)) else Err(StructError)
    else if |bs| < 5 then Err(StructError)
    else
      var n := FromBigEndian(bs[1..5]);
      if 5 + n <= |bs| then Ok((bs[5..5 + n], 5 + n)) else Err(StructError)
  }

  /** `bs` starts with the encoding of `s`. */
  predicate StringAt(bs: Bytes, s: Bytes) {
    ReadString(bs) == Ok((s, StringSize(s)))
  }

  /** Reading back a written string gives the string and its encoded size. */
  lemma StringRoundTrip(c: Cursor, s: Bytes, rest: Bytes)
    requires PutString(c, s).Ok?
    ensures ReadString(PutString(c, s).value.bytes + rest) == Ok((s, StringSize(s)))
  {
    var bs := PutString(c, s).value.bytes + rest;
    if |s| >= 255 {
      assert bs[1..5] == BigEndian(|s|, 4);
      BigEndianRoundTrip(|s|, 4);
    }
  }

  /** Conversely, a string read in the form the writer uses is written back
      as the very bytes it was read from. */
  lemma ReadStringRoundTrip(c: Cursor, bs: Bytes)
    requires ReadString(bs).Ok?
    requires bs[0] == 255 ==> |ReadString(bs).value.0| >= 255
    ensures PutString(c, ReadString(bs).value.0).Ok?
    ensures PutString(c, ReadString(bs).value.0).value.bytes == bs[..ReadString(bs).value.1]
  {
    var s := ReadString(bs).value.0;
    if bs[0] == 255 {
      FromBigEndianRoundTrip(bs[1..5]);
      assert bs[..5 + |s|] == [bs[0]] + bs[1..5] + s;
    } else {
      assert bs[..1 + |s|] == [bs[0]] + s;
    }
  }

  /** The numpy dtypes the writer serialises.  `Int64Host` is the platform
      order of dtype "int64", taken to be little-endian. */
  datatype DType = Int64Host | Int64Big | Int32Big | Float64Big

  function ItemSize(t: DType): nat {
    match t
    case Int32Big => 4
    case _ => 8
  }

  /** The struct code of a big-endian dtype; the host-order one shares 'q'. */
  function ItemCode(t: DType): char {
    match t
    case Int32Big => 'i'
    case Float64Big => 'd'
    case _ => 'q'
  }

  predicate ItemFits(t: DType, f: Field) {
    Canonical(ItemCode(t), f)
  }

  /** A numpy array: a dtype and items that fit it. */
  datatype RawArray = RawArray(dtype: DType, items: seq<Field>)

  type NumArray = a: RawArray | forall k :: 0 <= k < |a.items| ==> ItemFits(a.dtype, a.items[k])
    witness RawArray(Int64Big, [])

  /** `numpy.array(items, dtype=t)` for items already of the dtype's kind:
      integers in range for an integer dtype, eight-byte floats for `>f8`.
      Any other item is refused with OverflowError. */
  function ToArray(t: DType, items: seq<Field>): (r: Result<NumArray>)
    ensures r.Ok? <==> forall k :: 0 <= k < |items| ==> ItemFits(t, items[k])
    ensures r.Ok? ==> r.value.dtype == t && r.value.items == items
  {
    if forall k :: 0 <= k < |items| ==> ItemFits(t, items[k]) then Ok(RawArray(t, items))
    else Err(OverflowError)
  }

  /** The bytes of one item. */
  function ItemBytes(t: DType, f: Field): (r: Bytes)
    requires ItemFits(t, f)
    ensures |r| == ItemSize(t)
  {
    if t == Int64Host then LittleEndian(TwosComplement(f.i, 8), 8)
    else PackOne(ItemCode(t), f).value
  }

  function ItemsBytes(t: DType, items: seq<Field>): (r: Bytes)
    requires forall k :: 0 <= k < |items| ==> ItemFits(t, items[k])
    ensures |r| == ItemSize(t) * |items|
  {
    if |items| == 0 then []
    else
      var rest := ItemsBytes(t, items[1..]);
      assert ItemSize(t) * |items| == ItemSize(t) + ItemSize(t) * |items[1..]|;
      ItemBytes(t, items[0]) + rest
  }

  /** The bytes a numpy array's raw items take. */
  function ArraySize(a: NumArray): nat {
    ItemSize(a.dtype) * |a.items|
  }

  /** `cursor.put_array(a)`: the raw item bytes, no length prefix. */
  function PutArray(c: Cursor, a: NumArray): (r: Put)
    ensures Advances(c, r)
    ensures |r.bytes| == ItemSize(a.dtype) * |a.items|
    ensures ArrayAt(r.bytes, a)
  {
    ArrayRoundTrip(a.dtype, a.items);
    var bs := ItemsBytes(a.dtype, a.items);
    Put(bs, Skip(c, |bs|))
  }

  /** `bs` reads back as exactly the items of `a`. */
  predicate ArrayAt(bs: Bytes, a: NumArray) {
    ReadArray(a.dtype, bs) == Some(a.items)
  }

  /** The reader's side of `PutArray`. */
  function ReadArray(t: DType, bs: Bytes): (r: Option<seq<Field>>)
    decreases |bs|
  {
    if |bs| == 0 then Some([])
    else if |bs| < ItemSize(t) then None
    else
      var n := ItemSize(t);
      match ReadArray(t, bs[n..])
      case None => None
      case Some(rest) => Some([ReadItem(t, bs[..n])] + rest)
  }

  /** One item read back from its raw bytes. */
  function ReadItem(t: DType, chunk: Bytes): Field
    requires |chunk| == ItemSize(t)
  {
    if t == Int64Host then Int(FromTwosComplement(FromLittleEndian(chunk), 8))
    else UnpackOne(ItemCode(t), chunk)
  }

  lemma ItemRoundTrip(t: DType, f: Field)
    requires ItemFits(t, f)
    ensures ReadItem(t, ItemBytes(t, f)) == f
  {
    if t == Int64Host {
      LittleEndianRoundTrip(TwosComplement(f.i, 8), 8);
      TwosComplementRoundTrip(f.i, 8);
    } else {
      PackOneRoundTrip(ItemCode(t), f);
    }
  }

  lemma {:induction false} ArrayRoundTrip(t: DType, items: seq<Field>)
    requires forall k :: 0 <= k < |items| ==> ItemFits(t, items[k])
    ensures ReadArray(t, ItemsBytes(t, items)) == Some(items)
  {
    if |items| > 0 {
      var n := ItemSize(t);
      var bs := ItemsBytes(t, items);
      var f := items[0];
      assert bs[..n] == ItemBytes(t, f);
      assert bs[n..] == ItemsBytes(t, items[1..]);
      ItemRoundTrip(t, f);
      ArrayRoundTrip(t, items[1..]);
      assert items == [f] + items[1..];
    }
  }
}

=== FILE: errors.dfy ===
/** Failures a write can end in, and the failure-compatible result type that
    carries them.  Every one of them is fatal to the write that raised it: a
    partly emitted record has a backpatched byte count that no longer matches,
    so nothing is ever recovered. */
module Errors {

  /** The Python exceptions the writer can raise, by kind. */
  datatype WriteError =
    | StructError        // struct.pack: value out of range for its format code, wrong arity
    | OverflowError      // numpy.array: Python int does not fit the requested dtype
    | TypeError          // len() of a value that is not a sequence
    | IndexError         // list index out of range
    | UnsupportedType(className: string)  // no writer registered for a dispatched value

  /** Ok(value) or Err(error); usable with `:-`. */
  datatype Result<+T> = Ok(value: T) | Err(error: WriteError) {

    predicate IsFailure() {
      Err?
    }

    function PropagateFailure<U>(): Result<U>
      requires Err?
    {
      Err(error)
    }

    function Extract(): T
      requires Ok?
    {
      value
    }
  }

  /** The conventional Some/None datatype. */
  datatype Option<+T> = None | Some(value: T)
}

=== FILE: framing.dfy ===
/** The byte-count + version envelope every structured record is written in:
    a big-endian `>IH` header (byte count, version) in front of the body.
    The writer reserves the six header bytes with `skip`, writes the body,
    and then writes the header through a cursor copied before the skip.
    The byte count covers the version field and the body, never itself,
    and carries ROOT's kByteCountMask bit. */
module Framing {
  import opened Bytes
  import opened Errors
  import opened Struct
  import opened Cursors

  /** ROOT's kByteCountMask: bit 30 marks a new-style byte count. */
  const ByteCountMask: nat := 0x4000_0000

  /** The struct format of the header: count, then version. */
  const CntVersFormat: string := ">IH"

  const HeaderSize: nat := 6

  predicate HasMaskBit(n: nat) {
    (n / ByteCountMask) % 2 == 1
  }

  /** `numpy.int64(n) | kByteCountMask`: setting a bit that may already be set. */
  function ByteCount(n: nat): (cnt: nat)
    ensures HasMaskBit(cnt)
    ensures cnt == n || cnt == n + ByteCountMask
    ensures n < ByteCountMask ==> cnt == n + ByteCountMask
    ensures n < Pow256(4) ==> cnt < Pow256(4)
  {
    if HasMaskBit(n) then n else n + ByteCountMask
  }

  /** The bytes a record kind with this version writes around this body:
      `length = len(buff) + 6`, `cnt = (length - 4) | kByteCountMask`,
      then `>IH` (cnt, version) followed by the body. */
  function Frame(version: int, body: Bytes): (r: Result<Bytes>)
    ensures r.Ok? <==> 0 <= version < Pow256(2) && |body| + 2 < Pow256(4)
    ensures r.Ok? ==> |r.value| == HeaderSize + |body| && r.value[HeaderSize..] == body
  {
    var length := |body| + HeaderSize;
    var cnt := ByteCount(length - 4);
    CntVersFits(cnt, version);
    var header :- Pack(CntVersFormat, [Int(cnt), Int(version)]);
    Ok(header + body)
  }

  /** The header of a framed record reads back as the byte count of the
      version field and the body, with the mask bit, and the version. */
  lemma FrameHeader(version: int, body: Bytes)
    requires Frame(version, body).Ok?
    ensures Unpack(CntVersFormat, Frame(version, body).value[..HeaderSize])
            == Ok([Int(ByteCount(|body| + 2)), Int(version)])
    ensures FramedAs(Frame(version, body).value, version)
  {
    var cnt := ByteCount(|body| + 2);
    CntVersFits(cnt, version);
    PackRoundTrip(CntVersFormat, [Int(cnt), Int(version)]);
    var r := Frame(version, body).value;
    assert r[..HeaderSize] == Pack(CntVersFormat, [Int(cnt), Int(version)]).value;
  }

  lemma CntVersFits(cnt: int, version: int)
    ensures CalcSize(CntVersFormat) == HeaderSize
    ensures FitsFrom(CntVersFormat, 1, [Int(cnt), Int(version)])
            <==> 0 <= cnt < Pow256(4) && 0 <= version < Pow256(2)
    ensures FitsFrom(CntVersFormat, 1, [Int(cnt), Int(version)])
            ==> CanonicalFrom(CntVersFormat, 1, [Int(cnt), Int(version)])
  {
    var vs := [Int(cnt), Int(version)];
    assert vs[1..] == [Int(version)] && vs[1..][1..] == [];
  }

  /** `bs` is a whole record of the given version: its header holds the
      byte count of everything after the count field, with the mask bit,
      and the version. */
  predicate FramedAs(bs: Bytes, version: int) {
    |bs| >= HeaderSize
    && Unpack(CntVersFormat, bs[..HeaderSize]) == Ok([Int(ByteCount(|bs| - 4)), Int(version)])
  }

  /** The framing step of every writer: `body` was written after a six-byte
      skip from `c`; the header is produced through the copy `c`, and the
      live cursor stays where the body left it. */
  function Framed(c: Cursor, version: int, body: Put): (r: Result<Put>)
    requires Advances(Skip(c, HeaderSize), body)
    ensures r.Ok? <==> Frame(version, body.bytes).Ok?
    ensures r.Ok? ==> Advances(c, r.value) && r.value.bytes == Frame(version, body.bytes).value
  {
    var bytes :- Frame(version, body.bytes);
    Ok(Put(bytes, body.cursor))
  }

  /** A record whose body is three pieces back to back: each piece sits at
      its offset after the header. */
  lemma FramedParts(bs: Bytes, x: Bytes, y: Bytes, z: Bytes)
    requires |bs| >= HeaderSize && bs[HeaderSize..] == x + y + z
    ensures bs[HeaderSize..HeaderSize + |x|] == x
    ensures bs[HeaderSize + |x|..HeaderSize + |x| + |y|] == y
    ensures bs[HeaderSize + |x| + |y|..] == z
  {
    ThreeParts(x, y, z);
    assert bs[HeaderSize..HeaderSize + |x|] == bs[HeaderSize..][..|x|];
    assert bs[HeaderSize + |x|..HeaderSize + |x| + |y|] == bs[HeaderSize..][|x|..|x| + |y|];
    assert bs[HeaderSize + |x| + |y|..] == bs[HeaderSize..][|x| + |y|..];
  }

  /** A record whose body is two pieces back to back. */
  lemma FramedPair(bs: Bytes, x: Bytes, y: Bytes)
    requires |bs| >= HeaderSize && bs[HeaderSize..] == x + y
    ensures bs[HeaderSize..HeaderSize + |x|] == x
    ensures bs[HeaderSize + |x|..] == y
  {
    assert bs[HeaderSize..HeaderSize + |x|] == bs[HeaderSize..][..|x|];
    assert bs[HeaderSize + |x|..] == bs[HeaderSize..][|x|..];
  }

  /** What a reader learns from a record's header. */
  datatype Header = Header(version: nat, body: Bytes)

  /** The reader's side: strip the mask bit from the count, check it fits,
      and cut the body out. */
  function ParseFrame(bs: Bytes): (r: Result<Header>)
    ensures r.Ok? ==> HeaderSize + |r.value.body| <= |bs|
  {
    if |bs| < HeaderSize then Err(StructError)
    else
      var fields :- Unpack(CntVersFormat, bs[..HeaderSize]);
      var cnt := fields[0].i;
      if cnt < 0 || !HasMaskBit(cnt) then Err(StructError)
      else
        var length := cnt - ByteCountMask;
        if length < 2 || 4 + length > |bs| || fields[1].i < 0 then Err(StructError)
        else Ok(Header(fields[1].i, bs[HeaderSize..4 + length]))
  }

  lemma HeaderUnpacks(bs: Bytes)
    requires |bs| == HeaderSize
    ensures Unpack(CntVersFormat, bs).Ok?
  {
  }

  /** A framed record reads back as its version and its body, whatever follows it. */
  lemma FrameRoundTrip(version: int, body: Bytes, rest: Bytes)
    requires Frame(version, body).Ok?
    requires |body| + 2 < ByteCountMask
    ensures ParseFrame(Frame(version, body).value + rest) == Ok(Header(version, body))
  {
    FrameHeader(version, body);
    var f := Frame(version, body).value;
    var bs := f + rest;
    assert bs[..HeaderSize] == f[..HeaderSize];
    assert bs[HeaderSize..4 + |body| + 2] == body;
  }

  /** Conversely, the bytes of any record a reader accepts are exactly the
      frame the writer produces for that version and body. */
  lemma ParseFrameRoundTrip(bs: Bytes)
    requires ParseFrame(bs).Ok?
    ensures Frame(ParseFrame(bs).value.version, ParseFrame(bs).value.body)
            == Ok(bs[..HeaderSize + |ParseFrame(bs).value.body|])
  {
    var h := ParseFrame(bs).value;
    var head := bs[..HeaderSize];
    var fields := Unpack(CntVersFormat, head).value;
    var cnt := fields[0].i;
    assert IntegerFrom(CntVersFormat, 1);
    UnpackFromRoundTrip(CntVersFormat, 1, head);
    assert fields == [Int(cnt), Int(h.version)];
    assert ByteCount(|h.body| + 2) == cnt by {
      ByteCountOfMasked(cnt);
    }
    assert bs[..HeaderSize + |h.body|] == head + h.body;
  }

  /** Setting the mask bit on a count with the bit removed restores it. */
  lemma ByteCountOfMasked(cnt: nat)
    requires HasMaskBit(cnt)
    ensures ByteCount(cnt - ByteCountMask) == cnt
  {
    var q := cnt / ByteCountMask;
    assert (cnt - ByteCountMask) / ByteCountMask == q - 1;
  }

  /** A body of a GiB or more cannot be framed faithfully: its length
      already carries the mask bit, so the count a reader strips differs
      from the length the writer measured. */
  lemma LargeBodyCountIsAmbiguous(body: Bytes)
    requires HasMaskBit(|body| + 2)
    ensures ByteCount(|body| + 2) - ByteCountMask != |body| + 2
  {
  }
}

=== FILE: key.dfy ===
/** The key that heads a TObjString: its fields as the constructor derives
    them from the string and its location, and the values it hands to the
    writer, in the order of its `>ihiIhhii` packer. */
module Keys {
  import opened Bytes
  import opened Errors
  import opened Struct
  import opened Text
  import opened Streamers

  const KeyVersion := 4
  /** The creation time every key carries: a fixed stamp, not the clock. */
  const KeyDatime := 1573188772
  const KeyCycle := 1
  const KeySeekPdir := 100
  /** The bytes of the key's own fields in front of the string. */
  const KeyObjlenBase := 17
  /** The class name and title, ASCII byte literals kept as text. */
  const StringClassName: string := "TObjString"
  const StringTitle: string := "Collectable string class"

  /** The packer, read as two runs of codes: fNbytes, fVersion, fObjlen,
      fDatime; then fKeylen, fCycle, fSeekKey, fSeekPdir. */
  const KeyLengthCodes := ">ihiI"
  const KeyPlaceCodes := "hhii"
  const KeyPacker := KeyLengthCodes + KeyPlaceCodes

  /** `len()` of the string as handed over: bytes count bytes, text counts
      characters. */
  function PyLen(s: PyStr): nat {
    match s
    case Raw(bytes) => |bytes|
    case Str(text) => |text|
  }

  datatype Key = Key(
    str: PyStr,
    version: int,
    objlen: int,
    datime: int,
    keylen: int,
    nbytes: int,
    cycle: int,
    seekKey: int,
    seekPdir: int,
    packer: string,
    className: string,
    name: PyStr,
    title: string)

  /** `Key(string, stringloc)`. */
  function NewKey(s: PyStr, stringloc: int): (k: Key)
    ensures k.objlen == KeyObjlenBase + PyLen(s) && k.keylen == 0
    ensures k.nbytes == k.objlen + k.keylen
    ensures k.version == 4 && k.cycle == 1 && k.seekPdir == 100 && k.seekKey == stringloc
    ensures k.str == s && k.name == s
    ensures k.className == StringClassName && k.title == StringTitle
    ensures k.packer == ">ihiIhhii"
  {
    var objlen := KeyObjlenBase + PyLen(s);
    Key(
      str := s,
      version := KeyVersion,
      objlen := objlen,
      datime := KeyDatime,
      keylen := 0,
      nbytes := objlen + 0,
      cycle := KeyCycle,
      seekKey := stringloc,
      seekPdir := KeySeekPdir,
      packer := KeyPacker,
      className := StringClassName,
      name := s,
      title := StringTitle)
  }

  /** What `values()` returns: the packer, the eight numbers it packs, and
      the class name, name and title written after them. */
  datatype KeyValues = KeyValues(packer: string, numbers: seq<Field>, className: string, name: PyStr, title: string)

  function LengthNumbers(k: Key): seq<Field> {
    [Int(k.nbytes), Int(k.version), Int(k.objlen), Int(k.datime)]
  }

  function PlaceNumbers(k: Key): seq<Field> {
    [Int(k.keylen), Int(k.cycle), Int(k.seekKey), Int(k.seekPdir)]
  }

  function Values(k: Key): (v: KeyValues)
    ensures v.packer == k.packer && |v.numbers| == 8
    ensures v.numbers[..4] == LengthNumbers(k) && v.numbers[4..] == PlaceNumbers(k)
    ensures v.className == k.className && v.name == k.name && v.title == k.title
  {
    KeyValues(k.packer, LengthNumbers(k) + PlaceNumbers(k), k.className, k.name, k.title)
  }

  /** Every number sits at the position of its code in the packer. */
  lemma ValuesOrder(s: PyStr, stringloc: int)
    ensures var v := Values(NewKey(s, stringloc));
      && |v.numbers| == |v.packer| - 1
      && v.numbers == [Int(17 + PyLen(s)), Int(4), Int(17 + PyLen(s)), Int(1573188772),
                       Int(0), Int(1), Int(stringloc), Int(100)]
  {
  }

  lemma {:induction false} LengthsFit(k: Key)
    ensures FitsFrom(KeyLengthCodes, 1, LengthNumbers(k))
            <==> IsInt32(k.nbytes) && IsInt16(k.version) && IsInt32(k.objlen) && IsUInt32(k.datime)
    ensures FitsFrom(KeyLengthCodes, 1, LengthNumbers(k)) ==> CanonicalFrom(KeyLengthCodes, 1, LengthNumbers(k))
    ensures SizeFrom(KeyLengthCodes, 1) == 14
  {
    Pow256Values();
    var vs := LengthNumbers(k);
    assert vs[1..][1..][1..][1..] == [];
    IntsCanonical(KeyLengthCodes, 1, vs);
  }

  lemma {:induction false} PlacesFit(k: Key)
    ensures FitsFrom(KeyPlaceCodes, 0, PlaceNumbers(k))
            <==> IsInt16(k.keylen) && IsInt16(k.cycle) && IsInt32(k.seekKey) && IsInt32(k.seekPdir)
    ensures FitsFrom(KeyPlaceCodes, 0, PlaceNumbers(k)) ==> CanonicalFrom(KeyPlaceCodes, 0, PlaceNumbers(k))
    ensures SizeFrom(KeyPlaceCodes, 0) == 12
  {
    Pow256Values();
    var vs := PlaceNumbers(k);
    assert vs[1..][1..][1..][1..] == [];
    IntsCanonical(KeyPlaceCodes, 0, vs);
  }

  /** The packer accepts a new key's numbers exactly when the string's
      length keeps fObjlen within a signed 32-bit int and the location
      fits one; then the header is 26 bytes and reads back as the same
      numbers, with fNbytes equal to fObjlen. */
  lemma KeyHeaderPacks(s: PyStr, stringloc: int)
    ensures var v := Values(NewKey(s, stringloc));
      Pack(v.packer, v.numbers).Ok? <==> 17 + PyLen(s) < 0x8000_0000 && IsInt32(stringloc)
    ensures var v := Values(NewKey(s, stringloc));
      Pack(v.packer, v.numbers).Ok? ==>
        && |Pack(v.packer, v.numbers).value| == 26
        && Unpack(v.packer, Pack(v.packer, v.numbers).value) == Ok(v.numbers)
        && v.numbers[0] == v.numbers[2] == Int(17 + PyLen(s))
  {
    var k := NewKey(s, stringloc);
    var v := Values(k);
    assert v.numbers == LengthNumbers(k) + PlaceNumbers(k);
    assert FitsFrom(KeyPacker, 1, v.numbers) <==> 17 + PyLen(s) < 0x8000_0000 && IsInt32(stringloc) by {
      LengthsFit(k);
      PlacesFit(k);
      FitsFromAppend(KeyLengthCodes, KeyPlaceCodes, 1, LengthNumbers(k), PlaceNumbers(k));
    }
    assert FitsFrom(KeyPacker, 1, v.numbers) ==> CanonicalFrom(KeyPacker, 1, v.numbers) by {
      LengthsFit(k);
      PlacesFit(k);
      CanonicalFromAppend(KeyLengthCodes, KeyPlaceCodes, 1, LengthNumbers(k), PlaceNumbers(k));
    }
    assert CalcSize(KeyPacker) == 26 by {
      LengthsFit(k);
      PlacesFit(k);
      SizeFromAppend(KeyLengthCodes, KeyPlaceCodes, 1);
    }
    if FitsFrom(KeyPacker, 1, v.numbers) {
      PackRoundTrip(KeyPacker, v.numbers);
    }
  }
}

=== FILE: streamers.dfy ===
/** The record writers TTree and its branches share: the TObject prefix,
    the named-object header, the line/fill/marker attribute blocks, the
    IO-features block, object arrays and numeric arrays.  The source has a
    copy of several of these in each class; the copies differ only in the
    TObject bits and in whether an object array wraps a single value, so
    here they are one writer with those as parameters.

    Each writer states what it needs for composition (success, length,
    cursor movement); what a reader decodes from its bytes is stated by a
    separate read-back lemma. */
module Streamers {
  import opened Bytes
  import opened Errors
  import opened Struct
  import opened Cursors
  import opened Framing

  /** fBits TTree writes in its TObject prefix. */
  const TreeObjectBits: nat := 0x0300_0000
  /** fBits a branch writes in its TObject prefix. */
  const BranchObjectBits: nat := 0x0340_0000
  /** Default fBits of an object array (50331648). */
  const ObjArrayBits: nat := 50331648

  /** Version constants, one per record kind. */
  const NamedVersion := 1
  const AttVersion := 2
  const IOFeaturesVersion := 0
  const ObjArrayVersion := 3

  // ---------------------------------------------------------------- TObject

  /** The TObject prefix of a named object: version 1, uniqueID 0, fBits. */
  function PutTObject(c: Cursor, fBits: int): (r: Result<Put>)
    ensures r.Ok? <==> 0 <= fBits < Pow256(4)
    ensures r.Ok? ==> Advances(c, r.value) && |r.value.bytes| == 10
  {
    TObjectFields(fBits);
    PutFields(c, ">HII", [Int(1), Int(0), Int(fBits)])
  }

  lemma TObjectReadsBack(c: Cursor, fBits: int)
    requires PutTObject(c, fBits).Ok?
    ensures Unpack(">HII", PutTObject(c, fBits).value.bytes) == Ok([Int(1), Int(0), Int(fBits)])
  {
    TObjectFields(fBits);
    PutFieldsReadsBack(c, ">HII", [Int(1), Int(0), Int(fBits)]);
  }

  lemma {:induction false} TObjectFields(fBits: int)
    ensures FitsFrom(">HII", 1, [Int(1), Int(0), Int(fBits)]) <==> 0 <= fBits < Pow256(4)
    ensures FitsFrom(">HII", 1, [Int(1), Int(0), Int(fBits)])
            ==> CanonicalFrom(">HII", 1, [Int(1), Int(0), Int(fBits)])
    ensures CalcSize(">HII") == 10
  {
    Pow256Values();
    var vs := [Int(1), Int(0), Int(fBits)];
    assert vs[1..] == [Int(0), Int(fBits)] && vs[1..][1..] == [Int(fBits)] && vs[1..][1..][1..] == [];
  }

  // ------------------------------------------------------------------ TNamed

  /** The named-object header: a version-1 record holding the TObject
      prefix, the name and the title. */
  function PutTNamed(c: Cursor, fBits: int, name: Bytes, title: Bytes): (r: Result<Put>)
    ensures r.Ok? ==> Advances(c, r.value)
    ensures r.Ok? ==> |r.value.bytes| == 16 + StringSize(name) + StringSize(title)
    ensures r.Ok? <==> 0 <= fBits < Pow256(4) && StringSize(name) + StringSize(title) < Pow256(4) - 12
  {
    Pow256Values();
    var body :- TNamedBody(c, fBits, name, title);
    Framed(c, NamedVersion, body)
  }

  /** The body of the named-object header, unframed. */
  function TNamedBody(c: Cursor, fBits: int, name: Bytes, title: Bytes): (r: Result<Put>)
    ensures r.Ok? <==> 0 <= fBits < Pow256(4) && |name| < Pow256(4) && |title| < Pow256(4)
    ensures r.Ok? ==> Advances(Skip(c, HeaderSize), r.value)
                      && |r.value.bytes| == 10 + StringSize(name) + StringSize(title)
  {
    var obj :- PutTObject(Skip(c, HeaderSize), fBits);
    var n :- PutString(obj.cursor, name);
    var t :- PutString(n.cursor, title);
    Ok(Then(Then(obj, n), t))
  }

  /** A reader finds a version-1 header, then the TObject prefix with its
      fBits, then the name, then the title. */
  lemma TNamedReadsBack(c: Cursor, fBits: int, name: Bytes, title: Bytes)
    requires PutTNamed(c, fBits, name, title).Ok?
    ensures FramedAs(PutTNamed(c, fBits, name, title).value.bytes, NamedVersion)
    ensures var body := PutTNamed(c, fBits, name, title).value.bytes[HeaderSize..];
      && Unpack(">HII", body[..10]) == Ok([Int(1), Int(0), Int(fBits)])
      && ReadString(body[10..]) == Ok((name, StringSize(name)))
      && ReadString(body[10 + StringSize(name)..]) == Ok((title, StringSize(title)))
  {
    var body := TNamedBody(c, fBits, name, title).value;
    var bs := PutTNamed(c, fBits, name, title).value.bytes;
    assert bs == Frame(NamedVersion, body.bytes).value;
    FrameHeader(NamedVersion, body.bytes);
    assert bs[HeaderSize..] == body.bytes;
    TNamedBodyReadsBack(c, fBits, name, title);
  }

  lemma TNamedBodyReadsBack(c: Cursor, fBits: int, name: Bytes, title: Bytes)
    requires TNamedBody(c, fBits, name, title).Ok?
    ensures var bs := TNamedBody(c, fBits, name, title).value.bytes;
      && Unpack(">HII", bs[..10]) == Ok([Int(1), Int(0), Int(fBits)])
      && ReadString(bs[10..]) == Ok((name, StringSize(name)))
      && ReadString(bs[10 + StringSize(name)..]) == Ok((title, StringSize(title)))
  {
    var obj := PutTObject(Skip(c, HeaderSize), fBits).value;
    var n := PutString(obj.cursor, name).value;
    var t := PutString(n.cursor, title).value;
    var bs := TNamedBody(c, fBits, name, title).value.bytes;
    assert bs == obj.bytes + (n.bytes + t.bytes);
    assert Unpack(">HII", bs[..10]) == Ok([Int(1), Int(0), Int(fBits)]) by {
      assert bs[..10] == obj.bytes;
      TObjectReadsBack(Skip(c, HeaderSize), fBits);
    }
    assert ReadString(bs[10..]) == Ok((name, StringSize(name))) by {
      assert bs[10..] == n.bytes + t.bytes;
      StringRoundTrip(obj.cursor, name, t.bytes);
    }
    assert ReadString(bs[10 + StringSize(name)..]) == Ok((title, StringSize(title))) by {
      assert bs[10 + StringSize(name)..] == t.bytes + [];
      StringRoundTrip(n.cursor, title, []);
    }
  }

  // ------------------------------------------------------- attribute blocks

  predicate IsInt16(v: int) {
    -0x8000 <= v < 0x8000
  }

  predicate IsInt32(v: int) {
    -0x8000_0000 <= v < 0x8000_0000
  }

  predicate IsUInt32(v: int) {
    0 <= v < 0x1_0000_0000
  }

  predicate IsInt64(v: int) {
    -0x8000_0000_0000_0000 <= v < 0x8000_0000_0000_0000
  }

  datatype LineAttr = LineAttr(color: int, style: int, width: int)
  datatype FillAttr = FillAttr(color: int, style: int)
  /** The marker size is a 32-bit float, kept as its bit pattern. */
  datatype MarkerAttr = MarkerAttr(color: int, style: int, size: Bytes)

  function LineValues(a: LineAttr): seq<Field> {
    [Int(a.color), Int(a.style), Int(a.width)]
  }

  function FillValues(a: FillAttr): seq<Field> {
    [Int(a.color), Int(a.style)]
  }

  function MarkerValues(a: MarkerAttr): seq<Field> {
    [Int(a.color), Int(a.style), Float(a.size)]
  }

  lemma {:induction false} LineFields(a: LineAttr)
    ensures FitsFrom(">hhh", 1, LineValues(a)) <==> IsInt16(a.color) && IsInt16(a.style) && IsInt16(a.width)
    ensures FitsFrom(">hhh", 1, LineValues(a)) ==> CanonicalFrom(">hhh", 1, LineValues(a))
    ensures CalcSize(">hhh") == 6
  {
    Pow256Values();
    var vs := LineValues(a);
    assert vs[1..] == [Int(a.style), Int(a.width)] && vs[1..][1..] == [Int(a.width)] && vs[1..][1..][1..] == [];
  }

  lemma {:induction false} FillFields(a: FillAttr)
    ensures FitsFrom(">hh", 1, FillValues(a)) <==> IsInt16(a.color) && IsInt16(a.style)
    ensures FitsFrom(">hh", 1, FillValues(a)) ==> CanonicalFrom(">hh", 1, FillValues(a))
    ensures CalcSize(">hh") == 4
  {
    Pow256Values();
    var vs := FillValues(a);
    assert vs[1..] == [Int(a.style)] && vs[1..][1..] == [];
  }

  lemma {:induction false} MarkerFields(a: MarkerAttr)
    ensures FitsFrom(">hhf", 1, MarkerValues(a)) <==> IsInt16(a.color) && IsInt16(a.style) && |a.size| == 4
    ensures FitsFrom(">hhf", 1, MarkerValues(a)) ==> CanonicalFrom(">hhf", 1, MarkerValues(a))
    ensures CalcSize(">hhf") == 8
  {
    Pow256Values();
    var vs := MarkerValues(a);
    assert vs[1..] == [Int(a.style), Float(a.size)] && vs[1..][1..] == [Float(a.size)] && vs[1..][1..][1..] == [];
  }

  /** An attribute block: a version-2 record whose body is the fields. */
  function PutAttributes(c: Cursor, fmt: string, vs: seq<Field>): (r: Result<Put>)
    requires BigEndianFormat(fmt) && CalcSize(fmt) < 0x100
    ensures r.Ok? <==> FitsFrom(fmt, 1, vs)
    ensures r.Ok? ==> Advances(c, r.value) && |r.value.bytes| == HeaderSize + CalcSize(fmt)
  {
    Pow256Values();
    var body :- PutFields(Skip(c, HeaderSize), fmt, vs);
    Framed(c, AttVersion, body)
  }

  /** A reader finds a version-2 header and then the fields. */
  lemma AttributesReadBack(c: Cursor, fmt: string, vs: seq<Field>)
    requires BigEndianFormat(fmt) && CalcSize(fmt) < 0x100
    requires PutAttributes(c, fmt, vs).Ok? && CanonicalFrom(fmt, 1, vs)
    ensures FramedAs(PutAttributes(c, fmt, vs).value.bytes, AttVersion)
    ensures Unpack(fmt, PutAttributes(c, fmt, vs).value.bytes[HeaderSize..]) == Ok(vs)
  {
    var body := PutFields(Skip(c, HeaderSize), fmt, vs).value;
    FrameHeader(AttVersion, body.bytes);
    PutFieldsReadsBack(Skip(c, HeaderSize), fmt, vs);
  }

  /** TAttLine: `>hhh` (color, style, width) in a version-2 record. */
  function PutTAttLine(c: Cursor, a: LineAttr): (r: Result<Put>)
    ensures r.Ok? <==> IsInt16(a.color) && IsInt16(a.style) && IsInt16(a.width)
    ensures r.Ok? ==> Advances(c, r.value) && |r.value.bytes| == 6 + 6
  {
    LineFields(a);
    PutAttributes(c, ">hhh", LineValues(a))
  }

  /** TAttFill: `>hh` (color, style) in a version-2 record. */
  function PutTAttFill(c: Cursor, a: FillAttr): (r: Result<Put>)
    ensures r.Ok? <==> IsInt16(a.color) && IsInt16(a.style)
    ensures r.Ok? ==> Advances(c, r.value) && |r.value.bytes| == 6 + 4
  {
    FillFields(a);
    PutAttributes(c, ">hh", FillValues(a))
  }

  /** TAttMarker: `>hhf` (color, style, size) in a version-2 record. */
  function PutTAttMarker(c: Cursor, a: MarkerAttr): (r: Result<Put>)
    ensures r.Ok? <==> IsInt16(a.color) && IsInt16(a.style) && |a.size| == 4
    ensures r.Ok? ==> Advances(c, r.value) && |r.value.bytes| == 6 + 8
  {
    MarkerFields(a);
    PutAttributes(c, ">hhf", MarkerValues(a))
  }

  lemma TAttLineReadsBack(c: Cursor, a: LineAttr)
    requires PutTAttLine(c, a).Ok?
    ensures FramedAs(PutTAttLine(c, a).value.bytes, AttVersion)
    ensures Unpack(">hhh", PutTAttLine(c, a).value.bytes[HeaderSize..]) == Ok([Int(a.color), Int(a.style), Int(a.width)])
  {
    LineFields(a);
    AttributesReadBack(c, ">hhh", LineValues(a));
  }

  lemma TAttFillReadsBack(c: Cursor, a: FillAttr)
    requires PutTAttFill(c, a).Ok?
    ensures FramedAs(PutTAttFill(c, a).value.bytes, AttVersion)
    ensures Unpack(">hh", PutTAttFill(c, a).value.bytes[HeaderSize..]) == Ok([Int(a.color), Int(a.style)])
  {
    FillFields(a);
    AttributesReadBack(c, ">hh", FillValues(a));
  }

  lemma TAttMarkerReadsBack(c: Cursor, a: MarkerAttr)
    requires PutTAttMarker(c, a).Ok?
    ensures FramedAs(PutTAttMarker(c, a).value.bytes, AttVersion)
    ensures Unpack(">hhf", PutTAttMarker(c, a).value.bytes[HeaderSize..]) == Ok([Int(a.color), Int(a.style), Float(a.size)])
  {
    MarkerFields(a);
    AttributesReadBack(c, ">hhf", MarkerValues(a));
  }

  // ------------------------------------------------------------ IO features

  /** The four magic bytes that open the IO-features body. */
  const IOFeaturesMagic: Bytes := [0x1a, 0xa1, 0x2f, 0x10]

  /** The eleven bytes of every IO-features record. */
  const IOFeaturesBytes: Bytes := [0x40, 0x00, 0x00, 0x07, 0x00, 0x00] + IOFeaturesMagic + [0x00]

  /** ROOT IO features: a version-0 record holding the magic bytes and
      fIOBits = 0 as `>B`.  The magic is a literal the cursor skips over. */
  function PutRootIOFeatures(c: Cursor): (r: Put)
    ensures Advances(c, r)
    ensures r.bytes == IOFeaturesBytes
  {
    var start := Skip(c, HeaderSize);
    var magic := PutLiteral(start, IOFeaturesMagic);
    assert FitsFrom(">B", 1, [Int(0)]);
    var bits := PutFields(Skip(start, 4), ">B", [Int(0)]).value;
    assert bits.bytes == [0];
    var body := Then(magic, bits);
    assert body.bytes == IOFeaturesMagic + [0];
    IOFeaturesHeader();
    Framed(c, IOFeaturesVersion, body).value
  }

  lemma IOFeaturesHeader()
    ensures Frame(IOFeaturesVersion, IOFeaturesMagic + [0]).Ok?
    ensures Frame(IOFeaturesVersion, IOFeaturesMagic + [0]).value == IOFeaturesBytes
  {
    assert ByteCount(7) == 0x4000_0007;
    assert BigEndian(0x4000_0007, 4) == [0x40, 0x00, 0x00, 0x07];
    assert BigEndian(0, 2) == [0x00, 0x00];
  }

  /** The IO-features record is a well-formed version-0 record of 11 bytes
      whose body is the magic and a zero fIOBits. */
  lemma IOFeaturesReadsBack(c: Cursor)
    ensures |PutRootIOFeatures(c).bytes| == 11
    ensures FramedAs(PutRootIOFeatures(c).bytes, IOFeaturesVersion)
    ensures PutRootIOFeatures(c).bytes[HeaderSize..HeaderSize + 4] == IOFeaturesMagic
    ensures Unpack(">B", PutRootIOFeatures(c).bytes[HeaderSize + 4..]) == Ok([Int(0)])
  {
    assert PutRootIOFeatures(c).bytes == IOFeaturesBytes;
    IOFeaturesShape();
  }

  lemma IOFeaturesShape()
    ensures |IOFeaturesBytes| == 11
    ensures FramedAs(IOFeaturesBytes, IOFeaturesVersion)
    ensures IOFeaturesBytes[HeaderSize..HeaderSize + 4] == IOFeaturesMagic
    ensures Unpack(">B", IOFeaturesBytes[HeaderSize + 4..]) == Ok([Int(0)])
  {
    IOFeaturesHeader();
    FrameHeader(IOFeaturesVersion, IOFeaturesMagic + [0]);
    assert IOFeaturesBytes[HeaderSize + 4..] == [0];
    assert Unpack(">B", [0]) == Ok([Int(0)]) by {
      ZeroByteReadsBack();
    }
  }

  lemma ZeroByteReadsBack()
    ensures Unpack(">B", [0]) == Ok([Int(0)])
  {
    var vs := [Int(0)];
    assert vs[1..] == [];
    assert CanonicalFrom(">B", 1, vs);
    PackRoundTrip(">B", vs);
    assert Pack(">B", vs).value == [0];
  }

  // ----------------------------------------------------------- object skip

  /** The TObject prefix of an object array: version 1 as `>h`, then
      uniqueID 0 and fBits as `>II`. */
  function PutSkipTObj(c: Cursor, fBits: int): (r: Result<Put>)
    ensures r.Ok? <==> 0 <= fBits < Pow256(4)
    ensures r.Ok? ==> Advances(c, r.value) && |r.value.bytes| == 10
  {
    SkipTObjFields(fBits);
    var v := PutFields(c, ">h", [Int(1)]).value;
    var ids :- PutFields(v.cursor, ">II", [Int(0), Int(fBits)]);
    Ok(Then(v, ids))
  }

  lemma SkipTObjReadsBack(c: Cursor, fBits: int)
    requires PutSkipTObj(c, fBits).Ok?
    ensures Unpack(">h", PutSkipTObj(c, fBits).value.bytes[..2]) == Ok([Int(1)])
    ensures Unpack(">II", PutSkipTObj(c, fBits).value.bytes[2..]) == Ok([Int(0), Int(fBits)])
  {
    SkipTObjFields(fBits);
    var v := PutFields(c, ">h", [Int(1)]).value;
    var ids := PutFields(v.cursor, ">II", [Int(0), Int(fBits)]).value;
    var bs := PutSkipTObj(c, fBits).value.bytes;
    assert bs[..2] == v.bytes && bs[2..] == ids.bytes;
    PutFieldsReadsBack(c, ">h", [Int(1)]);
    PutFieldsReadsBack(v.cursor, ">II", [Int(0), Int(fBits)]);
  }

  lemma {:induction false} SkipTObjFields(fBits: int)
    ensures FitsFrom(">h", 1, [Int(1)]) && CanonicalFrom(">h", 1, [Int(1)])
    ensures FitsFrom(">II", 1, [Int(0), Int(fBits)]) <==> 0 <= fBits < Pow256(4)
    ensures FitsFrom(">II", 1, [Int(0), Int(fBits)]) ==> CanonicalFrom(">II", 1, [Int(0), Int(fBits)])
    ensures CalcSize(">h") == 2 && CalcSize(">II") == 8
  {
    Pow256Values();
    var vs := [Int(0), Int(fBits)];
    assert vs[1..] == [Int(fBits)] && vs[1..][1..] == [];
    assert [Int(1)][1..] == [];
  }

  // -------------------------------------------------------------- dispatch

  /** `util.put_objany(cursor, (value, classname), keycursor)`: writing an
      arbitrary object (or a reference to one already written) is not part
      of this model.  The dispatcher is a parameter that sees the
      de-duplication state, the cursor position, the value and the class
      name, and returns the bytes and the new state, or fails. */
  type Dispatcher<!O, !S> = (S, nat, O, string) -> Result<(Bytes, S)>

  /** Bytes written through the dispatcher, and the state it left. */
  datatype Emitted<S> = Emitted(put: Put, state: S)

  /** One dispatched value; the cursor moves past what the dispatcher returned. */
  function PutObjAny<O, S>(d: Dispatcher<O, S>, st: S, c: Cursor, o: O, cls: string): (r: Result<Emitted<S>>)
    ensures r.Ok? <==> d(st, c.index, o, cls).Ok?
    ensures r.Ok? ==> Advances(c, r.value.put)
    ensures r.Ok? ==> r.value.put.bytes == d(st, c.index, o, cls).value.0
                      && r.value.state == d(st, c.index, o, cls).value.1
  {
    var out :- d(st, c.index, o, cls);
    Ok(Emitted(Put(out.0, Skip(c, |out.0|)), out.1))
  }

  /** `for value in values: buff += put_objany(...)`: every value dispatched
      in order, each at the position the previous one left. */
  function PutEach<O, S>(d: Dispatcher<O, S>, st: S, c: Cursor, vs: seq<O>, cls: string): (r: Result<Emitted<S>>)
    ensures r.Ok? ==> Advances(c, r.value.put)
    ensures vs == [] ==> r == Ok(Emitted(Put([], c), st))
    decreases |vs|
  {
    if vs == [] then Ok(Emitted(Put([], c), st))
    else
      var first :- PutObjAny(d, st, c, vs[0], cls);
      var rest :- PutEach(d, first.state, first.put.cursor, vs[1..], cls);
      Ok(Emitted(Then(first.put, rest.put), rest.state))
  }

  /** Dispatching one more value appends its bytes after all earlier ones. */
  lemma {:induction false} PutEachAppend<O, S>(d: Dispatcher<O, S>, st: S, c: Cursor, vs: seq<O>, v: O, cls: string)
    requires PutEach(d, st, c, vs, cls).Ok?
    ensures var prior := PutEach(d, st, c, vs, cls).value;
      PutEach(d, st, c, vs + [v], cls)
      == match PutObjAny(d, prior.state, prior.put.cursor, v, cls)
         case Err(e) => Err(e)
         case Ok(last) => Ok(Emitted(Then(prior.put, last.put), last.state))
    decreases |vs|
  {
    if vs == [] {
      assert [] + [v] == [v] && [v][0] == v && [v][1..] == [];
      match PutObjAny(d, st, c, v, cls)
      case Err(e) =>
      case Ok(last) =>
        assert last.put.bytes + [] == [] + last.put.bytes;
    } else {
      var first := PutObjAny(d, st, c, vs[0], cls).value;
      var rest := PutEach(d, first.state, first.put.cursor, vs[1..], cls).value;
      assert (vs + [v])[0] == vs[0];
      assert (vs + [v])[1..] == vs[1..] + [v];
      PutEachAppend(d, first.state, first.put.cursor, vs[1..], v, cls);
      match PutObjAny(d, rest.state, rest.put.cursor, v, cls)
      case Err(e) =>
      case Ok(last) =>
        assert first.put.bytes + (rest.put.bytes + last.put.bytes)
            == (first.put.bytes + rest.put.bytes) + last.put.bytes;
    }
  }

  // ---------------------------------------------------------- object array

  /** What `put_tobjarray` is handed: a sequence, or a single non-sequence
      value (on which `len()` raises TypeError). */
  datatype ArrayArg<O> = Many(items: seq<O>) | One(item: O)

  /** The values an object array holds once a single value is wrapped into
      a one-element list, as the branch's writer does. */
  function Wrapped<O>(arg: ArrayArg<O>): (vs: seq<O>)
    ensures arg.Many? ==> vs == arg.items
    ensures arg.One? ==> vs == [arg.item]
  {
    match arg
    case Many(items) => items
    case One(item) => [item]
  }

  /** The array body before the entries: the TObject prefix, the empty
      name and (size, low = 0) as `>ii`. */
  function ObjArrayPrefix(c: Cursor, fBits: int, size: int): (r: Result<Put>)
    ensures r.Ok? <==> 0 <= fBits < Pow256(4) && -Pow256(4) / 2 <= size < Pow256(4) / 2
    ensures r.Ok? ==> Advances(c, r.value) && |r.value.bytes| == 19
  {
    SizeLowFields(size);
    var skip :- PutSkipTObj(c, fBits);
    var name := PutString(skip.cursor, []).value;
    var sl :- PutFields(name.cursor, ">ii", [Int(size), Int(0)]);
    Ok(Then(Then(skip, name), sl))
  }

  /** What a reader finds in the prefix: the skipped TObject's version and
      fields, the empty name, then size and low. */
  predicate PrefixLayout(bs: Bytes, fBits: int, size: int) {
    && |bs| == 19
    && Unpack(">h", bs[..2]) == Ok([Int(1)])
    && Unpack(">II", bs[2..10]) == Ok([Int(0), Int(fBits)])
    && bs[10] == 0
    && Unpack(">ii", bs[11..]) == Ok([Int(size), Int(0)])
  }

  lemma ObjArrayPrefixLayout(c: Cursor, fBits: int, size: int)
    requires ObjArrayPrefix(c, fBits, size).Ok?
    ensures PrefixLayout(ObjArrayPrefix(c, fBits, size).value.bytes, fBits, size)
  {
    SizeLowFields(size);
    var skip := PutSkipTObj(c, fBits).value;
    var name := PutString(skip.cursor, []).value;
    var sl := PutFields(name.cursor, ">ii", [Int(size), Int(0)]).value;
    var bs := ObjArrayPrefix(c, fBits, size).value.bytes;
    assert bs == skip.bytes + name.bytes + sl.bytes;
    SkipTObjReadsBack(c, fBits);
    PutFieldsReadsBack(name.cursor, ">ii", [Int(size), Int(0)]);
    PrefixFromPieces(bs, skip.bytes, name.bytes, sl.bytes, fBits, size);
  }

  lemma PrefixFromPieces(bs: Bytes, skip: Bytes, name: Bytes, sl: Bytes, fBits: int, size: int)
    requires bs == skip + name + sl && |skip| == 10 && name == [0] && |sl| == 8
    requires Unpack(">h", skip[..2]) == Ok([Int(1)])
    requires Unpack(">II", skip[2..]) == Ok([Int(0), Int(fBits)])
    requires Unpack(">ii", sl) == Ok([Int(size), Int(0)])
    ensures PrefixLayout(bs, fBits, size)
  {
    assert bs[..2] == skip[..2];
    assert bs[2..10] == skip[2..];
    assert bs[11..] == sl;
  }

  lemma {:induction false} SizeLowFields(size: int)
    ensures FitsFrom(">ii", 1, [Int(size), Int(0)]) <==> -Pow256(4) / 2 <= size < Pow256(4) / 2
    ensures FitsFrom(">ii", 1, [Int(size), Int(0)]) ==> CanonicalFrom(">ii", 1, [Int(size), Int(0)])
    ensures CalcSize(">ii") == 8
  {
    Pow256Values();
    var vs := [Int(size), Int(0)];
    assert vs[1..] == [Int(0)] && vs[1..][1..] == [];
  }

  /** TObjArray: a version-3 record holding the prefix and one dispatched
      entry per value, in order.  `wrapScalars` selects the branch's copy,
      which wraps a single value into a one-element list; TTree's copy
      raises TypeError on one. */
  function PutTObjArray<O, S>(d: Dispatcher<O, S>, st: S, c: Cursor, arg: ArrayArg<O>, cls: string,
                              fBits: int, wrapScalars: bool): (r: Result<Emitted<S>>)
    ensures r.Ok? ==> Advances(c, r.value.put)
    ensures r.Ok? ==> arg.Many? || wrapScalars
    ensures (arg.One? && !wrapScalars && 0 <= fBits < Pow256(4)) ==> r == Err(TypeError)
    ensures r.Ok? ==> |r.value.put.bytes| >= 25
  {
    var skip :- PutSkipTObj(Skip(c, HeaderSize), fBits);
    if arg.One? && !wrapScalars then Err(TypeError)
    else
      var vs := Wrapped(arg);
      var prefix :- ObjArrayPrefix(Skip(c, HeaderSize), fBits, |vs|);
      var entries :- PutEach(d, st, prefix.cursor, vs, cls);
      var body := Then(prefix, entries.put);
      var framed :- Framed(c, ObjArrayVersion, body);
      Ok(Emitted(framed, entries.state))
  }

  /** Inside the frame: the prefix, then the entries. */
  lemma ObjArrayBody<O, S>(d: Dispatcher<O, S>, st: S, c: Cursor, arg: ArrayArg<O>, cls: string,
                           fBits: int, wrapScalars: bool)
    requires PutTObjArray(d, st, c, arg, cls, fBits, wrapScalars).Ok?
    ensures ObjArrayPrefix(Skip(c, HeaderSize), fBits, |Wrapped(arg)|).Ok?
    ensures PutEach(d, st, Skip(c, HeaderSize + 19), Wrapped(arg), cls).Ok?
    ensures FramedAs(PutTObjArray(d, st, c, arg, cls, fBits, wrapScalars).value.put.bytes, ObjArrayVersion)
    ensures PutTObjArray(d, st, c, arg, cls, fBits, wrapScalars).value.put.bytes[HeaderSize..]
         == ObjArrayPrefix(Skip(c, HeaderSize), fBits, |Wrapped(arg)|).value.bytes
          + PutEach(d, st, Skip(c, HeaderSize + 19), Wrapped(arg), cls).value.put.bytes
  {
    var vs := Wrapped(arg);
    assert PutSkipTObj(Skip(c, HeaderSize), fBits).Ok?;
    assert !(arg.One? && !wrapScalars);
    var prefix := ObjArrayPrefix(Skip(c, HeaderSize), fBits, |vs|).value;
    assert prefix.cursor == Skip(c, HeaderSize + 19);
    var entries := PutEach(d, st, prefix.cursor, vs, cls).value;
    var body := Then(prefix, entries.put);
    var framed := Framed(c, ObjArrayVersion, body).value;
    assert PutTObjArray(d, st, c, arg, cls, fBits, wrapScalars).value.put == framed;
    FrameHeader(ObjArrayVersion, body.bytes);
  }

  /** The layout a reader finds inside an object array's frame. */
  lemma ObjArrayLayout<O, S>(d: Dispatcher<O, S>, st: S, c: Cursor, arg: ArrayArg<O>, cls: string,
                             fBits: int, wrapScalars: bool)
    requires PutTObjArray(d, st, c, arg, cls, fBits, wrapScalars).Ok?
    ensures FramedAs(PutTObjArray(d, st, c, arg, cls, fBits, wrapScalars).value.put.bytes, ObjArrayVersion)
    ensures var body := PutTObjArray(d, st, c, arg, cls, fBits, wrapScalars).value.put.bytes[HeaderSize..];
      && Unpack(">h", body[..2]) == Ok([Int(1)])
      && Unpack(">II", body[2..10]) == Ok([Int(0), Int(fBits)])
      && body[10] == 0
      && Unpack(">ii", body[11..19]) == Ok([Int(|Wrapped(arg)|), Int(0)])
      && PutEach(d, st, Skip(c, HeaderSize + 19), Wrapped(arg), cls).Ok?
      && body[19..] == PutEach(d, st, Skip(c, HeaderSize + 19), Wrapped(arg), cls).value.put.bytes
  {
    ObjArrayBody(d, st, c, arg, cls, fBits, wrapScalars);
    var vs := Wrapped(arg);
    var prefix := ObjArrayPrefix(Skip(c, HeaderSize), fBits, |vs|).value.bytes;
    var entries := PutEach(d, st, Skip(c, HeaderSize + 19), vs, cls).value.put.bytes;
    var body := PutTObjArray(d, st, c, arg, cls, fBits, wrapScalars).value.put.bytes[HeaderSize..];
    ObjArrayPrefixLayout(Skip(c, HeaderSize), fBits, |vs|);
    PrefixSlices(prefix, entries, body, fBits, |vs|);
  }

  lemma PrefixSlices(prefix: Bytes, entries: Bytes, body: Bytes, fBits: int, size: int)
    requires body == prefix + entries && PrefixLayout(prefix, fBits, size)
    ensures Unpack(">h", body[..2]) == Ok([Int(1)])
    ensures Unpack(">II", body[2..10]) == Ok([Int(0), Int(fBits)])
    ensures body[10] == 0
    ensures Unpack(">ii", body[11..19]) == Ok([Int(size), Int(0)])
    ensures body[19..] == entries
  {
    assert body[..2] == prefix[..2];
    assert body[2..10] == prefix[2..10];
    assert body[11..19] == prefix[11..];
  }

  /** Everything after the array's 25-byte head is its entries. */
  lemma ObjArrayEntries<O, S>(d: Dispatcher<O, S>, st: S, c: Cursor, arg: ArrayArg<O>, cls: string,
                              fBits: int, wrapScalars: bool)
    requires PutTObjArray(d, st, c, arg, cls, fBits, wrapScalars).Ok?
    ensures PutEach(d, st, Skip(c, HeaderSize + 19), Wrapped(arg), cls).Ok?
    ensures var bs := PutTObjArray(d, st, c, arg, cls, fBits, wrapScalars).value.put.bytes;
      && |bs| >= HeaderSize + 19
      && bs[HeaderSize + 19..] == PutEach(d, st, Skip(c, HeaderSize + 19), Wrapped(arg), cls).value.put.bytes
  {
    ObjArrayBody(d, st, c, arg, cls, fBits, wrapScalars);
    var bs := PutTObjArray(d, st, c, arg, cls, fBits, wrapScalars).value.put.bytes;
    var prefix := ObjArrayPrefix(Skip(c, HeaderSize), fBits, |Wrapped(arg)|).value.bytes;
    EntriesAfterPrefix(bs, prefix, PutEach(d, st, Skip(c, HeaderSize + 19), Wrapped(arg), cls).value.put.bytes);
  }

  lemma EntriesAfterPrefix(bs: Bytes, prefix: Bytes, entries: Bytes)
    requires |bs| >= HeaderSize && bs[HeaderSize..] == prefix + entries && |prefix| == 19
    ensures |bs| >= HeaderSize + 19 && bs[HeaderSize + 19..] == entries
  {
    assert bs[HeaderSize + 19..] == (prefix + entries)[19..];
  }

  /** Writing a list of one value is exactly the dispatcher's output for it. */
  lemma PutEachSingle<O, S>(d: Dispatcher<O, S>, st: S, c: Cursor, vs: seq<O>, cls: string)
    requires |vs| == 1 && PutEach(d, st, c, vs, cls).Ok?
    ensures d(st, c.index, vs[0], cls).Ok?
    ensures PutEach(d, st, c, vs, cls).value.put.bytes == d(st, c.index, vs[0], cls).value.0
  {
    assert vs[1..] == [];
  }

  /** What a reader finds at the front of an object array: a version-3
      header and the prefix announcing `size` entries. */
  predicate ObjArrayHead(bs: Bytes, fBits: int, size: int) {
    |bs| >= HeaderSize + 19 && FramedAs(bs, ObjArrayVersion) && PrefixLayout(bs[HeaderSize..HeaderSize + 19], fBits, size)
  }

  lemma ObjArrayShape<O, S>(d: Dispatcher<O, S>, st: S, c: Cursor, arg: ArrayArg<O>, cls: string,
                            fBits: int, wrapScalars: bool)
    requires PutTObjArray(d, st, c, arg, cls, fBits, wrapScalars).Ok?
    ensures ObjArrayHead(PutTObjArray(d, st, c, arg, cls, fBits, wrapScalars).value.put.bytes, fBits, |Wrapped(arg)|)
  {
    ObjArrayBody(d, st, c, arg, cls, fBits, wrapScalars);
    var vs := Wrapped(arg);
    var prefix := ObjArrayPrefix(Skip(c, HeaderSize), fBits, |vs|).value.bytes;
    var bs := PutTObjArray(d, st, c, arg, cls, fBits, wrapScalars).value.put.bytes;
    ObjArrayPrefixLayout(Skip(c, HeaderSize), fBits, |vs|);
    HeadFromPieces(bs, prefix, PutEach(d, st, Skip(c, HeaderSize + 19), vs, cls).value.put.bytes, fBits, |vs|);
  }

  lemma HeadFromPieces(bs: Bytes, prefix: Bytes, entries: Bytes, fBits: int, size: int)
    requires |bs| >= HeaderSize && FramedAs(bs, ObjArrayVersion)
    requires bs[HeaderSize..] == prefix + entries && |prefix| == 19
    requires PrefixLayout(prefix, fBits, size)
    ensures ObjArrayHead(bs, fBits, size)
  {
    assert bs[HeaderSize..HeaderSize + 19] == prefix;
  }

  /** The body of an empty object array with the default fBits. */
  const EmptyObjArrayBody: Bytes :=
    [0x00, 0x01, 0x00, 0x00, 0x00, 0x00,    // TObject version 1, uniqueID 0
     0x03, 0x00, 0x00, 0x00,                // fBits 50331648
     0x00,                                  // empty name
     0x00, 0x00, 0x00, 0x00, 0x00, 0x00, 0x00, 0x00]  // size 0, low 0

  /** The whole record: count 21 with the mask bit, version 3, the body. */
  const EmptyObjArrayBytes: Bytes := [0x40, 0x00, 0x00, 0x15, 0x00, 0x03] + EmptyObjArrayBody

  lemma EmptyObjArraySize()
    ensures |EmptyObjArrayBytes| == 25
  {
  }

  /** An empty object array with the default fBits is always the same 25
      bytes, whatever the class name and wherever it is written, and it
      dispatches nothing. */
  lemma EmptyObjArray<O, S>(d: Dispatcher<O, S>, st: S, c: Cursor, cls: string, wrapScalars: bool)
    ensures PutTObjArray(d, st, c, Many([]), cls, ObjArrayBits, wrapScalars)
            == Ok(Emitted(Put(EmptyObjArrayBytes, Skip(c, 25)), st))
  {
    var start := Skip(c, HeaderSize);
    EmptyPrefix(start);
    EmptyFrame();
    Pow256Values();
    assert PutSkipTObj(start, ObjArrayBits).Ok?;
    var body := EmptyObjArrayBody;
    var entries := PutEach(d, st, Skip(start, 19), [], cls);
    assert entries == Ok(Emitted(Put([], Skip(start, 19)), st));
    assert body + [] == body;
    assert Skip(start, 19) == Skip(c, 25);
    assert Framed(c, ObjArrayVersion, Put(body, Skip(c, 25))) == Ok(Put(EmptyObjArrayBytes, Skip(c, 25)));
  }

  lemma EmptyPrefix(start: Cursor)
    ensures ObjArrayPrefix(start, ObjArrayBits, 0) == Ok(Put(EmptyObjArrayBody, Skip(start, 19)))
  {
    var ids: Bytes := [0x00, 0x01] + [0x00, 0x00, 0x00, 0x00, 0x03, 0x00, 0x00, 0x00];
    var sizeLow: Bytes := [0x00, 0x00, 0x00, 0x00, 0x00, 0x00, 0x00, 0x00];
    assert PutSkipTObj(start, ObjArrayBits) == Ok(Put(ids, Skip(start, 10))) by {
      DefaultSkipTObj(start);
    }
    assert PutString(Skip(start, 10), []) == Ok(Put([0x00], Skip(start, 11))) by {
      var empty: Bytes := [];
      assert [0x00] + empty == [0x00];
    }
    assert PutFields(Skip(start, 11), ">ii", [Int(0), Int(0)]) == Ok(Put(sizeLow, Skip(start, 19))) by {
      SizeLowFields(0);
      PackedEmptySizeLow();
    }
    assert EmptyObjArrayBody == ids + [0x00] + sizeLow by {
      EmptyBodyPieces();
    }
  }

  lemma EmptyBodyPieces()
    ensures EmptyObjArrayBody
            == [0x00, 0x01] + [0x00, 0x00, 0x00, 0x00, 0x03, 0x00, 0x00, 0x00] + [0x00]
               + [0x00, 0x00, 0x00, 0x00, 0x00, 0x00, 0x00, 0x00]
  {
  }

  lemma DefaultSkipTObj(start: Cursor)
    ensures PutSkipTObj(start, ObjArrayBits)
            == Ok(Put([0x00, 0x01] + [0x00, 0x00, 0x00, 0x00, 0x03, 0x00, 0x00, 0x00], Skip(start, 10)))
  {
    SkipTObjFields(ObjArrayBits);
    PackedVersionOne();
    PackedDefaultIds();
  }

  lemma EmptyFrame()
    ensures Frame(ObjArrayVersion, EmptyObjArrayBody) == Ok(EmptyObjArrayBytes)
  {
    assert |EmptyObjArrayBody| + HeaderSize - 4 == 21;
    assert ByteCount(21) == 0x4000_0015;
    PackedEmptyHeader();
  }

  lemma PackedVersionOne()
    ensures Pack(">h", [Int(1)]) == Ok([0x00, 0x01])
  {
    assert BigEndian(1, 2) == [0x00, 0x01];
    PackSingle(">h", Int(1), [0x00, 0x01]);
  }

  lemma PackedDefaultIds()
    ensures Pack(">II", [Int(0), Int(ObjArrayBits)]) == Ok([0x00, 0x00, 0x00, 0x00, 0x03, 0x00, 0x00, 0x00])
  {
    Pow256Values();
    assert BigEndian(0, 4) == [0x00, 0x00, 0x00, 0x00];
    assert BigEndian(ObjArrayBits, 4) == [0x03, 0x00, 0x00, 0x00];
    assert PackOne('I', Int(0)) == Ok([0x00, 0x00, 0x00, 0x00]);
    assert PackOne('I', Int(ObjArrayBits)) == Ok([0x03, 0x00, 0x00, 0x00]);
    PackPair(">II", Int(0), Int(ObjArrayBits), [0x00, 0x00, 0x00, 0x00], [0x03, 0x00, 0x00, 0x00]);
    assert [0x00, 0x00, 0x00, 0x00] + [0x03, 0x00, 0x00, 0x00] == [0x00, 0x00, 0x00, 0x00, 0x03, 0x00, 0x00, 0x00];
  }

  lemma PackedEmptySizeLow()
    ensures Pack(">ii", [Int(0), Int(0)]) == Ok([0x00, 0x00, 0x00, 0x00, 0x00, 0x00, 0x00, 0x00])
  {
    Pow256Values();
    assert TwosComplement(0, 4) == 0;
    assert BigEndian(0, 4) == [0x00, 0x00, 0x00, 0x00];
    assert PackOne('i', Int(0)) == Ok([0x00, 0x00, 0x00, 0x00]);
    PackPair(">ii", Int(0), Int(0), [0x00, 0x00, 0x00, 0x00], [0x00, 0x00, 0x00, 0x00]);
    assert [0x00, 0x00, 0x00, 0x00] + [0x00, 0x00, 0x00, 0x00] == [0x00, 0x00, 0x00, 0x00, 0x00, 0x00, 0x00, 0x00];
  }

  lemma PackedEmptyHeader()
    ensures Pack(CntVersFormat, [Int(0x4000_0015), Int(ObjArrayVersion)]) == Ok([0x40, 0x00, 0x00, 0x15, 0x00, 0x03])
  {
    Pow256Values();
    assert BigEndian(0x4000_0015, 4) == [0x40, 0x00, 0x00, 0x15];
    assert BigEndian(3, 2) == [0x00, 0x03];
    assert PackOne('I', Int(0x4000_0015)) == Ok([0x40, 0x00, 0x00, 0x15]);
    assert PackOne('H', Int(3)) == Ok([0x00, 0x03]);
    PackPair(CntVersFormat, Int(0x4000_0015), Int(3), [0x40, 0x00, 0x00, 0x15], [0x00, 0x03]);
    assert [0x40, 0x00, 0x00, 0x15] + [0x00, 0x03] == [0x40, 0x00, 0x00, 0x15, 0x00, 0x03];
  }

  // -------------------------------------------------------- numeric arrays

  /** TArray: the element count as `>i`, then the raw elements. */
  function PutTArray(c: Cursor, a: NumArray): (r: Result<Put>)
    ensures r.Ok? <==> |a.items| < Pow256(4) / 2
    ensures r.Ok? ==> Advances(c, r.value) && |r.value.bytes| == 4 + ItemSize(a.dtype) * |a.items|
    ensures r.Ok? ==> ArrayAt(r.value.bytes[4..], a)
  {
    CountField(|a.items|);
    var n :- PutFields(c, ">i", [Int(|a.items|)]);
    var items := PutArray(n.cursor, a);
    var r := Then(n, items);
    assert r.bytes[4..] == items.bytes;
    Ok(r)
  }

  lemma TArrayReadsBack(c: Cursor, a: NumArray)
    requires PutTArray(c, a).Ok?
    ensures Unpack(">i", PutTArray(c, a).value.bytes[..4]) == Ok([Int(|a.items|)])
  {
    CountField(|a.items|);
    var n := PutFields(c, ">i", [Int(|a.items|)]).value;
    assert PutTArray(c, a).value.bytes[..4] == n.bytes;
    PutFieldsReadsBack(c, ">i", [Int(|a.items|)]);
  }

  lemma {:induction false} CountField(n: nat)
    ensures FitsFrom(">i", 1, [Int(n)]) <==> n < Pow256(4) / 2
    ensures FitsFrom(">i", 1, [Int(n)]) ==> CanonicalFrom(">i", 1, [Int(n)])
    ensures CalcSize(">i") == 4
  {
    Pow256Values();
    assert [Int(n)][1..] == [];
  }
}

=== FILE: structs.dfy ===
/** Python's `struct` module, restricted to the big-endian ('>') formats the
    writer uses.  A format is '>' followed by one code per value; `Pack`
    fails exactly where `struct.pack` raises `struct.error`, and `Unpack`
    is its inverse. */
module Struct {
  import opened Bytes
  import opened Errors

  /** A value handed to `struct.pack`: a Python int, a Python bool, or a
      float given by its IEEE-754 big-endian bit pattern (floating point
      arithmetic itself is not modelled). */
  datatype Field = Int(i: int) | Bool(b: bool) | Float(bits: Bytes)

  /** Width in bytes of one format code; 0 for a character that is not a code. */
  function CodeSize(c: char): nat
  {
    match c
    case 'b' => 1 case 'B' => 1 case '?' => 1
    case 'h' => 2 case 'H' => 2
    case 'i' => 4 case 'I' => 4 case 'f' => 4
    case 'q' => 8 case 'Q' => 8 case 'd' => 8
    case _ => 0
  }

  predicate IsCode(c: char) {
    CodeSize(c) > 0
  }

  predicate IsInteger(c: char) {
    c in "bBhHiIqQ"
  }

  predicate IsSigned(c: char) {
    c in "bhiq"
  }

  /** The formats modelled are the big-endian ones: '>' then codes. */
  predicate BigEndianFormat(fmt: string) {
    |fmt| >= 1 && fmt[0] == '>'
  }

  /** Total width of the codes of `fmt` from position i on. */
  function SizeFrom(fmt: string, i: nat): nat
    decreases |fmt| - i
  {
    if i >= |fmt| then 0 else CodeSize(fmt[i]) + SizeFrom(fmt, i + 1)
  }

  /** The widths of the integer codes, as numbers. */
  lemma Pow256Values()
    ensures Pow256(1) == 0x100 && Pow256(2) == 0x1_0000
    ensures Pow256(4) == 0x1_0000_0000 && Pow256(8) == 0x1_0000_0000_0000_0000
  {
  }

  /** `struct.calcsize`. */
  function CalcSize(fmt: string): nat
  {
    SizeFrom(fmt, 1)
  }

  /** The integer a field stands for under an integer code (a bool is 0 or 1). */
  function IntOf(f: Field): int
    requires !f.Float?
  {
    match f
    case Int(i) => i
    case Bool(b) => if b then 1 else 0
  }

  /** The range `struct` accepts for an integer code. */
  predicate InRange(c: char, v: int)
    requires IsInteger(c)
  {
    if IsSigned(c) then -Pow256(CodeSize(c)) <= 2 * v < Pow256(CodeSize(c))
    else 0 <= v < Pow256(CodeSize(c))
  }

  /** Python truthiness of a float: false only for +0.0 and -0.0. */
  predicate FloatTruthy(bits: Bytes) {
    exists k :: 0 <= k < |bits| && (if k == 0 then bits[k] % 128 != 0 else bits[k] != 0)
  }

  /** `struct.pack` accepts field f for code c. */
  predicate Fits(c: char, f: Field) {
    if IsInteger(c) then !f.Float? && InRange(c, IntOf(f))
    else if c == '?' then true
    else if c == 'f' || c == 'd' then f.Float? && |f.bits| == CodeSize(c)
    else false
  }

  /** Pack one value under one code. */
  function PackOne(c: char, f: Field): (r: Result<Bytes>)
    ensures r.Ok? <==> Fits(c, f)
    ensures r.Ok? ==> |r.value| == CodeSize(c)
  {
    if IsInteger(c) then
      if f.Float? || !InRange(c, IntOf(f)) then Err(StructError)
      else
        var n := CodeSize(c);
        var v := IntOf(f);
        Ok(BigEndian(if IsSigned(c) then TwosComplement(v, n) else v, n))
    else if c == '?' then
      match f
      case Int(i) => Ok([if i != 0 then 1 else 0])
      case Bool(b) => Ok([if b then 1 else 0])
      case Float(bits) => Ok([if FloatTruthy(bits) then 1 else 0])
    else if (c == 'f' || c == 'd') && f.Float? && |f.bits| == CodeSize(c) then Ok(f.bits)
    else Err(StructError)
  }

  /** Every value fits its code, one value per code from position i on. */
  predicate FitsFrom(fmt: string, i: nat, vs: seq<Field>)
    decreases |fmt| - i
  {
    if i >= |fmt| then vs == []
    else |vs| > 0 && Fits(fmt[i], vs[0]) && FitsFrom(fmt, i + 1, vs[1..])
  }

  /** Pack the values for the codes of `fmt` from position i on. */
  function PackFrom(fmt: string, i: nat, vs: seq<Field>): (r: Result<Bytes>)
    ensures r.Ok? <==> FitsFrom(fmt, i, vs)
    ensures r.Ok? ==> |r.value| == SizeFrom(fmt, i)
    decreases |fmt| - i
  {
    if i >= |fmt| then
      if vs == [] then Ok([]) else Err(StructError)
    else if vs == [] then Err(StructError)
    else
      var head :- PackOne(fmt[i], vs[0]);
      var tail :- PackFrom(fmt, i + 1, vs[1..]);
      Ok(head + tail)
  }

  /** `struct.pack(fmt, *vs)`. */
  function Pack(fmt: string, vs: seq<Field>): (r: Result<Bytes>)
    ensures r.Ok? <==> BigEndianFormat(fmt) && FitsFrom(fmt, 1, vs)
    ensures r.Ok? ==> |r.value| == CalcSize(fmt) && |vs| == |fmt| - 1
  {
    if !BigEndianFormat(fmt) then Err(StructError)
    else
      FitsLength(fmt, 1, vs);
      PackFrom(fmt, 1, vs)
  }

  lemma {:induction false} FitsLength(fmt: string, i: nat, vs: seq<Field>)
    requires i <= |fmt|
    ensures FitsFrom(fmt, i, vs) ==> |vs| == |fmt| - i
    decreases |fmt| - i
  {
    if i < |fmt| && |vs| > 0 {
      FitsLength(fmt, i + 1, vs[1..]);
    }
  }

  /** Read one value of code c back from its bytes. */
  function UnpackOne(c: char, bs: Bytes): (f: Field)
    requires IsCode(c) && |bs| == CodeSize(c)
  {
    if IsInteger(c) then
      var u := FromBigEndian(bs);
      Int(if IsSigned(c) then FromTwosComplement(u, |bs|) else u)
    else if c == '?' then Bool(bs[0] != 0)
    else Float(bs)
  }

  /** Unpack the codes of `fmt` from position i on; the bytes must be used up exactly. */
  function UnpackFrom(fmt: string, i: nat, bs: Bytes): (r: Result<seq<Field>>)
    requires i <= |fmt|
    ensures r.Ok? ==> |bs| == SizeFrom(fmt, i) && |r.value| == |fmt| - i
    decreases |fmt| - i
  {
    if i >= |fmt| then
      if bs == [] then Ok([]) else Err(StructError)
    else if !IsCode(fmt[i]) || |bs| < CodeSize(fmt[i]) then Err(StructError)
    else
      var n := CodeSize(fmt[i]);
      var tail :- UnpackFrom(fmt, i + 1, bs[n..]);
      Ok([UnpackOne(fmt[i], bs[..n])] + tail)
  }

  /** `struct.unpack(fmt, bs)`. */
  function Unpack(fmt: string, bs: Bytes): (r: Result<seq<Field>>)
    ensures r.Ok? ==> BigEndianFormat(fmt)
    ensures r.Ok? ==> |bs| == CalcSize(fmt) && |r.value| == |fmt| - 1
  {
    if !BigEndianFormat(fmt) then Err(StructError) else UnpackFrom(fmt, 1, bs)
  }

  /** `bs` unpacks under `fmt` to exactly `vs`. */
  predicate Decodes(fmt: string, bs: Bytes, vs: seq<Field>) {
    Unpack(fmt, bs) == Ok(vs)
  }

  /** Packing a one-code format is packing its one value. */
  lemma PackSingle(fmt: string, v: Field, hv: Bytes)
    requires |fmt| == 2 && fmt[0] == '>' && PackOne(fmt[1], v) == Ok(hv)
    ensures Pack(fmt, [v]) == Ok(hv)
  {
    assert [v][1..] == [];
    assert PackFrom(fmt, 2, []) == Ok([]);
    assert hv + [] == hv;
  }

  /** Packing a two-code format is packing each value and concatenating. */
  lemma PackPair(fmt: string, x: Field, y: Field, hx: Bytes, hy: Bytes)
    requires |fmt| == 3 && fmt[0] == '>'
    requires PackOne(fmt[1], x) == Ok(hx) && PackOne(fmt[2], y) == Ok(hy)
    ensures Pack(fmt, [x, y]) == Ok(hx + hy)
  {
    var vs := [x, y];
    assert vs[1..] == [y] && vs[1..][1..] == [];
    assert PackFrom(fmt, 3, []) == Ok([]);
    assert hy + [] == hy;
    assert PackFrom(fmt, 2, [y]) == Ok(hy);
    assert PackFrom(fmt, 1, vs) == Ok(hx + hy);
  }

  /** The field a code reads back unchanged: ints for integer codes, bools
      for '?', bit patterns for float codes. */
  predicate Canonical(c: char, f: Field) {
    Fits(c, f) && (IsInteger(c) ==> f.Int?) && (c == '?' ==> f.Bool?)
  }

  predicate CanonicalFrom(fmt: string, i: nat, vs: seq<Field>)
    decreases |fmt| - i
  {
    if i >= |fmt| then vs == []
    else |vs| > 0 && Canonical(fmt[i], vs[0]) && CanonicalFrom(fmt, i + 1, vs[1..])
  }

  lemma PackOneRoundTrip(c: char, f: Field)
    requires Canonical(c, f)
    ensures UnpackOne(c, PackOne(c, f).value) == f
  {
    if IsInteger(c) {
      var n := CodeSize(c);
      var u := if IsSigned(c) then TwosComplement(f.i, n) else f.i;
      BigEndianRoundTrip(u, n);
      if IsSigned(c) {
        TwosComplementRoundTrip(f.i, n);
      }
    }
  }

  /** Unpacking what was packed gives the values back. */
  lemma {:induction false} PackFromRoundTrip(fmt: string, i: nat, vs: seq<Field>)
    requires i <= |fmt|
    requires CanonicalFrom(fmt, i, vs)
    ensures PackFrom(fmt, i, vs).Ok?
    ensures UnpackFrom(fmt, i, PackFrom(fmt, i, vs).value) == Ok(vs)
    decreases |fmt| - i
  {
    CanonicalFits(fmt, i, vs);
    if i < |fmt| {
      var n := CodeSize(fmt[i]);
      var bs := PackFrom(fmt, i, vs).value;
      var head := PackOne(fmt[i], vs[0]).value;
      var tail := PackFrom(fmt, i + 1, vs[1..]).value;
      assert bs == head + tail;
      assert bs[..n] == head && bs[n..] == tail;
      PackOneRoundTrip(fmt[i], vs[0]);
      PackFromRoundTrip(fmt, i + 1, vs[1..]);
      assert vs == [vs[0]] + vs[1..];
    }
  }

  lemma {:induction false} CanonicalFits(fmt: string, i: nat, vs: seq<Field>)
    requires CanonicalFrom(fmt, i, vs)
    ensures FitsFrom(fmt, i, vs)
    decreases |fmt| - i
  {
    if i < |fmt| {
      CanonicalFits(fmt, i + 1, vs[1..]);
    }
  }

  /** `struct.unpack(fmt, struct.pack(fmt, *vs)) == vs` for canonical values. */
  lemma PackRoundTrip(fmt: string, vs: seq<Field>)
    requires BigEndianFormat(fmt)
    requires CanonicalFrom(fmt, 1, vs)
    ensures Pack(fmt, vs).Ok?
    ensures Unpack(fmt, Pack(fmt, vs).value) == Ok(vs)
  {
    PackFromRoundTrip(fmt, 1, vs);
  }

  /** An all-integer run of codes. */
  predicate IntegerFrom(fmt: string, i: nat)
    decreases |fmt| - i
  {
    i >= |fmt| || (IsInteger(fmt[i]) && IntegerFrom(fmt, i + 1))
  }

  /** An integer field read from bytes packs back to the same bytes. */
  lemma UnpackOneRoundTrip(c: char, bs: Bytes)
    requires IsInteger(c) && |bs| == CodeSize(c)
    ensures PackOne(c, UnpackOne(c, bs)) == Ok(bs)
  {
    var n := CodeSize(c);
    var u := FromBigEndian(bs);
    FromBigEndianRoundTrip(bs);
    if IsSigned(c) {
      var v := FromTwosComplement(u, n);
      assert UnpackOne(c, bs) == Int(v);
      assert InRange(c, v);
      assert TwosComplement(v, n) == u;
    } else {
      assert UnpackOne(c, bs) == Int(u);
      assert InRange(c, u);
    }
  }

  /** For integer codes the other direction holds too: any bytes unpack to
      values that pack back to the same bytes. */
  lemma {:induction false} UnpackFromRoundTrip(fmt: string, i: nat, bs: Bytes)
    requires i <= |fmt|
    requires IntegerFrom(fmt, i)
    requires UnpackFrom(fmt, i, bs).Ok?
    ensures PackFrom(fmt, i, UnpackFrom(fmt, i, bs).value) == Ok(bs)
    decreases |fmt| - i
  {
    if i < |fmt| {
      var c := fmt[i];
      var n := CodeSize(c);
      var vs := UnpackFrom(fmt, i, bs).value;
      var tail := UnpackFrom(fmt, i + 1, bs[n..]).value;
      assert vs == [UnpackOne(c, bs[..n])] + tail;
      assert vs[0] == UnpackOne(c, bs[..n]) && vs[1..] == tail;
      UnpackOneRoundTrip(c, bs[..n]);
      UnpackFromRoundTrip(fmt, i + 1, bs[n..]);
      assert PackFrom(fmt, i, vs) == Ok(bs[..n] + bs[n..]);
      assert bs == bs[..n] + bs[n..];
    }
  }

  /** Plain integers for an all-integer run of codes: whatever packs also
      reads back unchanged. */
  lemma {:induction false} IntsCanonical(fmt: string, i: nat, vs: seq<Field>)
    requires IntegerFrom(fmt, i)
    requires forall k :: 0 <= k < |vs| ==> vs[k].Int?
    ensures FitsFrom(fmt, i, vs) ==> CanonicalFrom(fmt, i, vs)
    decreases |fmt| - i
  {
    if i < |fmt| && |vs| > 0 {
      IntsCanonical(fmt, i + 1, vs[1..]);
    }
  }

  /** Without '?' codes and without bools, whatever packs also reads back
      unchanged: an integer code only accepts ints, a float code only bit
      patterns. */
  lemma {:induction false} NoBoolsCanonical(fmt: string, i: nat, vs: seq<Field>)
    requires forall j :: i <= j < |fmt| ==> fmt[j] != '?'
    requires forall k :: 0 <= k < |vs| ==> !vs[k].Bool?
    ensures FitsFrom(fmt, i, vs) ==> CanonicalFrom(fmt, i, vs)
    decreases |fmt| - i
  {
    if i < |fmt| && |vs| > 0 {
      NoBoolsCanonical(fmt, i + 1, vs[1..]);
    }
  }

  /** One step of `FitsFrom` on a suffix of the values. */
  lemma FitsStep(fmt: string, i: nat, vs: seq<Field>, k: nat)
    requires i < |fmt| && k < |vs|
    ensures FitsFrom(fmt, i, vs[k..]) <==> Fits(fmt[i], vs[k]) && FitsFrom(fmt, i + 1, vs[k + 1..])
  {
    assert vs[k..][1..] == vs[k + 1..];
  }

  // A format written as two runs of codes: each run checks its own values.

  lemma {:induction false} FitsFromShift(a: string, b: string, j: nat, ys: seq<Field>)
    ensures FitsFrom(a + b, |a| + j, ys) <==> FitsFrom(b, j, ys)
    decreases |b| - j
  {
    if j < |b| {
      assert (a + b)[|a| + j] == b[j];
      if |ys| > 0 {
        FitsFromShift(a, b, j + 1, ys[1..]);
      }
    }
  }

  lemma {:induction false} FitsFromAppend(a: string, b: string, i: nat, xs: seq<Field>, ys: seq<Field>)
    requires i <= |a| && |xs| == |a| - i
    ensures FitsFrom(a + b, i, xs + ys) <==> FitsFrom(a, i, xs) && FitsFrom(b, 0, ys)
    decreases |a| - i
  {
    if i == |a| {
      assert xs + ys == ys;
      FitsFromShift(a, b, 0, ys);
    } else {
      assert (a + b)[i] == a[i];
      assert (xs + ys)[0] == xs[0] && (xs + ys)[1..] == xs[1..] + ys;
      FitsFromAppend(a, b, i + 1, xs[1..], ys);
    }
  }

  lemma {:induction false} CanonicalFromShift(a: string, b: string, j: nat, ys: seq<Field>)
    ensures CanonicalFrom(a + b, |a| + j, ys) <==> CanonicalFrom(b, j, ys)
    decreases |b| - j
  {
    if j < |b| {
      assert (a + b)[|a| + j] == b[j];
      if |ys| > 0 {
        CanonicalFromShift(a, b, j + 1, ys[1..]);
      }
    }
  }

  lemma {:induction false} CanonicalFromAppend(a: string, b: string, i: nat, xs: seq<Field>, ys: seq<Field>)
    requires i <= |a| && |xs| == |a| - i
    ensures CanonicalFrom(a + b, i, xs + ys) <==> CanonicalFrom(a, i, xs) && CanonicalFrom(b, 0, ys)
    decreases |a| - i
  {
    if i == |a| {
      assert xs + ys == ys;
      CanonicalFromShift(a, b, 0, ys);
    } else {
      assert (a + b)[i] == a[i];
      assert (xs + ys)[0] == xs[0] && (xs + ys)[1..] == xs[1..] + ys;
      CanonicalFromAppend(a, b, i + 1, xs[1..], ys);
    }
  }

  lemma {:induction false} SizeFromShift(a: string, b: string, j: nat)
    ensures SizeFrom(a + b, |a| + j) == SizeFrom(b, j)
    decreases |b| - j
  {
    if j < |b| {
      assert (a + b)[|a| + j] == b[j];
      SizeFromShift(a, b, j + 1);
    }
  }

  lemma {:induction false} SizeFromAppend(a: string, b: string, i: nat)
    requires i <= |a|
    ensures SizeFrom(a + b, i) == SizeFrom(a, i) + SizeFrom(b, 0)
    decreases |a| - i
  {
    if i == |a| {
      SizeFromShift(a, b, 0);
    } else {
      assert (a + b)[i] == a[i];
      SizeFromAppend(a, b, i + 1);
    }
  }
}

=== FILE: text.dfy ===
/** Names and titles reach the writer either as bytes or as text; text is
    turned into bytes with UTF-8.  Includes the UTF-8 decoder the encoding
    is proved against. */
module Text {
  import opened Bytes
  import opened Errors

  /** A Python string argument: a `bytes` object, or a `str`. */
  datatype PyStr = Raw(bytes: Bytes) | Str(text: string)

  predicate IsContinuation(b: uint8) {
    0x80 <= b < 0xC0
  }

  /** The UTF-8 encoding of one Unicode scalar value. */
  function EncodeChar(ch: char): (r: Bytes)
    ensures 1 <= |r| <= 4
    ensures (ch as int < 0x80) <==> |r| == 1
    ensures |r| == 1 ==> r[0] == ch as int
    ensures forall k :: 1 <= k < |r| ==> IsContinuation(r[k])
  {
    var cp := ch as int;
    if cp < 0x80 then [cp]
    else if cp < 0x800 then [0xC0 + cp / 0x40, 0x80 + cp % 0x40]
    else if cp < 0x1_0000 then
      [0xE0 + cp / 0x1000, 0x80 + (cp / 0x40) % 0x40, 0x80 + cp % 0x40]
    else
      [0xF0 + cp / 0x4_0000, 0x80 + (cp / 0x1000) % 0x40, 0x80 + (cp / 0x40) % 0x40, 0x80 + cp % 0x40]
  }

  /** `str.encode("utf-8")`. */
  function Utf8(s: string): (r: Bytes)
    ensures |s| <= |r| <= 4 * |s|
  {
    if |s| == 0 then [] else EncodeChar(s[0]) + Utf8(s[1..])
  }

  /** `fixstring`: bytes pass through untouched, text is UTF-8 encoded. */
  function FixString(s: PyStr): (r: Bytes)
    ensures s.Raw? ==> r == s.bytes
    ensures s.Str? ==> |s.text| <= |r| <= 4 * |s.text|
  {
    match s
    case Raw(b) => b
    case Str(t) => Utf8(t)
  }

  /** The code point of a well-formed leading sequence of UTF-8, and how many
      bytes it takes; None for a malformed or overlong sequence. */
  function DecodeChar(bs: Bytes): (r: Option<(char, nat)>)
    requires |bs| > 0
    ensures r.Some? ==> 1 <= r.value.1 <= |bs|
  {
    var b0: int := bs[0];
    if b0 < 0x80 then Some((b0 as char, 1))
    else if 0xC0 <= b0 < 0xE0 && |bs| >= 2 && IsContinuation(bs[1]) then
      var cp := (b0 - 0xC0) * 0x40 + (bs[1] as int - 0x80);
      if cp < 0x80 then None else Some((cp as char, 2))
    else if 0xE0 <= b0 < 0xF0 && |bs| >= 3 && IsContinuation(bs[1]) && IsContinuation(bs[2]) then
      var cp := (b0 - 0xE0) * 0x1000 + (bs[1] as int - 0x80) * 0x40 + (bs[2] as int - 0x80);
      if cp < 0x800 || (0xD800 <= cp < 0xE000) then None else Some((cp as char, 3))
    else if 0xF0 <= b0 < 0xF8 && |bs| >= 4 && IsContinuation(bs[1]) && IsContinuation(bs[2])
         && IsContinuation(bs[3]) then
      var cp := (b0 - 0xF0) * 0x4_0000 + (bs[1] as int - 0x80) * 0x1000 + (bs[2] as int - 0x80) * 0x40 + (bs[3] as int - 0x80);
      if cp < 0x1_0000 || cp >= 0x11_0000 then None else Some((cp as char, 4))
    else None
  }

  /** `bytes.decode("utf-8")`, None where Python raises. */
  function DecodeUtf8(bs: Bytes): (r: Option<string>)
    ensures r.Some? ==> |r.value| <= |bs|
    decreases |bs|
  {
    if |bs| == 0 then Some([])
    else
      match DecodeChar(bs)
      case None => None
      case Some((ch, n)) =>
        match DecodeUtf8(bs[n..])
        case None => None
        case Some(rest) => Some([ch] + rest)
  }

  lemma EncodeCharRoundTrip(ch: char, rest: Bytes)
    ensures DecodeChar(EncodeChar(ch) + rest) == Some((ch, |EncodeChar(ch)|))
  {
    var cp := ch as int;
    var bs := EncodeChar(ch) + rest;
    if cp < 0x80 {
    } else if cp < 0x800 {
      DecodeTwo(ch, bs);
    } else if cp < 0x1_0000 {
      DecodeThree(ch, bs);
    } else {
      DecodeFour(ch, bs);
    }
  }

  lemma DecodeTwo(ch: char, bs: Bytes)
    requires 0x80 <= ch as int < 0x800 && |bs| >= 2
    requires bs[0] == 0xC0 + ch as int / 0x40 && bs[1] == 0x80 + ch as int % 0x40
    ensures DecodeChar(bs) == Some((ch, 2))
  {
    var cp := ch as int;
    assert (cp / 0x40) * 0x40 + cp % 0x40 == cp;
  }

  lemma DecodeThree(ch: char, bs: Bytes)
    requires 0x800 <= ch as int < 0x1_0000 && |bs| >= 3
    requires bs[0] == 0xE0 + ch as int / 0x1000
    requires bs[1] == 0x80 + (ch as int / 0x40) % 0x40
    requires bs[2] == 0x80 + ch as int % 0x40
    ensures DecodeChar(bs) == Some((ch, 3))
  {
    var cp := ch as int;
    assert (cp / 0x1000) * 0x40 + (cp / 0x40) % 0x40 == cp / 0x40;
    assert (cp / 0x40) * 0x40 + cp % 0x40 == cp;
  }

  lemma DecodeFour(ch: char, bs: Bytes)
    requires 0x1_0000 <= ch as int && |bs| >= 4
    requires bs[0] == 0xF0 + ch as int / 0x4_0000
    requires bs[1] == 0x80 + (ch as int / 0x1000) % 0x40
    requires bs[2] == 0x80 + (ch as int / 0x40) % 0x40
    requires bs[3] == 0x80 + ch as int % 0x40
    ensures DecodeChar(bs) == Some((ch, 4))
  {
    var cp := ch as int;
    assert (cp / 0x4_0000) * 0x40 + (cp / 0x1000) % 0x40 == cp / 0x1000;
    assert (cp / 0x1000) * 0x40 + (cp / 0x40) % 0x40 == cp / 0x40;
    assert (cp / 0x40) * 0x40 + cp % 0x40 == cp;
  }

  /** Decoding the UTF-8 encoding of a string gives the string back. */
  lemma {:induction false} Utf8RoundTrip(s: string)
    ensures DecodeUtf8(Utf8(s)) == Some(s)
  {
    if |s| > 0 {
      var head := EncodeChar(s[0]);
      var tail := Utf8(s[1..]);
      EncodeCharRoundTrip(s[0], tail);
      assert (head + tail)[|head|..] == tail;
      Utf8RoundTrip(s[1..]);
      assert s == [s[0]] + s[1..];
    }
  }

  /** Text made only of ASCII characters encodes byte for byte. */
  lemma {:induction false} AsciiEncodesAsItself(s: string)
    requires forall k :: 0 <= k < |s| ==> s[k] as int < 0x80
    ensures |Utf8(s)| == |s|
    ensures forall k :: 0 <= k < |s| ==> Utf8(s)[k] == s[k] as int
  {
    if |s| > 0 {
      AsciiEncodesAsItself(s[1..]);
    }
  }

  /** `fixstring` is idempotent: fixing an already fixed string changes nothing. */
  lemma FixStringIdempotent(s: PyStr)
    ensures FixString(Raw(FixString(s))) == FixString(s)
  {
  }
}

=== FILE: tree.dfy ===
/** The TTree writer: the tree's field table with the constructor's
    defaults, the accumulation of branch totals that opens every write, and
    the version-20 TTree record built from the named header, the three
    attribute blocks, the bookkeeping fields, the cluster arrays, the IO
    features, the branch and leaf arrays and the trailing objects. */
module Trees {
  import opened Bytes
  import opened Errors
  import opened Struct
  import opened Text
  import opened Cursors
  import opened Framing
  import opened Streamers
  import opened Branches

  const TreeVersion := 20

  /** IEEE-754 big-endian patterns of the float defaults 1.0. */
  const MarkerSizeOne: Bytes := [0x3f, 0x80, 0x00, 0x00]
  const WeightOne: Bytes := [0x3f, 0xf0, 0x00, 0x00, 0x00, 0x00, 0x00, 0x00]

  /** The tree's field table.  `pending` holds the branches handed to the
      constructor; `branches` and `leaves` are the lists a write appends
      them (and their leaf-name lists) to.  Absent objects are `NoObject`. */
  datatype Tree = Tree(
    name: Bytes,
    title: Bytes,
    pending: seq<Branch>,
    line: LineAttr,
    fill: FillAttr,
    marker: MarkerAttr,
    entries: int,
    totBytes: int,
    zipBytes: int,
    savedBytes: int,
    flushedBytes: int,
    weight: Bytes,
    timerInterval: int,
    scanField: int,
    update: int,
    defaultEntryOffsetLen: int,
    nClusterRange: int,
    maxEntries: int,
    maxEntryLoop: int,
    maxVirtualSize: int,
    autoSave: int,
    autoFlush: int,
    estimate: int,
    clusterRangeEnd: seq<Field>,
    clusterSize: seq<Field>,
    branches: seq<Branch>,
    friends: Obj,
    treeIndex: Obj,
    index: seq<Field>,
    indexValues: seq<Field>,
    aliases: Obj,
    leaves: seq<seq<string>>,
    userInfo: Obj,
    branchRef: Obj)

  /** `TTree(name, title, *branches)`. */
  function NewTree(name: PyStr, title: PyStr, branches: seq<Branch>): (t: Tree)
    ensures t.name == FixString(name) && t.title == FixString(title) && t.pending == branches
    ensures t.line == LineAttr(602, 1, 1) && t.fill == FillAttr(0, 1001)
    ensures t.marker == MarkerAttr(1, 1, MarkerSizeOne) && t.weight == WeightOne
    ensures t.entries == 0 && t.totBytes == 0 && t.zipBytes == 0
    ensures t.scanField == 25 && t.defaultEntryOffsetLen == 1000
    ensures t.maxEntries == 1_000_000_000_000 && t.maxEntryLoop == 1_000_000_000_000
    ensures t.autoSave == -300_000_000 && t.autoFlush == -30_000_000 && t.estimate == 1_000_000
    ensures t.savedBytes == 0 && t.flushedBytes == 0 && t.timerInterval == 0 && t.update == 0
    ensures t.nClusterRange == 0 && t.maxVirtualSize == 0
    ensures t.branches == [] && t.leaves == [] && t.clusterRangeEnd == [] && t.clusterSize == []
    ensures t.index == [] && t.indexValues == []
    ensures t.friends == NoObject && t.treeIndex == NoObject && t.aliases == NoObject
    ensures t.userInfo == NoObject && t.branchRef == NoObject
  {
    Tree(
      name := FixString(name),
      title := FixString(title),
      pending := branches,
      line := LineAttr(602, 1, 1),
      fill := FillAttr(0, 1001),
      marker := MarkerAttr(1, 1, MarkerSizeOne),
      entries := 0,
      totBytes := 0,
      zipBytes := 0,
      savedBytes := 0,
      flushedBytes := 0,
      weight := WeightOne,
      timerInterval := 0,
      scanField := 25,
      update := 0,
      defaultEntryOffsetLen := 1000,
      nClusterRange := 0,
      maxEntries := 1_000_000_000_000,
      maxEntryLoop := 1_000_000_000_000,
      maxVirtualSize := 0,
      autoSave := -300_000_000,
      autoFlush := -30_000_000,
      estimate := 1_000_000,
      clusterRangeEnd := [],
      clusterSize := [],
      branches := [],
      friends := NoObject,
      treeIndex := NoObject,
      index := [],
      indexValues := [],
      aliases := NoObject,
      leaves := [],
      userInfo := NoObject,
      branchRef := NoObject)
  }

  // ---------------------------------------------------------------- totals

  function EntriesOf(b: Branch): int { b.entries }
  function TotBytesOf(b: Branch): int { b.totBytes }
  function ZipBytesOf(b: Branch): int { b.zipBytes }

  /** The sum of one numeric field over a list of branches. */
  function Sum(bs: seq<Branch>, f: Branch -> int): int {
    if bs == [] then 0 else f(bs[0]) + Sum(bs[1..], f)
  }

  lemma {:induction false} SumAppend(bs: seq<Branch>, b: Branch, f: Branch -> int)
    ensures Sum(bs + [b], f) == Sum(bs, f) + f(b)
  {
    if bs == [] {
      assert [] + [b] == [b] && [b][1..] == [];
    } else {
      assert (bs + [b])[1..] == bs[1..] + [b];
      SumAppend(bs[1..], b, f);
    }
  }

  lemma {:induction false} SumConcat(xs: seq<Branch>, ys: seq<Branch>, f: Branch -> int)
    ensures Sum(xs + ys, f) == Sum(xs, f) + Sum(ys, f)
  {
    if xs == [] {
      assert [] + ys == ys;
    } else {
      assert (xs + ys)[1..] == xs[1..] + ys;
      SumConcat(xs[1..], ys, f);
    }
  }

  /** The leaf-name list of each branch, in order. */
  function LeafLists(bs: seq<Branch>): (r: seq<seq<string>>)
    ensures |r| == |bs| && forall k :: 0 <= k < |bs| ==> r[k] == bs[k].leaves
  {
    seq(|bs|, k requires 0 <= k < |bs| => bs[k].leaves)
  }

  /** The field table after the loop that opens `write`: the three totals
      grow by the branches' sums, and the branches and their leaf lists are
      appended in order.  Nothing else changes. */
  function Accumulated(t: Tree): Tree {
    t.(entries := t.entries + Sum(t.pending, EntriesOf),
       totBytes := t.totBytes + Sum(t.pending, TotBytesOf),
       zipBytes := t.zipBytes + Sum(t.pending, ZipBytesOf),
       branches := t.branches + t.pending,
       leaves := t.leaves + LeafLists(t.pending))
  }

  /** The loop itself, one branch at a time. */
  method AccumulateTotals(t: Tree) returns (u: Tree)
    ensures u.entries == t.entries + Sum(t.pending, EntriesOf)
    ensures u.totBytes == t.totBytes + Sum(t.pending, TotBytesOf)
    ensures u.zipBytes == t.zipBytes + Sum(t.pending, ZipBytesOf)
    ensures u.branches == t.branches + t.pending
    ensures |u.leaves| == |t.leaves| + |t.pending|
    ensures u.leaves[..|t.leaves|] == t.leaves
    ensures forall k :: 0 <= k < |t.pending| ==> u.leaves[|t.leaves| + k] == t.pending[k].leaves
    ensures u == Accumulated(t)
  {
    u := t;
    for i := 0 to |t.pending|
      invariant u.entries == t.entries + Sum(t.pending[..i], EntriesOf)
      invariant u.totBytes == t.totBytes + Sum(t.pending[..i], TotBytesOf)
      invariant u.zipBytes == t.zipBytes + Sum(t.pending[..i], ZipBytesOf)
      invariant u.branches == t.branches + t.pending[..i]
      invariant u.leaves == t.leaves + LeafLists(t.pending[..i])
      invariant u == t.(entries := u.entries, totBytes := u.totBytes, zipBytes := u.zipBytes,
                        branches := u.branches, leaves := u.leaves)
    {
      var b := t.pending[i];
      assert t.pending[..i + 1] == t.pending[..i] + [b];
      SumAppend(t.pending[..i], b, EntriesOf);
      SumAppend(t.pending[..i], b, TotBytesOf);
      SumAppend(t.pending[..i], b, ZipBytesOf);
      assert LeafLists(t.pending[..i + 1]) == LeafLists(t.pending[..i]) + [b.leaves];
      u := u.(entries := u.entries + b.entries,
              totBytes := u.totBytes + b.totBytes,
              zipBytes := u.zipBytes + b.zipBytes,
              branches := u.branches + [b],
              leaves := u.leaves + [b.leaves]);
    }
    assert t.pending[..|t.pending|] == t.pending;
  }

  /** The tree's leaf lists are those of its branches, position by position. */
  predicate LeavesMatchBranches(t: Tree) {
    |t.leaves| == |t.branches| && forall k :: 0 <= k < |t.branches| ==> t.leaves[k] == t.branches[k].leaves
  }

  /** A new tree keeps the two lists aligned, and so does every
      accumulation. */
  lemma AccumulatedKeepsLeavesAligned(t: Tree)
    requires LeavesMatchBranches(t)
    ensures LeavesMatchBranches(Accumulated(t))
  {
    var u := Accumulated(t);
    forall k | 0 <= k < |u.branches|
      ensures u.leaves[k] == u.branches[k].leaves
    {
      if k >= |t.branches| {
        assert u.leaves[k] == LeafLists(t.pending)[k - |t.leaves|];
      }
    }
  }

  lemma NewTreeLeavesAligned(name: PyStr, title: PyStr, branches: seq<Branch>)
    ensures LeavesMatchBranches(NewTree(name, title, branches))
  {
  }

  /** The totals are added, not recomputed: a second write of the same tree
      counts every branch twice. */
  lemma {:induction false} AccumulatedTwice(t: Tree)
    ensures Accumulated(Accumulated(t)).entries == t.entries + 2 * Sum(t.pending, EntriesOf)
    ensures Accumulated(Accumulated(t)).branches == t.branches + t.pending + t.pending
    ensures t.pending != [] ==> Accumulated(Accumulated(t)) != Accumulated(t)
  {
    if t.pending != [] {
      assert |Accumulated(Accumulated(t)).branches| > |Accumulated(t).branches|;
    }
  }

  // ---------------------------------------------------------------- fields

  /** The tree's `>qqqqqdiiiiIqqqqqq` record, read as three runs of codes:
      fEntries, fTotBytes, fZipBytes, fSavedBytes, fFlushedBytes; then
      fWeight, fTimerInterval, fScanField, fUpdate, fDefaultEntryOffsetLen,
      fNClusterRange; then fMaxEntries, fMaxEntryLoop, fMaxVirtualSize,
      fAutoSave, fAutoFlush, fEstimate. */
  const TotalsCodes := ">qqqqq"
  const SettingsCodes := "diiiiI"
  const LimitsCodes := "qqqqqq"
  const TreeFormat := TotalsCodes + SettingsCodes + LimitsCodes

  function TotalValues(t: Tree): seq<Field> {
    [Int(t.entries), Int(t.totBytes), Int(t.zipBytes), Int(t.savedBytes), Int(t.flushedBytes)]
  }

  function SettingValues(t: Tree): seq<Field> {
    [Float(t.weight), Int(t.timerInterval), Int(t.scanField), Int(t.update),
     Int(t.defaultEntryOffsetLen), Int(t.nClusterRange)]
  }

  function LimitValues(t: Tree): seq<Field> {
    [Int(t.maxEntries), Int(t.maxEntryLoop), Int(t.maxVirtualSize), Int(t.autoSave),
     Int(t.autoFlush), Int(t.estimate)]
  }

  function TreeValues(t: Tree): seq<Field> {
    TotalValues(t) + SettingValues(t) + LimitValues(t)
  }

  predicate TotalsInRange(t: Tree) {
    IsInt64(t.entries) && IsInt64(t.totBytes) && IsInt64(t.zipBytes)
    && IsInt64(t.savedBytes) && IsInt64(t.flushedBytes)
  }

  predicate SettingsInRange(t: Tree) {
    |t.weight| == 8 && IsInt32(t.timerInterval) && IsInt32(t.scanField) && IsInt32(t.update)
    && IsInt32(t.defaultEntryOffsetLen) && IsUInt32(t.nClusterRange)
  }

  predicate LimitsInRange(t: Tree) {
    IsInt64(t.maxEntries) && IsInt64(t.maxEntryLoop) && IsInt64(t.maxVirtualSize)
    && IsInt64(t.autoSave) && IsInt64(t.autoFlush) && IsInt64(t.estimate)
  }

  predicate FieldsInRange(t: Tree) {
    TotalsInRange(t) && SettingsInRange(t) && LimitsInRange(t)
  }

  lemma TreeFields(t: Tree)
    ensures FitsFrom(TreeFormat, 1, TreeValues(t)) <==> FieldsInRange(t)
    ensures FitsFrom(TreeFormat, 1, TreeValues(t)) ==> CanonicalFrom(TreeFormat, 1, TreeValues(t))
    ensures CalcSize(TreeFormat) == 116
  {
    var a := TotalsCodes + SettingsCodes;
    var xs := TotalValues(t) + SettingValues(t);
    TotalsFit(t);
    SettingsFit(t);
    LimitsFit(t);
    FitsFromAppend(TotalsCodes, SettingsCodes, 1, TotalValues(t), SettingValues(t));
    FitsFromAppend(a, LimitsCodes, 1, xs, LimitValues(t));
    CanonicalFromAppend(TotalsCodes, SettingsCodes, 1, TotalValues(t), SettingValues(t));
    CanonicalFromAppend(a, LimitsCodes, 1, xs, LimitValues(t));
    SizeFromAppend(TotalsCodes, SettingsCodes, 1);
    SizeFromAppend(a, LimitsCodes, 1);
  }

  lemma {:induction false} TotalsFit(t: Tree)
    ensures FitsFrom(TotalsCodes, 1, TotalValues(t)) <==> TotalsInRange(t)
    ensures FitsFrom(TotalsCodes, 1, TotalValues(t)) ==> CanonicalFrom(TotalsCodes, 1, TotalValues(t))
    ensures SizeFrom(TotalsCodes, 1) == 40
  {
    Pow256Values();
    var vs := TotalValues(t);
    assert vs[1..][1..][1..][1..][1..] == [];
    IntsCanonical(TotalsCodes, 1, vs);
  }

  lemma {:induction false} SettingsFit(t: Tree)
    ensures FitsFrom(SettingsCodes, 0, SettingValues(t)) <==> SettingsInRange(t)
    ensures FitsFrom(SettingsCodes, 0, SettingValues(t)) ==> CanonicalFrom(SettingsCodes, 0, SettingValues(t))
    ensures SizeFrom(SettingsCodes, 0) == 28
  {
    Pow256Values();
    var vs := SettingValues(t);
    assert vs[1..][1..][1..][1..][1..][1..] == [];
    NoBoolsCanonical(SettingsCodes, 0, vs);
  }

  lemma {:induction false} LimitsFit(t: Tree)
    ensures FitsFrom(LimitsCodes, 0, LimitValues(t)) <==> LimitsInRange(t)
    ensures FitsFrom(LimitsCodes, 0, LimitValues(t)) ==> CanonicalFrom(LimitsCodes, 0, LimitValues(t))
    ensures SizeFrom(LimitsCodes, 0) == 48
  {
    Pow256Values();
    var vs := LimitValues(t);
    assert vs[1..][1..][1..][1..][1..][1..] == [];
    IntsCanonical(LimitsCodes, 0, vs);
  }

  /** A new tree's defaults all fit their codes; only the accumulated
      totals can push the fields record out of range. */
  lemma NewTreeInRange(name: PyStr, title: PyStr, branches: seq<Branch>)
    ensures AttributesInRange(NewTree(name, title, branches))
    ensures SettingsInRange(NewTree(name, title, branches)) && LimitsInRange(NewTree(name, title, branches))
    ensures TotalsInRange(Accumulated(NewTree(name, title, branches)))
            <==> IsInt64(Sum(branches, EntriesOf)) && IsInt64(Sum(branches, TotBytesOf)) && IsInt64(Sum(branches, ZipBytesOf))
  {
  }

  /** The accumulation shows in the record: the first three fields are the
      grown totals and the other fourteen are the table's own. */
  lemma AccumulatedValues(t: Tree)
    ensures TreeValues(Accumulated(t))[..3]
            == [Int(t.entries + Sum(t.pending, EntriesOf)), Int(t.totBytes + Sum(t.pending, TotBytesOf)),
                Int(t.zipBytes + Sum(t.pending, ZipBytesOf))]
    ensures TreeValues(Accumulated(t))[3..] == TreeValues(t)[3..]
  {
  }

  // ------------------------------------------------------------------ head

  function TreeNamed(c: Cursor, name: Bytes, t: Tree): Result<Put> {
    PutTNamed(c, TreeObjectBits, name, t.title)
  }

  function TreeNamedSize(name: Bytes, t: Tree): nat {
    16 + StringSize(name) + StringSize(t.title)
  }

  /** Line (12) + fill (10) + marker (14) + the fields record (116). */
  const TreeHeadFixedSize := 152

  predicate AttributesInRange(t: Tree) {
    && IsInt16(t.line.color) && IsInt16(t.line.style) && IsInt16(t.line.width)
    && IsInt16(t.fill.color) && IsInt16(t.fill.style)
    && IsInt16(t.marker.color) && IsInt16(t.marker.style) && |t.marker.size| == 4
  }

  /** Everything before the cluster arrays: the named header (the name the
      write is given, the tree's title), the line, fill and marker blocks
      and the fields record. */
  function TreeHead(c: Cursor, name: Bytes, t: Tree): (r: Result<Put>)
    ensures r.Ok? <==> TreeNamed(c, name, t).Ok? && AttributesInRange(t) && FieldsInRange(t)
    ensures r.Ok? ==> Advances(c, r.value) && |r.value.bytes| == TreeNamedSize(name, t) + TreeHeadFixedSize
  {
    TreeFields(t);
    var named :- TreeNamed(c, name, t);
    var line :- PutTAttLine(named.cursor, t.line);
    var fill :- PutTAttFill(line.cursor, t.fill);
    var marker :- PutTAttMarker(fill.cursor, t.marker);
    var fields :- PutFields(marker.cursor, TreeFormat, TreeValues(t));
    Ok(Then(Then(Then(Then(named, line), fill), marker), fields))
  }

  /** What a reader finds in the head, given the named header it starts with. */
  predicate HeadShape(bs: Bytes, t: Tree, named: Bytes) {
    var n := |named|;
    && |bs| == n + TreeHeadFixedSize
    && bs[..n] == named
    && FramedAs(bs[n..n + 12], AttVersion) && Decodes(">hhh", bs[n + 6..n + 12], LineValues(t.line))
    && FramedAs(bs[n + 12..n + 22], AttVersion) && Decodes(">hh", bs[n + 18..n + 22], FillValues(t.fill))
    && FramedAs(bs[n + 22..n + 36], AttVersion) && Decodes(">hhf", bs[n + 28..n + 36], MarkerValues(t.marker))
    && Decodes(TreeFormat, bs[n + 36..], TreeValues(t))
  }

  lemma TreeHeadLayout(c: Cursor, name: Bytes, t: Tree)
    requires TreeHead(c, name, t).Ok?
    ensures TreeNamed(c, name, t).Ok?
    ensures HeadShape(TreeHead(c, name, t).value.bytes, t, TreeNamed(c, name, t).value.bytes)
  {
    var named := TreeNamed(c, name, t).value;
    var line := PutTAttLine(named.cursor, t.line).value;
    var fill := PutTAttFill(line.cursor, t.fill).value;
    var marker := PutTAttMarker(fill.cursor, t.marker).value;
    var fields := PutFields(marker.cursor, TreeFormat, TreeValues(t)).value;
    var bs := TreeHead(c, name, t).value.bytes;
    assert bs == named.bytes + line.bytes + fill.bytes + marker.bytes + fields.bytes;
    assert FramedAs(line.bytes, AttVersion) && Decodes(">hhh", line.bytes[HeaderSize..], LineValues(t.line)) by {
      TAttLineReadsBack(named.cursor, t.line);
    }
    assert FramedAs(fill.bytes, AttVersion) && Decodes(">hh", fill.bytes[HeaderSize..], FillValues(t.fill)) by {
      TAttFillReadsBack(line.cursor, t.fill);
    }
    assert FramedAs(marker.bytes, AttVersion) && Decodes(">hhf", marker.bytes[HeaderSize..], MarkerValues(t.marker)) by {
      TAttMarkerReadsBack(fill.cursor, t.marker);
    }
    assert |fields.bytes| == 116 && Decodes(TreeFormat, fields.bytes, TreeValues(t)) by {
      TreeFields(t);
      PutFieldsReadsBack(marker.cursor, TreeFormat, TreeValues(t));
    }
    HeadFromPieces(bs, t, named.bytes, line.bytes, fill.bytes, marker.bytes, fields.bytes);
  }

  lemma HeadFromPieces(bs: Bytes, t: Tree, named: Bytes, line: Bytes, fill: Bytes, marker: Bytes, fields: Bytes)
    requires bs == named + line + fill + marker + fields
    requires |line| == 12 && FramedAs(line, AttVersion) && Decodes(">hhh", line[HeaderSize..], LineValues(t.line))
    requires |fill| == 10 && FramedAs(fill, AttVersion) && Decodes(">hh", fill[HeaderSize..], FillValues(t.fill))
    requires |marker| == 14 && FramedAs(marker, AttVersion) && Decodes(">hhf", marker[HeaderSize..], MarkerValues(t.marker))
    requires |fields| == 116 && Decodes(TreeFormat, fields, TreeValues(t))
    ensures HeadShape(bs, t, named)
  {
    HeadSlices(bs, named, line, fill, marker, fields);
  }

  lemma HeadSlices(bs: Bytes, named: Bytes, line: Bytes, fill: Bytes, marker: Bytes, fields: Bytes)
    requires bs == named + line + fill + marker + fields
    requires |line| == 12 && |fill| == 10 && |marker| == 14 && |fields| == 116
    ensures bs[..|named|] == named
    ensures bs[|named|..|named| + 12] == line && bs[|named| + 6..|named| + 12] == line[6..]
    ensures bs[|named| + 12..|named| + 22] == fill && bs[|named| + 18..|named| + 22] == fill[6..]
    ensures bs[|named| + 22..|named| + 36] == marker && bs[|named| + 28..|named| + 36] == marker[6..]
    ensures bs[|named| + 36..] == fields
  {
  }

  // -------------------------------------------------------------- clusters

  /** The cluster-range ends, a 0 byte, the cluster sizes, a 0 byte. */
  function Clusters(c: Cursor, rangeEnd: NumArray, sizes: NumArray): (r: Put)
    ensures Advances(c, r)
    ensures |r.bytes| == ArraySize(rangeEnd) + 1 + ArraySize(sizes) + 1
  {
    var ends := PutArray(c, rangeEnd);
    var first := PutLiteral(ends.cursor, [0]);
    var counts := PutArray(first.cursor, sizes);
    var second := PutLiteral(counts.cursor, [0]);
    Then(Then(Then(ends, first), counts), second)
  }

  /** Each cluster array is followed by exactly one 0 byte, and each reads
      back as the items it was given. */
  lemma ClusterSentinels(c: Cursor, rangeEnd: NumArray, sizes: NumArray)
    ensures Clusters(c, rangeEnd, sizes).bytes[ArraySize(rangeEnd)] == 0
    ensures Clusters(c, rangeEnd, sizes).bytes[ArraySize(rangeEnd) + 1 + ArraySize(sizes)] == 0
    ensures ArrayAt(Clusters(c, rangeEnd, sizes).bytes[..ArraySize(rangeEnd)], rangeEnd)
    ensures ArrayAt(Clusters(c, rangeEnd, sizes).bytes[ArraySize(rangeEnd) + 1..ArraySize(rangeEnd) + 1 + ArraySize(sizes)], sizes)
  {
    var ends := PutArray(c, rangeEnd);
    var counts := PutArray(Skip(ends.cursor, 1), sizes);
    var bs := Clusters(c, rangeEnd, sizes).bytes;
    assert bs == ends.bytes + [0] + counts.bytes + [0];
    ClusterSlices(bs, ends.bytes, counts.bytes);
  }

  lemma ClusterSlices(bs: Bytes, ends: Bytes, counts: Bytes)
    requires bs == ends + [0] + counts + [0]
    ensures bs[..|ends|] == ends && bs[|ends|] == 0
    ensures bs[|ends| + 1..|ends| + 1 + |counts|] == counts && bs[|ends| + 1 + |counts|] == 0
  {
  }

  // ---------------------------------------------------------------- arrays

  /** The branches, as dispatched values. */
  function BranchObjs(bs: seq<Branch>): (r: seq<Obj>)
    ensures |r| == |bs| && forall k :: 0 <= k < |bs| ==> r[k] == BranchObj(bs[k])
  {
    seq(|bs|, k requires 0 <= k < |bs| => BranchObj(bs[k]))
  }

  /** The leaf of every branch that has one, in branch order (see
      `LeafObjsConcat`). */
  function LeafObjs(bs: seq<Branch>): (r: seq<Obj>)
    ensures |r| <= |bs|
    ensures forall o :: o in r ==> o.LeafObj? && o.owner in bs && o.owner.leaves != []
    ensures forall b :: b in bs && b.leaves != [] ==> LeafObj(b) in r
  {
    CollectedLeaves(bs);
    Leaves(bs)
  }

  /** The leaf one branch contributes: its own, or none. */
  function LeafOf(b: Branch): seq<Obj> {
    if b.leaves != [] then [LeafObj(b)] else []
  }

  /** Each branch's contribution, concatenated. */
  function Leaves(bs: seq<Branch>): seq<Obj> {
    if bs == [] then [] else LeafOf(bs[0]) + Leaves(bs[1..])
  }

  /** What the collected leaves hold: only leaves of the given branches, and
      the leaf of every one that has one. */
  lemma {:induction false} CollectedLeaves(bs: seq<Branch>)
    ensures |Leaves(bs)| <= |bs|
    ensures forall o :: o in Leaves(bs) ==> o.LeafObj? && o.owner in bs && o.owner.leaves != []
    ensures forall b :: b in bs && b.leaves != [] ==> LeafObj(b) in Leaves(bs)
  {
    if bs != [] {
      CollectedLeaves(bs[1..]);
      assert bs == [bs[0]] + bs[1..];
    }
  }

  /** Collecting leaves distributes over concatenation: the leaves of
      earlier branches come first, so the collected leaves keep branch order. */
  lemma LeafObjsConcat(xs: seq<Branch>, ys: seq<Branch>)
    ensures LeafObjs(xs + ys) == LeafObjs(xs) + LeafObjs(ys)
  {
    LeavesConcat(xs, ys);
  }

  lemma {:induction false} LeavesConcat(xs: seq<Branch>, ys: seq<Branch>)
    ensures Leaves(xs + ys) == Leaves(xs) + Leaves(ys)
    decreases |xs|
  {
    if xs == [] {
      assert xs + ys == ys;
    } else {
      assert (xs + ys)[0] == xs[0] && (xs + ys)[1..] == xs[1..] + ys;
      LeavesConcat(xs[1..], ys);
    }
  }

  /** How many of the branches are of kind "int". */
  function IntBranches(bs: seq<Branch>): nat {
    if bs == [] then 0 else (if bs[0].kind == "int" then 1 else 0) + IntBranches(bs[1..])
  }

  /** For branches as the constructor builds them, the leaf array holds one
      leaf per branch of kind "int". */
  lemma {:induction false} LeafObjsOfInts(bs: seq<Branch>)
    requires forall k :: 0 <= k < |bs| ==> bs[k].leaves == (if bs[k].kind == "int" then ["TLeafI"] else [])
    ensures |LeafObjs(bs)| == IntBranches(bs)
  {
    if bs != [] {
      assert forall k :: 0 <= k < |bs[1..]| ==> bs[1..][k] == bs[k + 1];
      LeafObjsOfInts(bs[1..]);
    }
  }

  function TreeBranchArray<S>(d: Dispatcher<Obj, S>, st: S, c: Cursor, t: Tree): Result<Emitted<S>> {
    PutTObjArray(d, st, c, Many(BranchObjs(t.branches)), "TBranch", ObjArrayBits, false)
  }

  function TreeLeafArray<S>(d: Dispatcher<Obj, S>, st: S, c: Cursor, t: Tree): Result<Emitted<S>> {
    PutTObjArray(d, st, c, Many(LeafObjs(t.branches)), "TLeaf", ObjArrayBits, false)
  }

  /** The IO features, the branch array and the leaf array. */
  function TreeArrays<S>(d: Dispatcher<Obj, S>, st: S, c: Cursor, t: Tree): (r: Result<Emitted<S>>)
    ensures r.Ok? ==> Advances(c, r.value.put)
    ensures r.Ok? ==> TreeBranchArray(d, st, Skip(c, 11), t).Ok?
    ensures r.Ok? ==> |r.value.put.bytes| >= 11
  {
    var io := PutRootIOFeatures(c);
    assert io.cursor == Skip(c, 11);
    var branches :- TreeBranchArray(d, st, io.cursor, t);
    var leaves :- TreeLeafArray(d, branches.state, branches.put.cursor, t);
    Ok(Emitted(Then(Then(io, branches.put), leaves.put), leaves.state))
  }

  /** The IO features, then an array of `n` bytes announcing one entry per
      branch, then an array announcing one entry per leaf. */
  predicate ArraysShape(bs: Bytes, n: nat, t: Tree) {
    && |bs| >= 11 + n
    && bs[..11] == IOFeaturesBytes
    && ObjArrayHead(bs[11..11 + n], ObjArrayBits, |t.branches|)
    && ObjArrayHead(bs[11 + n..], ObjArrayBits, |LeafObjs(t.branches)|)
  }

  lemma TreeArraysLayout<S>(d: Dispatcher<Obj, S>, st: S, c: Cursor, t: Tree)
    requires TreeArrays(d, st, c, t).Ok?
    ensures TreeBranchArray(d, st, Skip(c, 11), t).Ok?
    ensures ArraysShape(TreeArrays(d, st, c, t).value.put.bytes, |TreeBranchArray(d, st, Skip(c, 11), t).value.put.bytes|, t)
  {
    var io := PutRootIOFeatures(c);
    var branches := TreeBranchArray(d, st, io.cursor, t).value;
    var leaves := TreeLeafArray(d, branches.state, branches.put.cursor, t).value;
    var bs := TreeArrays(d, st, c, t).value.put.bytes;
    assert bs == io.bytes + branches.put.bytes + leaves.put.bytes;
    assert ObjArrayHead(branches.put.bytes, ObjArrayBits, |t.branches|) by {
      ObjArrayShape(d, st, io.cursor, Many(BranchObjs(t.branches)), "TBranch", ObjArrayBits, false);
    }
    assert ObjArrayHead(leaves.put.bytes, ObjArrayBits, |LeafObjs(t.branches)|) by {
      ObjArrayShape(d, branches.state, branches.put.cursor, Many(LeafObjs(t.branches)), "TLeaf", ObjArrayBits, false);
    }
    ArraysFromPieces(bs, io.bytes, branches.put.bytes, leaves.put.bytes, t);
  }

  lemma ArraysFromPieces(bs: Bytes, io: Bytes, branches: Bytes, leaves: Bytes, t: Tree)
    requires bs == io + branches + leaves && io == IOFeaturesBytes
    requires ObjArrayHead(branches, ObjArrayBits, |t.branches|)
    requires ObjArrayHead(leaves, ObjArrayBits, |LeafObjs(t.branches)|)
    ensures ArraysShape(bs, |branches|, t)
  {
    IOFeaturesShape();
    ThreeParts(io, branches, leaves);
  }

  // ------------------------------------------------------------------ tail

  /** `put_tarray`'s bytes for one numpy array: the count as `>i`, then the
      items. */
  predicate TArrayAt(bs: Bytes, a: NumArray) {
    && |bs| == 4 + ArraySize(a)
    && Decodes(">i", bs[..4], [Int(|a.items|)])
    && ArrayAt(bs[4..], a)
  }

  function AliasesAt<S>(d: Dispatcher<Obj, S>, st: S, c: Cursor, t: Tree): Result<Emitted<S>> {
    PutObjAny(d, st, c, t.aliases, "TList")
  }

  /** The index values and the index, each as a TArray. */
  function IndexArrays(c: Cursor, indexValues: NumArray, index: NumArray): (r: Result<Put>)
    ensures r.Ok? <==> |indexValues.items| < Pow256(4) / 2 && |index.items| < Pow256(4) / 2
    ensures r.Ok? ==> Advances(c, r.value) && |r.value.bytes| == 8 + ArraySize(indexValues) + ArraySize(index)
  {
    var values :- PutTArray(c, indexValues);
    var idx :- PutTArray(values.cursor, index);
    Ok(Then(values, idx))
  }

  lemma IndexArraysLayout(c: Cursor, indexValues: NumArray, index: NumArray)
    requires IndexArrays(c, indexValues, index).Ok?
    ensures TArrayAt(IndexArrays(c, indexValues, index).value.bytes[..4 + ArraySize(indexValues)], indexValues)
    ensures TArrayAt(IndexArrays(c, indexValues, index).value.bytes[4 + ArraySize(indexValues)..], index)
  {
    var values := PutTArray(c, indexValues).value;
    var idx := PutTArray(values.cursor, index).value;
    assert TArrayAt(values.bytes, indexValues) by {
      TArrayReadsBack(c, indexValues);
    }
    assert TArrayAt(idx.bytes, index) by {
      TArrayReadsBack(values.cursor, index);
    }
    var bs := IndexArrays(c, indexValues, index).value.bytes;
    assert bs == values.bytes + idx.bytes;
    assert bs[..|values.bytes|] == values.bytes && bs[|values.bytes|..] == idx.bytes;
  }

  /** The tree index, the friends, the user info and the branch reference,
      each dispatched with its expected class. */
  function TrailingObjects<S>(d: Dispatcher<Obj, S>, st: S, c: Cursor, t: Tree): (r: Result<Emitted<S>>)
    ensures r.Ok? ==> Advances(c, r.value.put)
    ensures r.Ok? ==> d(st, c.index, t.treeIndex, "TVirtualIndex").Ok?
  {
    var treeIndex :- PutObjAny(d, st, c, t.treeIndex, "TVirtualIndex");
    var friends :- PutObjAny(d, treeIndex.state, treeIndex.put.cursor, t.friends, "TList");
    var userInfo :- PutObjAny(d, friends.state, friends.put.cursor, t.userInfo, "TList");
    var branchRef :- PutObjAny(d, userInfo.state, userInfo.put.cursor, t.branchRef, "TBranchRef");
    Ok(Emitted(Then(Then(Then(treeIndex.put, friends.put), userInfo.put), branchRef.put), branchRef.state))
  }

  /** After the arrays: the aliases, the two TArrays, the trailing objects. */
  function TreeTail<S>(d: Dispatcher<Obj, S>, st: S, c: Cursor, t: Tree, indexValues: NumArray, index: NumArray)
    : (r: Result<Emitted<S>>)
    ensures r.Ok? ==> Advances(c, r.value.put)
    ensures r.Ok? ==> AliasesAt(d, st, c, t).Ok?
    ensures r.Ok? ==> IndexArrays(AliasesAt(d, st, c, t).value.put.cursor, indexValues, index).Ok?
    ensures r.Ok? ==> |r.value.put.bytes| >= |AliasesAt(d, st, c, t).value.put.bytes| + 8 + ArraySize(indexValues) + ArraySize(index)
  {
    var aliases :- AliasesAt(d, st, c, t);
    var arrays :- IndexArrays(aliases.put.cursor, indexValues, index);
    var objects :- TrailingObjects(d, aliases.state, arrays.cursor, t);
    Ok(Emitted(Then(Then(aliases.put, arrays), objects.put), objects.state))
  }

  /** A tail that starts with `aliases`, then the index values and the index as TArrays. */
  predicate TailShape(bs: Bytes, aliases: Bytes, indexValues: NumArray, index: NumArray) {
    var k := |aliases|;
    var m := k + 4 + ArraySize(indexValues);
    m + 4 + ArraySize(index) <= |bs|
    && bs[..k] == aliases
    && TArrayAt(bs[k..m], indexValues)
    && TArrayAt(bs[m..m + 4 + ArraySize(index)], index)
  }

  lemma TreeTailLayout<S>(d: Dispatcher<Obj, S>, st: S, c: Cursor, t: Tree, indexValues: NumArray, index: NumArray)
    requires TreeTail(d, st, c, t, indexValues, index).Ok?
    ensures TailShape(TreeTail(d, st, c, t, indexValues, index).value.put.bytes, AliasesAt(d, st, c, t).value.put.bytes,
                      indexValues, index)
  {
    var aliases := AliasesAt(d, st, c, t).value;
    var arrays := IndexArrays(aliases.put.cursor, indexValues, index).value;
    var objects := TrailingObjects(d, aliases.state, arrays.cursor, t).value;
    var bs := TreeTail(d, st, c, t, indexValues, index).value.put.bytes;
    assert bs == aliases.put.bytes + arrays.bytes + objects.put.bytes;
    IndexArraysLayout(aliases.put.cursor, indexValues, index);
    TailFromPieces(bs, aliases.put.bytes, arrays.bytes, objects.put.bytes, indexValues, index);
  }

  lemma TailFromPieces(bs: Bytes, aliases: Bytes, arrays: Bytes, rest: Bytes, indexValues: NumArray, index: NumArray)
    requires bs == aliases + arrays + rest
    requires |arrays| == 8 + ArraySize(indexValues) + ArraySize(index)
    requires TArrayAt(arrays[..4 + ArraySize(indexValues)], indexValues)
    requires TArrayAt(arrays[4 + ArraySize(indexValues)..], index)
    ensures TailShape(bs, aliases, indexValues, index)
  {
    var k := |aliases|;
    var m := k + 4 + ArraySize(indexValues);
    assert bs[k..m] == arrays[..4 + ArraySize(indexValues)];
    assert bs[m..m + 4 + ArraySize(index)] == arrays[4 + ArraySize(indexValues)..];
  }

  // ---------------------------------------------------------------- record

  /** What a write leaves behind: the record, the dispatcher's state and the
      tree's updated field table. */
  datatype Written<S> = Written(put: Put, state: S, tree: Tree)

  /** The record body after the six-byte header: head, cluster arrays, IO
      features and the object arrays, then the tail. */
  function TreeBody<S>(d: Dispatcher<Obj, S>, st: S, c: Cursor, name: Bytes, u: Tree,
                       ends: NumArray, sizes: NumArray, indexValues: NumArray, index: NumArray)
    : (r: Result<Emitted<S>>)
    ensures r.Ok? ==> Advances(c, r.value.put)
    ensures r.Ok? ==> TreeHead(c, name, u).Ok?
    ensures TreeHead(c, name, u).Err? ==> r.Err?
    ensures r.Ok? ==> |r.value.put.bytes| >= TreeNamedSize(name, u) + TreeHeadFixedSize + ArraySize(ends) + ArraySize(sizes) + 2 + 11
  {
    var head :- TreeHead(c, name, u);
    var rest :- TreeRest(d, st, head.cursor, u, ends, sizes, indexValues, index);
    Ok(Emitted(Then(head, rest.put), rest.state))
  }

  /** Everything after the head. */
  function TreeRest<S>(d: Dispatcher<Obj, S>, st: S, c: Cursor, u: Tree,
                       ends: NumArray, sizes: NumArray, indexValues: NumArray, index: NumArray)
    : (r: Result<Emitted<S>>)
    ensures r.Ok? ==> Advances(c, r.value.put)
    ensures r.Ok? ==> |r.value.put.bytes| >= ArraySize(ends) + ArraySize(sizes) + 2 + 11
  {
    var clusters := Clusters(c, ends, sizes);
    var arrays :- TreeArrays(d, st, clusters.cursor, u);
    var tail :- TreeTail(d, arrays.state, arrays.put.cursor, u, indexValues, index);
    Ok(Emitted(Then(Then(clusters, arrays.put), tail.put), tail.state))
  }

  /** `TTree.write`: the four numeric lists become numpy arrays (the cluster
      lists as host-order int64, the index values as big-endian doubles, the
      index as big-endian int64), the branch totals are accumulated into the
      table, and the body is framed as a version-20 record.  The name written
      is the one the write is given, not the tree's own. */
  function WriteTree<S>(d: Dispatcher<Obj, S>, st: S, c: Cursor, name: Bytes, t: Tree): (r: Result<Written<S>>)
    ensures r.Ok? ==> Advances(c, r.value.put) && r.value.tree == Accumulated(t)
    ensures r.Ok? ==> FieldsInRange(Accumulated(t)) && AttributesInRange(t)
    ensures (exists k :: 0 <= k < |t.clusterRangeEnd| && !ItemFits(Int64Host, t.clusterRangeEnd[k]))
            ==> r == Err(OverflowError)
    ensures (exists k :: 0 <= k < |t.index| && !ItemFits(Int64Big, t.index[k])) ==> r.Err?
  {
    var ends :- ToArray(Int64Host, t.clusterRangeEnd);
    var sizes :- ToArray(Int64Host, t.clusterSize);
    var indexValues :- ToArray(Float64Big, t.indexValues);
    var index :- ToArray(Int64Big, t.index);
    var u := Accumulated(t);
    var body :- TreeBody(d, st, Skip(c, HeaderSize), name, u, ends, sizes, indexValues, index);
    var framed :- Framed(c, TreeVersion, body.put);
    Ok(Written(framed, body.state, u))
  }

  /** The converted arrays a successful write used. */
  lemma WriteTreeArrays<S>(d: Dispatcher<Obj, S>, st: S, c: Cursor, name: Bytes, t: Tree)
    requires WriteTree(d, st, c, name, t).Ok?
    ensures ToArray(Int64Host, t.clusterRangeEnd).Ok? && ToArray(Int64Host, t.clusterSize).Ok?
    ensures ToArray(Float64Big, t.indexValues).Ok? && ToArray(Int64Big, t.index).Ok?
    ensures var body := TreeBody(d, st, Skip(c, HeaderSize), name, Accumulated(t),
                                 ToArray(Int64Host, t.clusterRangeEnd).value, ToArray(Int64Host, t.clusterSize).value,
                                 ToArray(Float64Big, t.indexValues).value, ToArray(Int64Big, t.index).value);
            && body.Ok?
            && FramedAs(WriteTree(d, st, c, name, t).value.put.bytes, TreeVersion)
            && WriteTree(d, st, c, name, t).value.put.bytes[HeaderSize..] == body.value.put.bytes
  {
    var ends := ToArray(Int64Host, t.clusterRangeEnd).value;
    var sizes := ToArray(Int64Host, t.clusterSize).value;
    var indexValues := ToArray(Float64Big, t.indexValues).value;
    var index := ToArray(Int64Big, t.index).value;
    var body := TreeBody(d, st, Skip(c, HeaderSize), name, Accumulated(t), ends, sizes, indexValues, index).value;
    assert WriteTree(d, st, c, name, t).value.put == Framed(c, TreeVersion, body.put).value;
    FrameHeader(TreeVersion, body.put.bytes);
  }

  /** What a reader finds after the head: the cluster-range ends and a 0
      byte, the cluster sizes and a 0 byte, then the IO-features record. */
  predicate RestShape(bs: Bytes, ends: NumArray, sizes: NumArray) {
    var e := ArraySize(ends);
    var s := ArraySize(sizes);
    && |bs| >= e + s + 13
    && ArrayAt(bs[..e], ends) && bs[e] == 0
    && ArrayAt(bs[e + 1..e + 1 + s], sizes) && bs[e + 1 + s] == 0
    && bs[e + s + 2..e + s + 13] == IOFeaturesBytes
  }

  lemma TreeRestLayout<S>(d: Dispatcher<Obj, S>, st: S, c: Cursor, u: Tree,
                          ends: NumArray, sizes: NumArray, indexValues: NumArray, index: NumArray)
    requires TreeRest(d, st, c, u, ends, sizes, indexValues, index).Ok?
    ensures RestShape(TreeRest(d, st, c, u, ends, sizes, indexValues, index).value.put.bytes, ends, sizes)
  {
    var clusters := Clusters(c, ends, sizes);
    var arrays := TreeArrays(d, st, clusters.cursor, u).value;
    var tail := TreeTail(d, arrays.state, arrays.put.cursor, u, indexValues, index).value;
    var bs := TreeRest(d, st, c, u, ends, sizes, indexValues, index).value.put.bytes;
    assert bs == clusters.bytes + arrays.put.bytes + tail.put.bytes;
    ClusterSentinels(c, ends, sizes);
    assert arrays.put.bytes[..11] == IOFeaturesBytes by {
      TreeArraysLayout(d, st, clusters.cursor, u);
    }
    RestFromPieces(bs, clusters.bytes, arrays.put.bytes, tail.put.bytes, ends, sizes);
  }

  /** The rest of the body is exactly the clusters, then the tree's object
      arrays where the clusters end, then the tail where the arrays end. */
  lemma TreeRestParts<S>(d: Dispatcher<Obj, S>, st: S, c: Cursor, u: Tree,
                         ends: NumArray, sizes: NumArray, indexValues: NumArray, index: NumArray)
    requires TreeRest(d, st, c, u, ends, sizes, indexValues, index).Ok?
    ensures TreeArrays(d, st, Clusters(c, ends, sizes).cursor, u).Ok?
    ensures var a := TreeArrays(d, st, Clusters(c, ends, sizes).cursor, u).value;
      && TreeTail(d, a.state, a.put.cursor, u, indexValues, index).Ok?
      && TreeRest(d, st, c, u, ends, sizes, indexValues, index).value.put.bytes
         == Clusters(c, ends, sizes).bytes + a.put.bytes
            + TreeTail(d, a.state, a.put.cursor, u, indexValues, index).value.put.bytes
  {
  }

  lemma RestFromPieces(bs: Bytes, clusters: Bytes, arrays: Bytes, tail: Bytes, ends: NumArray, sizes: NumArray)
    requires bs == clusters + arrays + tail
    requires |clusters| == ArraySize(ends) + 1 + ArraySize(sizes) + 1
    requires ArrayAt(clusters[..ArraySize(ends)], ends) && clusters[ArraySize(ends)] == 0
    requires ArrayAt(clusters[ArraySize(ends) + 1..ArraySize(ends) + 1 + ArraySize(sizes)], sizes)
    requires clusters[ArraySize(ends) + 1 + ArraySize(sizes)] == 0
    requires |arrays| >= 11 && arrays[..11] == IOFeaturesBytes
    ensures RestShape(bs, ends, sizes)
  {
    var e := ArraySize(ends);
    var s := ArraySize(sizes);
    assert bs[..e] == clusters[..e];
    assert bs[e + 1..e + 1 + s] == clusters[e + 1..e + 1 + s];
    assert bs[e + s + 2..e + s + 13] == arrays[..11];
  }

  /** What a reader finds in the body: after the named header (of
      `namedSize` bytes) and the 36 attribute bytes, the fields record with
      the tree's values, then the rest as above. */
  predicate BodyShape(bs: Bytes, namedSize: nat, u: Tree, ends: NumArray, sizes: NumArray) {
    var p := namedSize + 36;
    var h := namedSize + TreeHeadFixedSize;
    && |bs| >= h
    && Decodes(TreeFormat, bs[p..h], TreeValues(u))
    && RestShape(bs[h..], ends, sizes)
  }

  lemma TreeBodyLayout<S>(d: Dispatcher<Obj, S>, st: S, c: Cursor, name: Bytes, u: Tree,
                          ends: NumArray, sizes: NumArray, indexValues: NumArray, index: NumArray)
    requires TreeBody(d, st, c, name, u, ends, sizes, indexValues, index).Ok?
    ensures BodyShape(TreeBody(d, st, c, name, u, ends, sizes, indexValues, index).value.put.bytes,
                      TreeNamedSize(name, u), u, ends, sizes)
  {
    var head := TreeHead(c, name, u).value;
    var rest := TreeRest(d, st, head.cursor, u, ends, sizes, indexValues, index).value;
    var bs := TreeBody(d, st, c, name, u, ends, sizes, indexValues, index).value.put.bytes;
    assert bs == head.bytes + rest.put.bytes;
    var named := TreeNamed(c, name, u).value.bytes;
    assert |named| == TreeNamedSize(name, u);
    assert HeadShape(head.bytes, u, named) by {
      TreeHeadLayout(c, name, u);
    }
    assert RestShape(rest.put.bytes, ends, sizes) by {
      TreeRestLayout(d, st, head.cursor, u, ends, sizes, indexValues, index);
    }
    BodyFromPieces(bs, head.bytes, rest.put.bytes, named, u, ends, sizes);
  }

  /** The body is exactly the head, then the rest where the head ends. */
  lemma TreeBodyParts<S>(d: Dispatcher<Obj, S>, st: S, c: Cursor, name: Bytes, u: Tree,
                         ends: NumArray, sizes: NumArray, indexValues: NumArray, index: NumArray)
    requires TreeBody(d, st, c, name, u, ends, sizes, indexValues, index).Ok?
    ensures TreeHead(c, name, u).Ok?
    ensures var h := TreeHead(c, name, u).value;
      && TreeRest(d, st, h.cursor, u, ends, sizes, indexValues, index).Ok?
      && TreeBody(d, st, c, name, u, ends, sizes, indexValues, index).value.put.bytes
         == h.bytes + TreeRest(d, st, h.cursor, u, ends, sizes, indexValues, index).value.put.bytes
  {
  }

  lemma BodyFromPieces(bs: Bytes, head: Bytes, rest: Bytes, named: Bytes, u: Tree, ends: NumArray, sizes: NumArray)
    requires bs == head + rest
    requires HeadShape(head, u, named)
    requires RestShape(rest, ends, sizes)
    ensures BodyShape(bs, |named|, u, ends, sizes)
  {
    var n := |named|;
    assert bs[n + 36..n + TreeHeadFixedSize] == head[n + 36..];
    assert bs[n + TreeHeadFixedSize..] == rest;
  }

  /** A written tree is a version-20 record whose fields record carries the
      ACCUMULATED totals, and whose cluster arrays read back as the table's
      lists, each followed by its 0 byte. */
  lemma WriteTreeLayout<S>(d: Dispatcher<Obj, S>, st: S, c: Cursor, name: Bytes, t: Tree)
    requires WriteTree(d, st, c, name, t).Ok?
    ensures ToArray(Int64Host, t.clusterRangeEnd).Ok? && ToArray(Int64Host, t.clusterSize).Ok?
    ensures FramedAs(WriteTree(d, st, c, name, t).value.put.bytes, TreeVersion)
    ensures BodyShape(WriteTree(d, st, c, name, t).value.put.bytes[HeaderSize..], TreeNamedSize(name, t),
                      Accumulated(t), ToArray(Int64Host, t.clusterRangeEnd).value, ToArray(Int64Host, t.clusterSize).value)
  {
    WriteTreeArrays(d, st, c, name, t);
    var u := Accumulated(t);
    var ends := ToArray(Int64Host, t.clusterRangeEnd).value;
    var sizes := ToArray(Int64Host, t.clusterSize).value;
    var body := TreeBody(d, st, Skip(c, HeaderSize), name, u, ends, sizes,
                         ToArray(Float64Big, t.indexValues).value, ToArray(Int64Big, t.index).value);
    assert BodyShape(body.value.put.bytes, TreeNamedSize(name, u), u, ends, sizes) by {
      TreeBodyLayout(d, st, Skip(c, HeaderSize), name, u, ends, sizes,
                     ToArray(Float64Big, t.indexValues).value, ToArray(Int64Big, t.index).value);
    }
    assert TreeNamedSize(name, u) == TreeNamedSize(name, t);
  }

  // --------------------------------------------------------- as written

  /** The two arguments the leaf-array call evaluates when the tree has
      branches, as written: the first leaf name of the first branch becomes
      the values and its second leaf name the class name. */
  function TreeLeafArgumentsAsWritten(leaves: seq<seq<string>>): (r: Result<(string, string)>)
    ensures r.Ok? ==> |leaves| > 0 && r.value.0 in leaves[0] && r.value.1 in leaves[0]
    ensures r.Err? ==> r.error == IndexError
  {
    if |leaves| == 0 || |leaves[0]| < 1 then Err(IndexError)
    else if |leaves[0]| < 2 then Err(IndexError)
    else Ok((leaves[0][0], leaves[0][1]))
  }

  /** Branches as the constructor builds them: an "int" branch names the
      single leaf class "TLeafI", any other kind names none. */
  predicate ConstructorLeaves(bs: seq<Branch>) {
    forall k :: 0 <= k < |bs| ==> bs[k].leaves == (if bs[k].kind == "int" then ["TLeafI"] else [])
  }

  /** No write of a tree with at least one constructor-built branch gets
      past the leaf array's arguments: the first leaf list has at most one
      name, so the index [0][1] (or [0][0]) is out of range. */
  lemma TreeLeafArgumentsAlwaysFail(t: Tree)
    requires LeavesMatchBranches(t)
    requires ConstructorLeaves(t.branches) && ConstructorLeaves(t.pending)
    requires t.branches + t.pending != []
    ensures TreeLeafArgumentsAsWritten(Accumulated(t).leaves) == Err(IndexError)
  {
    AccumulatedKeepsLeavesAligned(t);
    var u := Accumulated(t);
    assert u.leaves[0] == u.branches[0].leaves;
    if t.branches == [] {
      assert u.branches[0] == t.pending[0];
    }
  }
}
